=== FILE: README.md ===
# VulkanRendering core, modelled in Dafny

This project models the integer, sequence and map logic inside the Vulkan and VMA wrapper of the Newcastle Vulkan tutorial framework. It states properties of that logic and proves them. Every Vulkan or VMA call is an input to the model rather than something it computes:

- size queries, device addresses and surface capabilities;
- queue-family flags and present support;
- created handles and file contents;
- shader reflection output.

The modules follow the source components:

- `Common`: handles, `Option`/`Result`, uint32/int32 conversions, sums and small arithmetic facts.
- `Countdown`: the deferred-deletion countdown list shared by the VMA memory manager and the staging-buffer pool. Update decrements every entry and erases those reaching zero. There are lifetime, order and partition lemmas.
- `VulkanBuffers`: VulkanBuffer construction, moves and the destructor's release rule.
- `VmaMemory`: VMABuffer moves and Destroy, the manager's deferred and immediate DiscardBuffer, its Update and destructor, CreateBuffer flag derivation, and the image allocation map.
- `Staging`: the staging-buffer pool (GetStagingBuffer, Update, the default of three frames in flight).
- `Bvh`: the acceleration-structure builder:
  - mesh deduplication in first-seen order;
  - per-submesh bottom-level ranges and summed sizes with one shared scratch buffer;
  - top-level instance packing, where the column-major model matrix is transposed into the 3×4 instance transform.
- `Sbt`: the shader-binding-table builder: round-up to a multiple, group classification counts, region sizes, strides, device offsets and handle placement.
- `Renderer`: frame pacing (ring slot, timeline wait and signal values), the minimised-window branches, the resize guard, and the swap-chain present-mode and image-count choice.
- `QueueFamilies`: queue-family selection by minimal flag popcount, with the compute and copy fallbacks.
- `Mesh`: vertex attribute selection, bindings, locations, the attribute mask, buffer offsets, the allocation size, draws and the index/attribute queries.
- `Texture`: GetMaxMips as the bit length of the largest dimension, and the mip chain GenerateMipMaps records per layer.
- `TextureBuilder`: builder defaults, mutually exclusive command sources, GenerateTexture parameters, staging layout, EndTexture, and the job queue with its ownership of face data.
- `ShaderReflection`: VulkanShaderBase: merging reflected descriptor bindings and push-constant ranges across stages, the layout queries, and BuildLayouts.
- `PipelineLayouts`: PipelineBuilderBase set-slot padding, FinaliseDescriptorLayouts, the layout and descriptor-buffer setters, and the compute builder's slot list, push constants and null patching.
- `RayTracingPipeline`: group constructors, WithShader, and Build's stage and group assembly. A lemma links the group order to the binding-table regions.
- `Shader`: VulkanShader stage compaction and the ShaderBuilder's per-stage binaries and Build.
- `GraphicsPipeline`: PipelineBuilder defaults and setters, default blend states, and the dynamic-rendering info in Build.
- `DynamicRender`: DynamicRenderBuilder attachments, the stencil toggle in Build, render-area setters, and the automatic scissor in BeginRendering.

Where a function is declared in a header from a different revision than its body, the body is followed. Examples: `m_sourceManager` in VulkanBuffer.cpp, and `m_mipCount` in VulkanTextureBuilder.cpp.

## Notes on the code's behaviour

These are stated as the code has them:

- Frame slots. BeginFrame advances the slot before recording, so frame g records into slot (g + 1) mod F.
- Timeline values. EndFrame signals g + F and BeginFrame (from frame F on) waits for g. The value waited on at frame g is therefore the one signalled by frame g − F on the same slot.
- Resize guard. OnWindowResize returns early only when both dimensions are zero.
- Minimised window. The swap image is still acquired; only the fence wait, the asynchronous submit and the present change.
- Graphics layouts. The graphics PipelineBuilder's Build creates its layout from `allLayouts` directly, without calling FinaliseDescriptorLayouts. GraphicsPipeline.Build follows that.

## Model

| member | source | states |
|---|---|---|
| Countdown.Tick | VulkanVMAMemoryManager.cpp:137-150 | one Update over the deferred list: counters stay within uint32 and the list never grows (entries at 1 are removed, the rest count down by one) |
| Countdown.Update | VulkanStagingBuffers.cpp:38-51 | the iterator loop that decrements each entry and erases it at zero yields exactly the entry-by-entry countdown Tick |
| Countdown.Items | VulkanStagingBuffers.h:27-32 | the resources held by the list, in list order, one per entry |
| Countdown.TickPartition | VulkanVMAMemoryManager.cpp:137-150 | nothing is lost or duplicated by Update: survivors plus erased entries are exactly the resources held before (as multisets, and by count) |
| Countdown.TickAppend | VulkanVMAMemoryManager.cpp:141-148 | Update treats each entry independently of its neighbours: it distributes over concatenation |
| Countdown.TickSingle | VulkanVMAMemoryManager.cpp:141-145 | a single entry is erased when its counter reaches zero and otherwise stays with its counter one lower |
| Countdown.TickNAppend | VulkanVMAMemoryManager.cpp:137-150 | n frames of Update also distribute over concatenation |
| Countdown.TickNEmpty | VulkanVMAMemoryManager.cpp:138-139 | an empty list stays empty across any number of frames |
| Countdown.TickNSingle | VulkanVMAMemoryManager.cpp:141-145 | an entry whose counter is k survives n < k frames with counter k - n and is gone after k frames |
| Countdown.Lifetime | VulkanVMAMemoryManager.cpp:137-150 | whatever its neighbours, an entry with counter k is still in the list after n < k frames, counter k - n, and gone after k frames |
| Countdown.DecrementAll | VulkanStagingBuffers.cpp:42 | every entry keeps its item and loses one from its counter |
| Countdown.TickErasesPrefix | VulkanStagingBuffers.cpp:38-51 | on a list of entries appended with the same frame count, Update erases exactly the leading entries at 1 and decrements the rest |
| Countdown.AppendKeepsOrdered | VulkanStagingBuffers.cpp:26-31 | appending a new entry with the full frame count keeps counters in 1..framesInFlight and non-decreasing |
| Countdown.TickKeepsOrdered | VulkanStagingBuffers.cpp:38-51 | Update keeps counters in 1..framesInFlight and non-decreasing |
| VulkanBuffers.Default | VulkanBuffer.cpp:16-20 | a default buffer owns nothing, with size and device address zero |
| VulkanBuffers.MoveConstruct | VulkanBuffer.cpp:22-30 | the new buffer takes over the source's handle, size, address and manager; the source is left owning nothing, size zero |
| VulkanBuffers.MoveAssign | VulkanBuffer.cpp:32-45 | as written: self-assignment changes nothing; otherwise the target takes the source's fields and the source owns nothing, and the target's previous buffer is not handed back |
| VulkanBuffers.MoveAssignReleasing | VulkanBuffer.cpp:32-45 | corrected: the same move, but the target's previous buffer is handed back to its manager |
| VulkanBuffers.MoveConservesOwnership | VulkanBuffer.cpp:22-45 | move construction and the releasing move assignment neither duplicate nor lose an owned buffer |
| VulkanBuffers.MovedFromNeverDiscards | VulkanBuffer.cpp:47-51 | the destructor of a moved-from or default buffer discards nothing |
| VulkanBuffers.MoveAssignLosesTarget | VulkanBuffer.cpp:32-45 | a concrete assignment after which the target's earlier buffer is owned by nobody |
| VulkanBuffers.EraseAsWritten | VulkanStagingBuffers.cpp:45 | vector::erase with the as-written assignment: the survivors are the other entries, but only erasing the last element discards its buffer |
| VulkanBuffers.EraseReleasing | VulkanStagingBuffers.cpp:45 | erase with the releasing assignment discards exactly the erased element's buffer |
| Staging.NewPool | VulkanStagingBuffers.cpp:15-19 | an empty pool whose frame count is the one given, or three when none is given |
| Staging.RequestFor | VulkanStagingBuffers.cpp:26-30 | a staging request is a host-visible transfer-source buffer of the requested size |
| Staging.GetStagingBuffer | VulkanStagingBuffers.cpp:25-36 | the built buffer is appended as one entry at the back with the full frame count; earlier entries are untouched and the returned index is that new entry |
| Staging.Update | VulkanStagingBuffers.cpp:38-51 | the pool's leading expiring entries are erased and every other entry counts down once |
| Staging.StagingLifetime | VulkanStagingBuffers.cpp:25-51 | a staging buffer handed out now stays active for framesInFlight - 1 Updates and is gone after framesInFlight |
| Staging.RendererPoolLifetime | VulkanStagingBuffers.h:16 | with the default three frames a staging buffer survives two Updates and is gone after the third |
| VmaMemory.Destroy | VulkanVMAMemoryManager.h:37-45 | the allocation is released exactly when an allocator is set, after which the buffer holds none; without an allocator nothing changes |
| VmaMemory.DestroyIdempotent | VulkanVMAMemoryManager.h:32-45 | a second Destroy releases nothing, so the destructor after Destroy is harmless |
| VmaMemory.MoveConstruct | VulkanVMAMemoryManager.cpp:156-166 | the new buffer holds the source's allocation and the source holds none and owns no buffer |
| VmaMemory.MoveAssign | VulkanVMAMemoryManager.cpp:168-179 | as written: allocation, info and allocator move over but the target keeps its own buffer handle and size, and its previous allocation is not released |
| VmaMemory.MoveAssignLosesAllocation | VulkanVMAMemoryManager.cpp:168-179 | a concrete assignment after which the target's earlier allocation is held by nobody |
| VmaMemory.MoveAssignReleasing | VulkanVMAMemoryManager.cpp:168-179 | corrected: the target is destroyed first and then takes over every field, so its earlier allocation is released |
| VmaMemory.MoveAssignReleasingConserves | VulkanVMAMemoryManager.cpp:168-179 | after the releasing move, each allocation held before is held by exactly one object or released |
| VmaMemory.EraseAsWritten | VulkanVMAMemoryManager.cpp:144 | vector::erase with the as-written assignment: allocations shift down but buffer handles do not, and only erasing the last element releases anything |
| VmaMemory.EraseReleasing | VulkanVMAMemoryManager.cpp:144 | erase with the releasing assignment keeps the other entries and releases exactly the erased element's allocation |
| VmaMemory.CreateBuffer | VulkanVMAMemoryManager.cpp:48-88 | the buffer records size and manager and holds its allocation; required flags are the memory properties; random host access iff host-visible or host-coherent, mapped iff host-coherent, no other flag; device address queried iff the usage asks for it |
| VmaMemory.StagingBufferFlags | VulkanVMAMemoryManager.cpp:90-100 | a staging buffer is a transfer source with host-visible memory, random host access and not persistently mapped |
| VmaMemory.DiscardBuffer | VulkanVMAMemoryManager.cpp:102-113 | deferred: the buffer moves into one new entry at the back with the frame count; immediate: its allocation is released at once; images untouched either way |
| VmaMemory.Update | VulkanVMAMemoryManager.cpp:137-150 | corrected (erases through EraseReleasing, not the source's EraseAsWritten): the deferred list counts down one frame; survivors plus erased entries are exactly the buffers pending before; the released list is the held allocation of each expired entry, in order, so every expired allocation is released and nothing else is |
| VmaMemory.DeferredLifetime | VulkanVMAMemoryManager.cpp:102-150 | corrected (over the corrected Update, not EraseAsWritten): a buffer discarded with Deferred is still pending after framesInFlight - 1 Updates and gone after framesInFlight |
| VmaMemory.Teardown | VulkanVMAMemoryManager.cpp:36-46 | the destructor releases at most one allocation per pending entry |
| VmaMemory.TeardownReleasesPending | VulkanVMAMemoryManager.cpp:36-46 | the destructor releases the allocation of every pending buffer that holds one, and nothing else |
| VmaMemory.CreateImage | VulkanVMAMemoryManager.cpp:116-127 | the new image is recorded with its allocation; no other image entry and no deferred buffer changes |
| VmaMemory.DiscardImage | VulkanVMAMemoryManager.cpp:129-135 | a recorded image is destroyed with its allocation and the caller's handle nulled, whatever the mode; an unknown image is left alone; the record itself is kept |
| VmaMemory.CreateThenDiscardImage | VulkanVMAMemoryManager.cpp:116-135 | creating then discarding an image destroys exactly that image with the allocation it was created with |
| Bvh.Empty | VulkanBVHBuilder.cpp:18-19 | a new builder has no meshes and no entries |
| Bvh.WithObject | VulkanBVHBuilder.cpp:24-47 | an unseen mesh is appended and given the next ID, a seen mesh keeps its ID; one entry is appended with the transform, that ID, the hit ID and the mask; the ID always names the mesh |
| Bvh.Collect | VulkanBVHBuilder.cpp:24-47 | any sequence of WithObject calls keeps the mesh list and the ID map consistent |
| Bvh.MeshesOf | VulkanBVHBuilder.cpp:24 | the mesh of each call, in call order |
| Bvh.WithObjectExtendsMatch | VulkanBVHBuilder.cpp:38-44 | one more WithObject keeps every entry matching its call: same transform, mask and hit ID, and an ID that names the call's mesh |
| Bvh.WithObjectMeshes | VulkanBVHBuilder.cpp:25-33 | one WithObject extends the unique-mesh list exactly as first-seen deduplication does |
| Bvh.CollectIsFirstSeen | VulkanBVHBuilder.cpp:24-47 | the unique meshes are the distinct meshes of the calls in first-seen order, and entry i records call i with the ID of its mesh |
| Bvh.PackTransform | VulkanBVHBuilder.cpp:213-228 | the 3x4 row-major instance transform takes element (r, c) from column c, row r of the column-major model matrix |
| Bvh.UnpackTransform | VulkanBVHBuilder.cpp:213-228 | rebuilding a model matrix from an instance transform and a fourth row gives a 4x4 matrix |
| Bvh.PackRoundTrip | VulkanBVHBuilder.cpp:213-228 | packing loses only the fourth row: unpacking with that row gives the matrix back, and packing an unpacked transform gives the transform back |
| Bvh.IndexBytes | VulkanBVHBuilder.cpp:135 | the index stride is 4 bytes for 32-bit indices and 2 for every other index type |
| Bvh.BlasFor | VulkanBVHBuilder.cpp:82-137 | one geometry, range and primitive limit per submesh: vertex limit = the submesh count, first vertex = its base, primitive count from the mesh, byte offset = start times the index stride |
| Bvh.SizeTotals | VulkanBVHBuilder.cpp:140-155 | the total is the sum of all structure sizes and the scratch size is the largest scratch requirement, zero with no meshes |
| Bvh.StructureSizes | VulkanBVHBuilder.cpp:153 | the structure size of each BLAS, in order |
| Bvh.InstanceFor | VulkanBVHBuilder.cpp:212-240 | the instance takes the transposed transform, the mesh ID as custom index and the hit ID as record offset (both 24-bit), the mask (8-bit), the address of its mesh's BLAS and culling disabled; the stored index and offset always fit 24 bits |
| Bvh.Build | VulkanBVHBuilder.cpp:69-301 | BLAS data and buffer sizes per unique mesh in order, the shared scratch sized to the largest scratch requirement (zero with no meshes), the summed size, and one instance per entry with the instance count used for size query and build range |
| Sbt.MakeMultipleOf | VulkanShaderBindingTableBuilder.cpp:56-65 | the result is a multiple of m and lies in [x, x + m) |
| Sbt.MakeMultipleOfLeast | VulkanShaderBindingTableBuilder.cpp:56-65 | the result is the least multiple of m not below x, and a multiple of m is left unchanged |
| Sbt.RegionOf | VulkanShaderBindingTableBuilder.cpp:36-53 | every non-general group is a hit-group handle and only those are; a general group goes to the region of its stage, if any |
| Sbt.CountIn | VulkanShaderBindingTableBuilder.cpp:36-53 | a region never holds more handles than groups looked at |
| Sbt.FillCounts | VulkanShaderBindingTableBuilder.cpp:35-54 | each region's counter grows by exactly the number of groups whose handle belongs there |
| Sbt.CountsBounded | VulkanShaderBindingTableBuilder.cpp:36-53 | each group is counted at most once, and exactly once when every group has a region |
| Sbt.CountAll | VulkanShaderBindingTableBuilder.cpp:73-79 | the counts equal RegionTotals: for each of the four regions, the pipeline's CountIn for that region plus the CountIn of every library (LibCount); the group total is the pipeline's groups plus every library's, and the four counts never exceed it |
| Sbt.GroupCounts | VulkanShaderBindingTableBuilder.cpp:77 | the group count of each library, in order |
| Sbt.RegionSizes | VulkanShaderBindingTableBuilder.cpp:91 | the size of each region for its handle count |
| Sbt.Layout | VulkanShaderBindingTableBuilder.cpp:88-112 | region sizes per count, stride = aligned handle size except the ray-generation region whose stride is its size, buffer size = sum of sizes, each region addressed after the ones before it |
| Sbt.RegionStartsAligned | VulkanShaderBindingTableBuilder.cpp:110-119 | every region starts at a multiple of the base alignment from the buffer start |
| Sbt.RegionCopies | VulkanShaderBindingTableBuilder.cpp:114-117 | the m-th handle of a region goes m aligned strides past the region start and comes from the next handle of the driver's array |
| Sbt.HandleCopies | VulkanShaderBindingTableBuilder.cpp:107-119 | region i's j-th handle goes to the region start plus j strides and is handle number (handles of earlier regions + j) |
| Sbt.CopyInsideRegion | VulkanShaderBindingTableBuilder.cpp:91-116 | every copied handle ends inside its own region |
| Sbt.CopiesDisjoint | VulkanShaderBindingTableBuilder.cpp:114-117 | two different handles of a region never overlap |
| QueueFamilies.PopBits | VulkanRenderer.cpp:422 | the set bits among the lowest k bits number at most k |
| QueueFamilies.PopCount | VulkanRenderer.cpp:422 | the popcount of a 32-bit flag word is at most 32 |
| QueueFamilies.FirstMinimalUnique | VulkanRenderer.cpp:424-440 | at most one family is the first capable family of least popcount |
| QueueFamilies.Best | VulkanRenderer.cpp:424-440 | the family the loop settles on for one capability, if any, has that capability |
| QueueFamilies.Present | VulkanRenderer.cpp:427-429 | the present family, if set, is one of the device's families |
| QueueFamilies.CandidatePrefix | VulkanRenderer.cpp:419-441 | whether a family becomes the current choice does not depend on later families |
| QueueFamilies.BestIsFirstMinimal | VulkanRenderer.cpp:424-440 | the strict comparison against a running minimum from INT_MAX picks the first capable family of least popcount, and nothing exactly when no family has the capability |
| QueueFamilies.LastCandidate | VulkanRenderer.cpp:424 | the family just visited becomes the choice exactly when it has the capability and fewer bits than the current choice |
| QueueFamilies.PresentIsFirstCandidate | VulkanRenderer.cpp:424-429 | the present family is the first family that both becomes the graphics choice when visited and supports presentation, and none when there is no such family |
| QueueFamilies.ScanFamilies | VulkanRenderer.cpp:410-441 | the single pass with three running minima from INT_MAX and the present flag computes the per-capability reference choices (Scan) |
| QueueFamilies.ScanSpec | VulkanRenderer.cpp:410-441 | the scan leaves graphics, compute and copy each at the first capable family of least popcount (unset iff none is capable) and present at the first presenting graphics candidate |
| QueueFamilies.FallbacksAsWritten | VulkanRenderer.cpp:443-467 | as written: failure iff no graphics family; compute falls back to graphics; copy is left as scanned, unset if no family reports transfer |
| QueueFamilies.CopyFallbackMissing | VulkanRenderer.cpp:457-458 | one graphics+compute family without the transfer bit: as written the copy family stays unset, with the intended fallback it is family 0 |
| QueueFamilies.Fallbacks | VulkanRenderer.cpp:443-467 | corrected: failure iff no graphics family; an unset compute or copy family falls back to the graphics family, a set one is kept |
| QueueFamilies.InitDeviceQueueIndices | VulkanRenderer.cpp:410-468 | corrected (composes Fallbacks, not FallbacksAsWritten): fails exactly when no family supports graphics; otherwise graphics is first-minimal and compute and copy are set, each first-minimal for its bit or the graphics family when no family has that bit |
| Mesh.UsedBelow | VulkanMesh.cpp:65-80 | the attributes with non-empty data, in type order, each listed once |
| Mesh.UsedAttributes | VulkanMesh.cpp:74-80 | the used attributes of a mesh form a list of distinct attribute types in type order |
| Mesh.SizesOf | VulkanMesh.cpp:70 | the per-vertex size of each used attribute from the attribute size table |
| Mesh.CopySizes | VulkanMesh.cpp:118 | each used attribute occupies vertexCount elements of its size |
| Mesh.SumScale | VulkanMesh.cpp:103-120 | the sum of the per-attribute copies equals vertexCount times the vertex size |
| Mesh.MaskBits | VulkanMesh.cpp:90 | bit t of the attribute mask is set exactly when t is a used attribute |
| Mesh.BuildBindings | VulkanMesh.cpp:82-91 | binding i has the stride of the i-th used attribute, description i maps that attribute's location to binding i with its format and offset 0, and the mask has exactly the used bits |
| Mesh.BuildOffsets | VulkanMesh.cpp:111-121 | every attribute reads the mesh buffer at the sum of the earlier attributes' bytes, and the vertex data ends at vertexCount times the vertex size |
| Mesh.PrefixSumsStep | VulkanMesh.cpp:116-120 | the first offset is zero and each next offset is the previous plus the previous attribute's bytes |
| Mesh.UploadToGPU | VulkanMesh.cpp:46-137 | used attributes iff their data is non-empty, in type order, with formats, bindings, descriptions and mask to match; consecutive offsets in the mesh buffer; 32-bit indices iff there are indices, stored after the vertex data; copy size = vertex bytes + 4 per index |
| Mesh.CalculateGPUAllocationSize | VulkanMesh.cpp:246-270 | at least the vertex bytes, and exactly those when there are no indices |
| Mesh.AllocationCoversUpload | VulkanMesh.cpp:139-160 | with the 32-bit index type set before sizing, the allocation equals the upload's copy size, every attribute and the index data fit inside it; sized before that type is set, the allocation is 2 bytes per index short |
| Mesh.PrefixWithin | VulkanMesh.cpp:111-121 | an attribute's offset plus its bytes never exceeds the vertex data |
| Mesh.GetIndexInformation | VulkanMesh.cpp:272-285 | nothing when the mesh has no index type; otherwise the mesh buffer, the index offset and 4 or 2 bytes per index by type, truncated to uint32 |
| Mesh.GetAttributeInformation | VulkanMesh.cpp:287-302 | nothing exactly when the attribute is not used; otherwise the buffer, offset and format of its first occurrence and its size times the vertex count, truncated to uint32 |
| Mesh.Draw | VulkanMesh.cpp:214-225 | an indexed draw of every index iff the mesh has indices, otherwise a draw of every vertex |
| Mesh.DrawLayer | VulkanMesh.cpp:199-212 | an indexed draw of the submesh's range with its base vertex iff the mesh has indices, otherwise a draw of its vertex range |
| Mesh.DrawIsWholeLayer | VulkanMesh.cpp:199-225 | a mesh with one submesh spanning all indices (or vertices) draws the same with Draw and DrawLayer(0) |
| Mesh.GetVulkanTopology | VulkanMesh.cpp:228-240 | every primitive type maps to a topology of the table |
| Mesh.TopologyInjective | VulkanMesh.cpp:231-239 | distinct primitive types map to distinct topologies, and triangles to a triangle list |
| Renderer.WaitForSwapImage | VulkanRenderer.cpp:524-529 | the acquire fence is waited on exactly when the window is not minimised |
| Renderer.BeginFrame | VulkanRenderer.cpp:531-583 | the slot advances by one round the ring of frame contexts; the frame records its frame ID and slot; it blocks on the slot's timeline value equal to the global frame ID iff at least framesInFlight frames have started; the fence is waited on iff auto-transition is on and the window is visible |
| Renderer.EndFrame | VulkanRenderer.cpp:589-614 | the current slot's timeline is signalled with globalFrameID + framesInFlight, the submission waits for completion iff minimised, and the global frame ID goes up by one |
| Renderer.CountersAfter | VulkanRenderer.cpp:531-614 | any number of frames keeps the slot inside the ring |
| Renderer.CountersAfterFormula | VulkanRenderer.cpp:533 | after n frames the global frame ID is n and the ring is at slot n mod framesInFlight |
| Renderer.FrameSchedule | VulkanRenderer.cpp:531-614 | frame g records into slot (g + 1) mod framesInFlight, waits on value g once g >= framesInFlight, and signals g + framesInFlight on that slot |
| Renderer.DistinctSlots | VulkanRenderer.cpp:533 | frames fewer than framesInFlight apart never share a slot |
| Renderer.WaitMatchesSignal | VulkanRenderer.cpp:536-545 | the value frame g waits on is the one frame g - framesInFlight signalled on the same slot, and no frame in between used that slot |
| Renderer.SignalsIncrease | VulkanRenderer.cpp:601-611 | timeline values signalled on one slot strictly increase, and frames sharing a slot are at least framesInFlight apart |
| Renderer.SwapBuffers | VulkanRenderer.cpp:616-628 | the staging pool always moves on one frame and the image is presented exactly when the window is not minimised |
| Renderer.MinimisedFrame | VulkanRenderer.cpp:531-628 | a minimised frame still acquires, submits synchronously and updates the staging pool but neither waits on the fence nor presents; a visible frame presents once, last |
| Renderer.OnWindowResize | VulkanRenderer.cpp:470-518 | a visible window at the same size or a zero-by-zero size changes nothing; otherwise the size is recorded, screen rect and scissor become (0,0) and the size as uint32, and the swap chain is rebuilt once |
| Renderer.ResizeIdempotent | VulkanRenderer.cpp:471-476 | repeating a resize of a visible window to the same size rebuilds nothing, and a zero-by-zero size never rebuilds |
| Renderer.OneZeroDimensionRebuilds | VulkanRenderer.cpp:474-477 | a size with only one zero dimension still rebuilds the swap chain |
| Renderer.ChoosePresentMode | VulkanRenderer.cpp:291-298 | the ideal present mode when the surface lists it, FIFO otherwise |
| Renderer.ChooseTransform | VulkanRenderer.cpp:304-311 | the identity transform when supported, otherwise the current transform |
| Renderer.ChooseImageCount | VulkanRenderer.cpp:313-316 | the image count fits a uint32 |
| Renderer.ImageCountWithinCaps | VulkanRenderer.cpp:313-316 | for reportable counts the image count is one more than the minimum unless that exceeds a non-zero maximum, never below the minimum and never above a non-zero maximum |
| Renderer.ImageCountWraps | VulkanRenderer.cpp:313 | a minimum of 0xFFFFFFFF with no maximum wraps the requested count to 0 |
| Renderer.InitBufferChain | VulkanRenderer.cpp:282-382 | the swap chain uses the chosen present mode, transform and image count, holds one chain state per swap image, and starts at image 0 |
| Texture.BitLength | VulkanTexture.h:50-54 | the number of binary digits: zero only for zero, at least one otherwise |
| Texture.BitLengthBounds | VulkanTexture.h:53 | the bit length n of m >= 1 satisfies 2^(n-1) <= m < 2^n |
| Texture.BitLengthUnique | VulkanTexture.h:53 | any n with 2^(n-1) <= m < 2^n is the bit length, so it is floor(log2 m) + 1 |
| Texture.MaxElement | VulkanTexture.h:52 | the largest component: no component exceeds it and one equals it |
| Texture.BitLengthAtMost | VulkanTexture.h:53 | values below 2^k have at most k binary digits |
| Texture.GetMaxMips | VulkanTexture.h:50-54 | for a largest dimension in [1, 2^16] the mip count is its bit length, between 1 and 17 |
| Texture.MaxMipsIsLog2 | VulkanTexture.h:50-54 | the mip count n satisfies 2^(n-1) <= max dimension < 2^n: one level per halving down to 1 |
| Texture.MaxMipsOfPowers | VulkanTexture.h:50-54 | a 1x1 texture has one level and a 2^k square texture has k + 1 |
| Texture.NewTexture | VulkanTexture.cpp:19-23 | a new texture has no levels, no layers and an undefined format |
| Texture.MipExtent | VulkanTexture.cpp:57-59 | the destination of every blit is at least 1x1x1 |
| Texture.MipSteps | VulkanTexture.cpp:50-78 | mips 1 to n-1 take three commands each |
| Texture.RecordLayer | VulkanTexture.cpp:33-84 | the inner loop records one layer's block: mip 0 to transfer source, then per mip a barrier, a blit and a barrier, then all mips to the end layout |
| Texture.GenerateMipMaps | VulkanTexture.cpp:31-86 | the commands are the layer blocks for layers 0 to layerCount-1 in order; every command touches a single layer below layerCount and layers never go back |
| Texture.MipStepsLayer | VulkanTexture.cpp:50-78 | every command of a layer's mip steps addresses that layer only |
| Texture.LayerCommandsLayer | VulkanTexture.cpp:33-84 | every command of a layer's block addresses that layer only |
| Texture.AppendLayer | VulkanTexture.cpp:32 | appending the block of the next layer keeps the layers in order and bounded |
| Texture.ChainLayers | VulkanTexture.cpp:32-85 | the whole chain visits the layers in order, each command touching one layer below the layer count |
| Texture.BlitOfMip | VulkanTexture.cpp:67-77 | the blit producing mip m reads mip m-1 with the previous destination extent and writes mip m |
| Texture.ShrSucc | VulkanTexture.cpp:57-58 | shifting right by k + 1 is shifting by k and halving |
| Texture.BlitHalves | VulkanTexture.cpp:57-58 | each blit halves its source on both axes, rounding down and never below 1 |
| Texture.LayerBrackets | VulkanTexture.cpp:33-37 | each layer's block opens with mip 0 becoming a transfer source and closes with all mipCount levels moving to the end layout |
| TextureBuilder.NewBuilder | VulkanTextureBuilder.cpp:17-30 | mips on, RGBA8 unorm, shader-read layout, sampled usage, colour aspect, fragment-shader stage, one layer, no command source and no queued job |
| TextureBuilder.WithCommandBuffer | VulkanTextureBuilder.cpp:72-76 | accepted exactly when no queue and no pool is set, and then only the command buffer changes |
| TextureBuilder.UsingQueue | VulkanTextureBuilder.cpp:78-82 | accepted exactly when no command buffer is set, and then only the queue changes |
| TextureBuilder.UsingPool | VulkanTextureBuilder.cpp:84-88 | accepted exactly when no command buffer is set, and then only the pool changes |
| TextureBuilder.SettersKeepSourcesExclusive | VulkanTextureBuilder.cpp:72-88 | whatever chain of source setters a builder accepts, it never holds both a command buffer and a queue or pool |
| TextureBuilder.BeginTextureAsWritten | VulkanTextureBuilder.cpp:132-145 | as written: the caller's buffer when one is set, an own buffer when queue and pool are both set, and otherwise it carries on with no buffer |
| TextureBuilder.BeginWithoutSourceProceeds | VulkanTextureBuilder.cpp:142-144 | a new builder has no command source: as written it proceeds with no buffer; the corrected version refuses |
| TextureBuilder.BeginTexture | VulkanTextureBuilder.cpp:132-145 | corrected: refused exactly when there is neither a command buffer nor both a queue and a pool; otherwise the as-written choice, never the no-buffer case |
| TextureBuilder.MipUsages | VulkanTextureBuilder.cpp:287-290 | adding both transfer usages keeps the requested ones |
| TextureBuilder.GenerateTexture | VulkanTextureBuilder.cpp:278-334 | six layers per requested layer for a cube (as uint32), 3D iff depth > 1, GetMaxMips levels when mips are on else 1, requested usages plus both transfer usages when mips are on, cube-compatible iff a cube, extent, format and 2D dimensions recorded |
| TextureBuilder.ViewMatchesImage | VulkanTextureBuilder.cpp:307-313 | the default view is a cube view exactly for cube images, 3D exactly for non-cube 3D images, and an array view exactly when more than one layer was requested |
| TextureBuilder.MippedImagesAllowBlits | VulkanTextureBuilder.cpp:287-297 | an image with more than one mip level can be both transfer source and destination |
| TextureBuilder.CubeLayers | VulkanTextureBuilder.cpp:283 | a cube map of n requested layers has 6n image layers, a multiple of six |
| TextureBuilder.StagingSizeAsWritten | VulkanTextureBuilder.cpp:337-339 | as written: products below 2^31 pass unchanged through the int |
| TextureBuilder.StagingSizeTruncates | VulkanTextureBuilder.cpp:337 | as written, a 2^31-byte face loaded from a file fits the uint32 face size of line 199 but gets a staging request of 2^64 - 2^31 bytes; a 2^32-byte face, reachable only through BuildFromData, gets a zero-byte staging buffer |
| TextureBuilder.UploadTextureData | VulkanTextureBuilder.cpp:336-359 | corrected: one staging buffer of faceCount times faceByteCount bytes, face i at offset i times faceByteCount, faces inside the buffer and disjoint; one copy of faceCount layers at the job's extent |
| TextureBuilder.FileFaceBytes | VulkanTextureBuilder.cpp:199 | width times height times depth times channels, as uint32 |
| TextureBuilder.DataJob | VulkanTextureBuilder.cpp:115-123 | one face of the caller's data, not owned by the builder, with the byte count, requested size and layout |
| TextureBuilder.FileJob | VulkanTextureBuilder.cpp:191-199 | one face per loaded file, all owned by the builder, with the loaded dimensions and the face byte count |
| TextureBuilder.FacesToFree | VulkanTextureBuilder.cpp:159-163 | exactly the live data of the first n faces, restricted to owned faces when asked |
| TextureBuilder.EndTexture | VulkanTextureBuilder.cpp:147-171 | mips recorded iff enabled and GetMaxMips gives more than one; on the builder's own buffer it submits and frees the owned face data, otherwise it queues the job and frees nothing |
| TextureBuilder.FileImageParams | VulkanTextureBuilder.cpp:185-189 | a file image is created with transfer-dst added to the requested usages |
| TextureBuilder.BuildFromFiles | VulkanTextureBuilder.cpp:173-261 | corrected (composes BeginTexture and UploadTextureData, not BeginTextureAsWritten and StagingSizeAsWritten): fails exactly when BeginTexture would; otherwise transfer-dst is used for creation but the builder's usages come back unchanged, cube iff six faces, staging sized for all faces, and the job is the file job |
| TextureBuilder.FileJobOwnsAll | VulkanTextureBuilder.cpp:192-194 | every loaded face belongs to the builder, so its owned data is all its live data |
| TextureBuilder.OwnedIsAll | VulkanTextureBuilder.cpp:159-163 | when every face is owned, the owned data is all the live data |
| TextureBuilder.FacesAgree | VulkanTextureBuilder.cpp:159-163 | with every face owned, freeing owned faces and freeing all faces agree |
| TextureBuilder.IsProcessing | VulkanTextureBuilder.cpp:361-363 | true exactly when some job is queued |
| TextureBuilder.IsProcessingNamed | VulkanTextureBuilder.cpp:365-370 | false whatever the queue holds |
| TextureBuilder.WaitForProcessingAsWritten | VulkanTextureBuilder.cpp:372-383 | as written: the queue is emptied and every job's six data slots are freed |
| TextureBuilder.WaitForProcessing | VulkanTextureBuilder.cpp:372-383 | corrected: the queue is emptied and exactly the owned data of the queued jobs is freed |
| TextureBuilder.FreedOwned | VulkanTextureBuilder.cpp:373-381 | waiting on jobs with ownership respected frees exactly their owned data |
| TextureBuilder.OwnedDataFreedEitherWay | VulkanTextureBuilder.cpp:147-171 | whichever way a build ends, its owned data is freed exactly once: at once on an own buffer, or by the corrected wait after queueing |
| TextureBuilder.WaitFreesCallerData | VulkanTextureBuilder.cpp:106-130 | any build from caller-owned data into the caller's command buffer on an idle builder: nothing is submitted and the job owns no data, yet the as-written wait frees the caller's data; the corrected wait frees nothing |
| ShaderReflection.FillDescriptorSetLayouts | VulkanShaderBase.cpp:16-21 | the caller's list grows to the larger of the two sizes; the first entries become the shader's layouts and the rest keep the caller's |
| ShaderReflection.FillPushConstants | VulkanShaderBase.cpp:23-26 | the caller's ranges are replaced by exactly the shader's ranges |
| ShaderReflection.GetLayout | VulkanShaderBase.cpp:28-32 | a layout exactly for an index below the layout count, and then the layout at that index |
| ShaderReflection.GetLayoutBinding | VulkanShaderBase.cpp:34-39 | an empty list past the last set, otherwise that set's bindings |
| ShaderReflection.LastFor | VulkanShaderBase.cpp:69-95 | found exactly when some reflected binding has that number, and then one with that number |
| ShaderReflection.Span | VulkanShaderBase.cpp:75-77 | every reflected binding number lies below the span, and a non-zero span is one past some binding |
| ShaderReflection.MergeBinding | VulkanShaderBase.cpp:72-94 | the set grows to cover the binding; that entry takes the reflected number, count and type and adds the stage to its old flags; every other entry is unchanged |
| ShaderReflection.MergeBindingsSpec | VulkanShaderBase.cpp:69-95 | merging a stage's bindings gives the reference entry at every index: the last reflected binding of that number with the stage added, or the old entry |
| ShaderReflection.MergeKeepsEarlierStages | VulkanShaderBase.cpp:94 | merging never removes a stage from an old entry, leaves unreflected entries alone and flags every reflected binding with the stage |
| ShaderReflection.GrowSets | VulkanShaderBase.cpp:64-66 | the set list grows to hold the set index with empty sets, and old sets are unchanged |
| ShaderReflection.MergeSetAsWritten | VulkanShaderBase.cpp:63-96 | as written: the set list grows to hold the set index; the set is first resized to the stage's binding count |
| ShaderReflection.MergeDropsEarlierBinding | VulkanShaderBase.cpp:68 | a vertex stage with bindings 0 and 3 and a fragment stage with binding 0: as written set 0 shrinks to one entry; corrected it keeps binding 3 with the vertex stage |
| ShaderReflection.MergeSet | VulkanShaderBase.cpp:63-96 | corrected: other sets unchanged; the merged set never shrinks and holds the reference entry at every index |
| ShaderReflection.KeepsTrans | VulkanShaderBase.cpp:63-96 | "keeps every earlier entry's stages" is transitive across stages |
| ShaderReflection.KeepsReflected | VulkanShaderBase.cpp:94 | once a reflected set is recorded with its stage, later merges that keep earlier entries keep it recorded |
| ShaderReflection.MergeSetKeeps | VulkanShaderBase.cpp:63-96 | one corrected set merge keeps earlier entries and records the reflected set with the stage |
| ShaderReflection.MergeSetsSpec | VulkanShaderBase.cpp:63-96 | after all of a stage's sets, earlier entries are kept and every reflected set is recorded with the stage |
| ShaderReflection.FirstMatch | VulkanShaderBase.cpp:108-115 | the first range with the block's offset and size, or none when no range matches |
| ShaderReflection.FindRange | VulkanShaderBase.cpp:108-115 | the search loop finds the first matching range |
| ShaderReflection.FirstMatchIs | VulkanShaderBase.cpp:108-115 | a matching range with no match before it is the first match |
| ShaderReflection.MergePushAsWritten | VulkanShaderBase.cpp:106-121 | as written: always one more range, ending with the block and the stage alone |
| ShaderReflection.PushBlockDuplicated | VulkanShaderBase.cpp:106-121 | a 64-byte block used by vertex and fragment stages: as written there are two ranges for it; corrected there is one carrying both stages |
| ShaderReflection.MergePush | VulkanShaderBase.cpp:106-121 | corrected: one new range, carrying only the stage, only when no range matches; some range covers the block with the stage; old ranges keep their place, offset, size and stages; over distinct ranges the matching range gains the stage and every other range is unchanged |
| ShaderReflection.MergePushDistinct | VulkanShaderBase.cpp:106-121 | a corrected merge keeps the ranges pairwise distinct in offset and size |
| ShaderReflection.MergePushesSpec | VulkanShaderBase.cpp:106-121 | after all of a stage's blocks the ranges stay distinct, and every block is covered by a range carrying the stage; an old range gains the stage exactly when some block matches it and is otherwise unchanged; every new range comes from a block and carries only the stage |
| ShaderReflection.MergeAllSets | VulkanShaderBase.cpp:63-96 | corrected (folds MergeSet, not MergeSetAsWritten): the loop over a stage's sets computes the set merge |
| ShaderReflection.MergeAllPushes | VulkanShaderBase.cpp:106-121 | corrected (folds MergePush, not MergePushAsWritten): the loop over a stage's blocks computes the push merge |
| ShaderReflection.AddReflectionData | VulkanShaderBase.cpp:50-124 | corrected (uses MergeSet and MergePush, not MergeSetAsWritten and MergePushAsWritten): layouts unchanged; earlier entries kept; every reflected set recorded with the stage; distinct ranges stay distinct and cover every reflected block with the stage |
| ShaderReflection.BuildLayouts | VulkanShaderBase.cpp:126-132 | one created layout per set, appended in set order after the existing layouts; bindings and ranges unchanged |
| PipelineLayouts.PadAndSet | VulkanPipelineBuilderBase.h:31-37 | the list grows just enough to hold the slot, new slots hold the fill layout, the slot holds the new layout and every other slot is unchanged |
| PipelineLayouts.WithLayout | VulkanPipelineBuilderBase.h:23-27 | the builder's layout and the create info's layout both become the given one; nothing else changes |
| PipelineLayouts.WithDescriptorBuffers | VulkanPipelineBuilderBase.h:45-48 | the descriptor-buffer create flag is set, every other flag is kept, nothing else changes |
| PipelineLayouts.DescriptorBuffersIdempotent | VulkanPipelineBuilderBase.h:45-48 | setting the descriptor-buffer flag twice equals setting it once, and it commutes with setting the layout |
| PipelineLayouts.WithDescriptorSetLayout | VulkanPipelineBuilderBase.h:29-39 | accepted exactly for slots below 32; user layouts padded with the device's empty layout up to the slot, the slot set, other slots and fields unchanged |
| PipelineLayouts.PadAndSetCommute | VulkanPipelineBuilderBase.h:29-39 | setting two different slots gives the same list in either order |
| PipelineLayouts.SetLayoutsCommute | VulkanPipelineBuilderBase.h:29-39 | two WithDescriptorSetLayout calls on different slots commute |
| PipelineLayouts.FinalisedAt | VulkanPipelineBuilderBase.h:59-69 | the merged list has one slot per reflected layout: the user's layout when supplied and not the empty layout, else the reflected one |
| PipelineLayouts.FinaliseDescriptorLayouts | VulkanPipelineBuilderBase.h:59-69 | the loop computes the merged list slot by slot; user slots past the reflected count are dropped; nothing else changes |
| PipelineLayouts.FinaliseAfterSet | VulkanPipelineBuilderBase.h:29-39 | after setting slot k to a real layout, merged slot k is that layout and the padding changes no other merged slot |
| PipelineLayouts.FinaliseWithoutUserLayouts | VulkanPipelineBuilderBase.h:59-69 | with only empty user layouts the merged list is the reflected list |
| PipelineLayouts.WithPushConstant | VulkanComputePipelineBuilder.cpp:19-22 | appends exactly one range with the given stages, offset and size; nothing else changes |
| PipelineLayouts.ComputeWithLayout | VulkanComputePipelineBuilder.cpp:38-42 | the builder's layout and the create info's layout become the given one; the lists are kept |
| PipelineLayouts.ComputeWithDescriptorSetLayout | VulkanComputePipelineBuilder.cpp:24-31 | accepted exactly for slots below 32; the list is padded with null handles up to the slot, the slot set, other slots and fields unchanged |
| PipelineLayouts.PatchNullLayouts | VulkanComputePipelineBuilder.cpp:47-53 | every null slot becomes the device's empty layout and every other slot is kept, so no slot is null when the empty layout is real |
| PipelineLayouts.ComputeBuild | VulkanComputePipelineBuilder.cpp:44-72 | the layout create info lists the patched slots and the push ranges with their counts as uint32; real slots kept, null slots become the empty layout; the pipeline uses the created layout |
| PipelineLayouts.ComputeSlotsAfterPatch | VulkanComputePipelineBuilder.cpp:24-53 | after setting a slot and patching, the slot holds its layout, old slots are kept and padded slots hold the empty layout |
| RayTracingPipeline.GeneralGroupAsWritten | VulkanRayTracingPipelineBuilder.cpp:28-42 | as written: a general group with its shader set and the closest-hit, any-hit and intersection indices left at 0 |
| RayTracingPipeline.GeneralGroupAsWrittenInvalid | VulkanRayTracingPipelineBuilder.cpp:28-42 | such a group breaks the valid-usage rule VUID-VkRayTracingShaderGroupCreateInfoKHR-type-03474 of the Vulkan specification, that a general group leaves those three shaders unused, for every index and stage count |
| RayTracingPipeline.GeneralGroup | VulkanRayTracingPipelineBuilder.cpp:50-62 | corrected, as in the disabled WithGeneralGroup: a general group with the other three shaders unused, valid in any pipeline that has the stage |
| RayTracingPipeline.TriangleHitGroup | VulkanRayTracingPipelineBuilder.cpp:64-76 | a triangles hit group with the given closest-hit and any-hit shaders, valid whenever each names a stage or is unused |
| RayTracingPipeline.ProceduralHitGroup | VulkanRayTracingPipelineBuilder.cpp:78-90 | a procedural hit group with the given intersection, closest-hit and any-hit shaders, valid whenever the intersection names a stage and the others name a stage or are unused |
| RayTracingPipeline.WithRecursionDepth | VulkanRayTracingPipelineBuilder.cpp:23-26 | only the recursion depth changes |
| RayTracingPipeline.WithRayGenGroup | VulkanRayTracingPipelineBuilder.cpp:28-34 | corrected: exactly one valid general group appended to the ray-generation list; nothing else changes |
| RayTracingPipeline.WithMissGroup | VulkanRayTracingPipelineBuilder.cpp:36-42 | corrected: exactly one valid general group appended to the miss list; nothing else changes |
| RayTracingPipeline.WithTriangleHitGroup | VulkanRayTracingPipelineBuilder.cpp:64-76 | exactly one triangles hit group appended to the hit list; nothing else changes |
| RayTracingPipeline.WithProceduralHitGroup | VulkanRayTracingPipelineBuilder.cpp:78-90 | exactly one procedural hit group appended to the hit list; nothing else changes |
| RayTracingPipeline.WithShader | VulkanRayTracingPipelineBuilder.cpp:92-104 | one entry appended; the shader fills its own reflected layout slots and keeps the rest; the push ranges become the shader's, so only the last shader's ranges remain |
| RayTracingPipeline.AppendStages | VulkanRayTracingPipelineBuilder.cpp:107-114 | one stage per entry, in entry order, after the stages already held |
| RayTracingPipeline.Build | VulkanRayTracingPipelineBuilder.cpp:106-146 | stages from the entries; groups in the order ray generation, miss, hit; counts as uint32; the finalised descriptor layouts and the push ranges go into the created layout; recursion depth passed on |
| RayTracingPipeline.SbtView | VulkanRayTracingPipelineBuilder.cpp:118-127 | the binding-table builder sees each stage's flag and each group's type and general shader, in order |
| RayTracingPipeline.RegionOfBuiltGroup | VulkanRayTracingPipelineBuilder.cpp:118-121 | with ray-generation and miss groups naming stages of their kind, group i of Build lands in the ray-generation, miss or hit region by the list it came from |
| RayTracingPipeline.SbtCountsPrefix | VulkanRayTracingPipelineBuilder.cpp:118-121 | among the first n built groups, the region counts are the parts of the three lists they cover, and none is callable |
| RayTracingPipeline.SbtCountsFollowLists | VulkanRayTracingPipelineBuilder.cpp:118-127 | the built pipeline is a valid binding-table input, and its region counts are exactly the three list lengths, with no callable groups |
| Shader.NewShader | VulkanShader.cpp:23-25 | no stages counted, no module or entry point in any slot, nothing reflected |
| Shader.AddBinaryShaderModule | VulkanShader.cpp:60-63 | the stage's module is swapped with the caller's (the caller gets the old one back) and its entry point recorded; other stages, the reflected state and the stage list are unchanged |
| Shader.Present | VulkanShader.cpp:67-71 | a list of stage indices below n |
| Shader.PresentSpec | VulkanShader.cpp:65-85 | the present list holds exactly the stages below n that have a module, in strictly ascending order |
| Shader.PresentPrefix | VulkanShader.cpp:72-84 | the present stages below a are a prefix of those below b, for a at most b |
| Shader.CountStages | VulkanShader.cpp:66-71 | the count loop gives the number of stages with a module |
| Shader.CompactInfos | VulkanShader.cpp:72-84 | the compaction loop writes the k-th present stage's bit, module and entry point to slot k and leaves the slots past the count as they were |
| Shader.Init | VulkanShader.cpp:65-85 | the stage list is compacted: exactly the stages with a module, ascending; modules, entry points and reflection unchanged, later slots untouched |
| Shader.FillShaderStageCreateInfo | VulkanShader.cpp:87-90 | the pipeline gets the stage count and list; after Init every listed stage has a module, every stage with a module is listed, and no stage bit repeats |
| Shader.CompactedStages | VulkanShader.cpp:65-85 | after compaction every listed stage has a module, every stage with a module is listed, and the stage bits are distinct |
| Shader.CompactedListsAll | VulkanShader.cpp:72-84 | after compaction every stage with a module appears in the list with its own bit, module and entry point |
| Shader.RasterBitsDistinct | VulkanShader.cpp:75 | the six stages map to six different stage-flag bits |
| Shader.CompactedDistinct | VulkanShader.cpp:72-84 | no two listed stages share a stage bit |
| Shader.AddBinary | VulkanShaderBuilder.cpp:32-38 | accepted exactly for a valid stage that has no binary yet, and then only that stage's name and entry point change |
| Shader.OneBinaryPerStage | VulkanShaderBuilder.cpp:33 | a second binary for a stage already given a named one is refused |
| Shader.WithVertexBinary | VulkanShaderBuilder.cpp:44-46 | AddBinary on the vertex stage: accepted exactly when it has no binary yet |
| Shader.WithFragmentBinary | VulkanShaderBuilder.cpp:48-50 | AddBinary on the fragment stage: accepted exactly when it has no binary yet |
| Shader.WithGeometryBinary | VulkanShaderBuilder.cpp:52-54 | AddBinary on the geometry stage: accepted exactly when it has no binary yet |
| Shader.WithTessControlBinary | VulkanShaderBuilder.cpp:56-58 | AddBinary on the tessellation-control stage: accepted exactly when it has no binary yet |
| Shader.WithTessEvalBinary | VulkanShaderBuilder.cpp:60-62 | AddBinary on the tessellation-evaluation stage: accepted exactly when it has no binary yet |
| Shader.WithMeshBinary | VulkanShaderBuilder.cpp:40-42 | AddBinary on the mesh stage: accepted exactly when it has no binary yet |
| Shader.ReflectLoaded | VulkanShaderBuilder.cpp:70-100 | corrected (reflects through MergeSet and MergePush, not MergeSetAsWritten and MergePushAsWritten): reflecting the loaded stages creates no layouts |
| Shader.LoadStage | VulkanShaderBuilder.cpp:71-99 | corrected (reflects through MergeSet and MergePush, not MergeSetAsWritten and MergePushAsWritten): a named stage gets the created module only when its file is non-empty (merging its reflection), else no module, and its entry point either way; an unnamed stage is skipped; other stages unchanged |
| Shader.Build | VulkanShaderBuilder.cpp:64-105 | corrected (reflects through MergeSet and MergePush, not MergeSetAsWritten and MergePushAsWritten): fails exactly when both mesh and vertex binaries are named; otherwise each stage has a module iff named and non-empty, entry points of named stages, reflection merged in stage order, a compacted stage list, and one created layout per binding set |
| GraphicsPipeline.NewGraphicsBuilder | VulkanPipelineBuilder.cpp:17-46 | viewport and scissor dynamic, one sample, one viewport and scissor, depth compare always with every test off, no depth or stencil format, no culling, filled polygons, counter-clockwise front faces, triangle lists, no blend states, colour formats, tessellation or shader stages |
| GraphicsPipeline.WithDepthState | VulkanPipelineBuilder.cpp:48-54 | compare op, depth test, depth write and stencil test set; the bounds test and everything else unchanged |
| GraphicsPipeline.BlendState | VulkanPipelineBuilder.cpp:57-68 | writes all four channels, blend on iff enabled, additive colour and alpha ops, the source factor for colour and alpha, the destination factor for colour and alpha |
| GraphicsPipeline.WithBlendState | VulkanPipelineBuilder.cpp:56-73 | exactly one such attachment appended; nothing else changes |
| GraphicsPipeline.WithRaster | VulkanPipelineBuilder.cpp:75-78 | cull and polygon modes set; nothing else changes |
| GraphicsPipeline.WithTopology | VulkanPipelineBuilder.cpp:85-88 | topology set; nothing else changes |
| GraphicsPipeline.WithDepthStencilFormat | VulkanPipelineBuilder.cpp:100-104 | depth and stencil formats both set to the format; nothing else changes |
| GraphicsPipeline.WithDepthFormat | VulkanPipelineBuilder.cpp:106-109 | only the depth format changes; the stencil format is kept |
| GraphicsPipeline.DepthSettersCompose | VulkanPipelineBuilder.cpp:100-109 | a later WithDepthFormat overrides depth only and keeps the stencil format of WithDepthStencilFormat; WithDepthStencilFormat overrides an earlier WithDepthFormat entirely |
| GraphicsPipeline.WithColourFormats | VulkanPipelineBuilder.cpp:111-114 | colour formats replaced; nothing else changes |
| GraphicsPipeline.WithTessellationPatchVertexCount | VulkanPipelineBuilder.cpp:116-120 | tessellation state attached with the given control points; nothing else changes |
| GraphicsPipeline.WithPass | VulkanPipelineBuilder.cpp:95-98 | render pass set; nothing else changes |
| GraphicsPipeline.WithShader | VulkanPipelineBuilder.cpp:90-93 | the pipeline takes the shader's stage count and stage list; nothing else changes |
| GraphicsPipeline.BlendStatesAsWritten | VulkanPipelineBuilder.cpp:127-136 | as written: the given blend states, else one default per colour format, else exactly one default |
| GraphicsPipeline.RenderingOf | VulkanPipelineBuilder.cpp:154-163 | rendering info chained iff there is a colour format or a depth format, with the depth and stencil formats, the colour formats and their count as uint32 |
| GraphicsPipeline.DepthOnlyBlendMismatch | VulkanPipelineBuilder.cpp:127-163 | a depth-only builder as written gets one blend attachment while its rendering info declares no colour attachment, breaking valid-usage rule 06055 of VkGraphicsPipelineCreateInfo |
| GraphicsPipeline.BlendStates | VulkanPipelineBuilder.cpp:127-136 | corrected: the given states, else defaults only: one per colour format under dynamic rendering, one without it, and none for depth-only; agrees with the as-written code whenever colour formats are given |
| GraphicsPipeline.Build | VulkanPipelineBuilder.cpp:122-172 | corrected blend states; the layout from the builder's set layouts and push ranges; the created layout used; rendering info as RenderingOf; with no blend states given, the blend count matches the colour attachment count; nothing else changes |
| DynamicRender.NewDynamicRenderBuilder | VulkanDynamicRenderBuilder.cpp:14-17 | no stencil, one layer, no colour attachments, a default depth attachment, and no depth or stencil pointer |
| DynamicRender.LoadOp | VulkanDynamicRenderBuilder.cpp:37 | clear exactly when asked to clear, else don't-care |
| DynamicRender.WithColourAttachmentInfo | VulkanDynamicRenderBuilder.cpp:19-22 | the given attachment appended; nothing else changes |
| DynamicRender.WithColourAttachment | VulkanDynamicRenderBuilder.cpp:30-44 | one attachment appended with the view, layout, clear value, load op clear iff asked and store op store; nothing else changes |
| DynamicRender.WithDepthAttachmentInfo | VulkanDynamicRenderBuilder.cpp:24-28 | the depth attachment replaced; the stencil toggle and everything else unchanged |
| DynamicRender.WithDepthAttachment | VulkanDynamicRenderBuilder.cpp:46-59 | the depth attachment gets the view, layout, clear value, load op clear iff asked and store op store; the stencil toggle becomes the argument; the rest unchanged |
| DynamicRender.DepthAttachmentReplaced | VulkanDynamicRenderBuilder.cpp:46-59 | a second WithDepthAttachment wholly replaces the first, stencil toggle included |
| DynamicRender.WithRenderArea | VulkanDynamicRenderBuilder.cpp:61-65 | the render area and the auto-viewstate flag set; the rest of the render info and builder unchanged |
| DynamicRender.WithRenderAreaOf | VulkanDynamicRenderBuilder.cpp:67-76 | the component overload gives the same builder as the rectangle overload on the rectangle it forms |
| DynamicRender.WithLayerCount | VulkanDynamicRenderBuilder.cpp:86-89 | a non-negative count is kept; a negative int becomes count plus 2^32 in the uint32 field; nothing else changes |
| DynamicRender.WithRenderingFlags | VulkanDynamicRenderBuilder.cpp:91-94 | only the flags change |
| DynamicRender.WithViewMask | VulkanDynamicRenderBuilder.cpp:96-99 | only the view mask changes |
| DynamicRender.WithRenderInfo | VulkanDynamicRenderBuilder.cpp:101-104 | the render info replaced; nothing else changes |
| DynamicRender.Build | VulkanDynamicRenderBuilder.cpp:106-115 | the info takes the colour attachments and points at the depth attachment; with stencil it also points the stencil at the depth attachment, otherwise the stencil pointer is left as it was; area, layers, flags and view mask kept |
| DynamicRender.StencilIffUsing | VulkanDynamicRenderBuilder.cpp:111-113 | from an unset stencil pointer, Build sets it exactly when stencil is in use, and then to the depth attachment |
| DynamicRender.NewBuilderStencil | VulkanDynamicRenderBuilder.cpp:14-17 | from a new builder, Build sets the stencil pointer exactly when WithDepthAttachment asked for stencil |
| DynamicRender.BeginRendering | VulkanDynamicRenderBuilder.cpp:117-128 | begins with Build's info; sets a scissor exactly with auto-viewstate, at offset (0, 0) with the render area's extent |
| DynamicRender.AutoScissorCoversOriginArea | VulkanDynamicRenderBuilder.cpp:61-65 | with auto-viewstate and a render area at the origin, the scissor is the render area itself |

## Left out

- Vulkan and VMA calls (resource creation, size queries, device addresses, surface capabilities, memory mapping and copies, command recording, submission, fences and semaphores) are not computed. Their results are parameters, and their side effects are not modelled beyond the handles they return.
- File I/O: image and shader loading become loaded sizes, dimensions and created modules. The file-loading `AddBinaryShaderModule` overload (VulkanShader.cpp:35-58) is left out for the same reason. Its module overload is modelled.
- SPIRV-Reflect enumeration (VulkanShaderBase.cpp:51-61, 98-104) is left out. The sets, bindings and push blocks it reports are inputs.
- `AddDescriptorSetLayoutState` and `AddPushConstantState` (VulkanShaderBase.cpp:41-48) are plain member assignments and are left out.
- Floating point is left out:
  - viewports and their flipped height;
  - line width and blend constants;
  - the float form of GetMaxMips.
- Texture.GetMaxMips: its domain is dimensions from 1 to 2^16, the range in which the float logarithm in the source and the integer bit length agree.
- VulkanComputePipelineBuilder's `WithShader` and the graphics `WithVertexInputState` only copy opaque create-info structures and are left out.
- Debug names and `SetDebugName` calls are left out everywhere.
- DeviceSize, `int` and uint64 overflow of sizes and offsets are left out. Sizes, offsets and byte counts are unbounded integers except where the source's 32-bit width is part of a stated property (ToU32 on counts, the staging `int` finding).
- Bvh.InstanceFor: the 24-bit `instanceCustomIndex` and `instanceShaderBindingTableRecordOffset` bit-fields are modelled as `% 2^24`, and the 8-bit mask as `% 2^8`. The ensures bound every stored value, but give the exact value only for IDs below 2^24 and masks below 2^8, not the wrapped value of a larger one.
- Sbt: the BindingTableOrder enumeration is not part of this model. RayGen 0, Miss 1, Hit 2, Call 3 is assumed, from the region use in VulkanShaderBindingTableBuilder.cpp.
- Sbt: handle counts are assumed zero at the start of Build, as for a fresh builder. A second Build on the same builder is not modelled.
- Image format queries that decide the texture format are inputs. `dynamic_cast` checks on the renderer's window and device are left out.
- A second Build on the same builder is not modelled for the ray-tracing, graphics, dynamic-render and BVH builders. The ray-tracing builder's stage list would accumulate, and the dynamic-render stencil pointer stays set once set. The BVH builder's BLAS list would also grow, because each Build appends one entry per mesh to `m_blasBuildInfo` (VulkanBVHBuilder.cpp:112). Bvh.Build always starts from an empty list.
- Staging.GetStagingBuffer: the returned position stands for the source's pointer `&activeBuffers.back().buffer` (VulkanStagingBuffers.cpp:32). That pointer is valid only until the next GetStagingBuffer or Update: `emplace_back` may reallocate the vector, and `erase` (VulkanStagingBuffers.cpp:45) shifts entries under it. The model does not say when the position goes stale.
- VulkanBuffer's `assetID` has no visible default and is modelled as a plain field.
- Mesh re-upload is not modelled. A second UploadToGPU would append to lists the source never clears: the used formats, the buffers and the offsets.
- Renderer: the present family is assumed to be set whenever a graphics family is found. The code can leave it unset when no graphics candidate supports presentation.
- Renderer.ChooseImageCount: the uint32 wrap of minImageCount + 1 (ImageCountWraps) is shown, not corrected. No surface reports such a minimum.
- TextureBuilder: the plain parameter setters (VulkanTextureBuilder.cpp:32-70) are left out. Each assigns one field.
- TextureBuilder: the TextureJob header is not part of this model. Unset data slots are modelled as null, and unset ownership as not owned.
- TextureBuilder: `Build` and `BuildCubemap` without data (VulkanTextureBuilder.cpp:90-104, 263-276) are covered only through GenerateTexture. The BuildFromData path is covered by DataJob, EndTexture and UploadTextureData, not as one member.
- Texture.GenerateMipMaps models the x and y extents. Depth is fixed at 1, as in the source's blits.
- VulkanVMAMemoryManager's constructor and allocator set-up (VulkanVMAMemoryManager.cpp:17-34) are left out.
- Shader: the rasterStages table and the ShaderStages enumeration are not part of this model. Stage order is taken from the builder's error messages (VulkanShaderBuilder.cpp:20-28), and each stage's Vulkan flag bit from the Vulkan specification.
- Shader.AddBinary: of the two assertions at VulkanShaderBuilder.cpp:33-34, the model checks the stage range first. In the source, the first assertion indexes the array with an out-of-range stage.
- RayTracingPipeline.GroupValid checks the index rules of the Vulkan specification's VkRayTracingShaderGroupCreateInfoKHR valid-usage statements (VUID-VkRayTracingShaderGroupCreateInfoKHR-type-03474 and its neighbours) but not the stage kinds the indices name.
- DynamicRender: the builder's header is not part of this model, so `usingAutoViewstate` has no visible default. A new builder is modelled with it false.
- DynamicRender: the `WithRenderArea(Offset2D, Extent2D)` overload (VulkanDynamicRenderBuilder.cpp:78-84) forms the same rectangle as WithRenderArea and is covered by it.

## Findings

| source | as written | input that shows it | evidently intended | confidence | as-written member | corrected member |
|---|---|---|---|---|---|---|
| VulkanBuffer.cpp:32-45 | move assignment overwrites the target's buffer and manager without discarding the buffer it held | target owns buffer 1, source owns buffer 2: afterwards nobody owns buffer 1 | discard the target's buffer before taking the source's | high, not executed | VulkanBuffers.MoveAssignLosesTarget | VulkanBuffers.MoveAssignReleasing |
| VulkanVMAMemoryManager.cpp:168-179 | VMABuffer move assignment overwrites the allocation, info and allocator without destroying the held allocation, and keeps its own buffer handle | target holds allocation 10, source allocation 20: allocation 10 is lost and the target pairs buffer 1 with allocation 20 | Destroy the target first, then take the source's buffer and allocation | high, not executed | VmaMemory.MoveAssignLosesAllocation | VmaMemory.MoveAssignReleasing |
| VulkanVMAMemoryManager.cpp:144 | `erase` of an expired entry shifts later elements by move assignment, so with the move assignment above, the expired allocation is not released | two deferred buffers, the first expiring: its allocation is never destroyed | erasing an entry releases exactly that entry's resource | medium, not executed | VmaMemory.EraseAsWritten | VmaMemory.EraseReleasing |
| VulkanStagingBuffers.cpp:45 | the same `erase` over VulkanBuffer entries drops the expired buffer without discarding it | two staging entries, the first expiring: its buffer is never discarded | erasing an entry discards exactly that entry's buffer | medium, not executed | VulkanBuffers.EraseAsWritten | VulkanBuffers.EraseReleasing |
| VulkanRenderer.cpp:457-458 | the copy-queue fallback assigns the copy index to itself | one family with graphics and compute but no transfer bit: the copy family stays unset | fall back to the graphics family, as for compute | high, not executed | QueueFamilies.FallbacksAsWritten | QueueFamilies.Fallbacks |
| VulkanTextureBuilder.cpp:143 | `MessageAssert(true, …)` never fires, so BeginTexture proceeds with no command buffer | a new builder with no command buffer, queue or pool | refuse when there is neither a command buffer nor a queue and pool | high, not executed | TextureBuilder.BeginTextureAsWritten | TextureBuilder.BeginTexture |
| VulkanTextureBuilder.cpp:378-380 | WaitForProcessing frees all six data slots of every queued job, whoever owns them | BuildFromData with the caller's own data and command buffer: the caller's data is freed | free only the slots the job owns, as EndTexture does at 157-163 | high, not executed | TextureBuilder.WaitForProcessingAsWritten | TextureBuilder.WaitForProcessing |
| VulkanTextureBuilder.cpp:337 | the staging size is computed into an `int`: products from 2^31 up turn negative or wrap modulo 2^32 | one 32768 × 16384 RGBA8 face loaded from a file (2^31 bytes, a valid uint32 face size): the `int` is -2^31 and the staging request is 2^64 - 2^31 bytes | compute the size in the 64-bit device-size type | medium, not executed | TextureBuilder.StagingSizeAsWritten | TextureBuilder.UploadTextureData |
| VulkanShaderBase.cpp:68 | each stage resizes the set's binding list to its own binding count, cutting off bindings an earlier stage recorded | vertex stage with bindings 0 and 3 of set 0, then fragment with binding 0: binding 3 is lost | only ever grow the list, as lines 64-66 and 75-77 do | high, not executed | ShaderReflection.MergeSetAsWritten | ShaderReflection.MergeSet |
| VulkanShaderBase.cpp:106-121 | a push-constant block already present gets the stage ORed in and is then appended again (`found` is never read) | a 64-byte block at offset 0 in vertex and fragment stages: two overlapping ranges | append only when no range matched | high, not executed | ShaderReflection.MergePushAsWritten | ShaderReflection.MergePush |
| VulkanRayTracingPipelineBuilder.cpp:28-42 | ray-generation and miss groups leave the closest-hit, any-hit and intersection indices at 0 instead of VK_SHADER_UNUSED_KHR | any WithRayGenGroup call: the group names shader 0 as its hit shaders | set the unused indices to VK_SHADER_UNUSED_KHR, as the disabled WithGeneralGroup at 50-62 does | high, not executed | RayTracingPipeline.GeneralGroupAsWritten | RayTracingPipeline.WithRayGenGroup |
| VulkanPipelineBuilder.cpp:127-163 | with no blend states and no colour formats, one default blend attachment is added even when a depth format turns on dynamic rendering with zero colour attachments | WithDepthFormat(D32) alone: one blend attachment, colour attachment count 0 | add no default attachment for a depth-only dynamic-rendering pipeline | medium, not executed | GraphicsPipeline.BlendStatesAsWritten | GraphicsPipeline.BlendStates |

=== FILE: bvh.dfy ===
/** The acceleration-structure builder: objects are collected with mesh
    deduplication, one bottom-level structure (BLAS) is derived per unique mesh, and
    one top-level instance per object points at its mesh's BLAS. Matrix elements are
    of an opaque type `E`; only where they are placed matters. */
module Bvh {
  import opened Common

  /** A mesh is identified by its address. */
  type MeshRef = nat

  /** A 4x4 matrix stored as the source's Matrix4 is: `array[column][row]`. */
  predicate IsMatrix4<E>(m: seq<seq<E>>) {
    |m| == 4 && forall c :: 0 <= c < 4 ==> |m[c]| == 4
  }

  /** One collected object. mask and hitID are the caller's uint32 values. */
  datatype Entry<E> = Entry(modelMat: seq<seq<E>>, meshID: nat, hitID: nat, mask: nat)

  /** Builder state: unique meshes in first-seen order, the mesh-to-ID map, and
      one entry per WithObject call. */
  datatype Builder<E> = Builder(meshes: seq<MeshRef>, uniqueMeshes: map<MeshRef, nat>, entries: seq<Entry<E>>)

  predicate Valid<E>(b: Builder<E>) {
    && b.uniqueMeshes.Keys == (set i | 0 <= i < |b.meshes| :: b.meshes[i])
    && (forall i :: 0 <= i < |b.meshes| ==> b.meshes[i] in b.uniqueMeshes && b.uniqueMeshes[b.meshes[i]] == i)
    && (forall i :: 0 <= i < |b.entries| ==> b.entries[i].meshID < |b.meshes|)
  }

  function Empty<E>(): (b: Builder<E>)
    ensures Valid(b) && b.meshes == [] && b.entries == []
  {
    Builder([], map[], [])
  }

  /** WithObject: an unseen mesh is appended and given the next ID; a seen mesh
      reuses its ID and leaves meshes and map alone; either way exactly one entry
      is appended with the given transform, ID, hit index and mask. */
  function WithObject<E>(b: Builder<E>, m: MeshRef, transform: seq<seq<E>>, mask: nat, hitID: nat): (r: Builder<E>)
    requires Valid(b) && IsU32(mask) && IsU32(hitID)
    ensures Valid(r)
    ensures m !in b.uniqueMeshes ==> r.meshes == b.meshes + [m] && r.uniqueMeshes == b.uniqueMeshes[m := |b.meshes|]
    ensures m in b.uniqueMeshes ==> r.meshes == b.meshes && r.uniqueMeshes == b.uniqueMeshes
    ensures r.entries == b.entries + [Entry(transform, r.uniqueMeshes[m], hitID, mask)]
    ensures m in r.uniqueMeshes && r.meshes[r.uniqueMeshes[m]] == m
  {
    if m !in b.uniqueMeshes then
      var meshes := b.meshes + [m];
      var ids := b.uniqueMeshes[m := |meshes| - 1];
      var r := Builder(meshes, ids, b.entries + [Entry(transform, |meshes| - 1, hitID, mask)]);
      assert ids.Keys == (set i | 0 <= i < |meshes| :: meshes[i]) by {
        forall x | x in ids.Keys ensures x in (set i | 0 <= i < |meshes| :: meshes[i]) {
          if x != m {
            var i :| 0 <= i < |b.meshes| && b.meshes[i] == x;
            assert meshes[i] == x;
          } else {
            assert meshes[|meshes| - 1] == m;
          }
        }
      }
      assert forall i :: 0 <= i < |b.meshes| ==> b.meshes[i] != m;
      r
    else
      Builder(b.meshes, b.uniqueMeshes, b.entries + [Entry(transform, b.uniqueMeshes[m], hitID, mask)])
  }

  /** One WithObject call. */
  datatype Call<E> = Call(mesh: MeshRef, transform: seq<seq<E>>, mask: nat, hitID: nat)

  predicate CallsValid<E>(calls: seq<Call<E>>) {
    forall i :: 0 <= i < |calls| ==> IsU32(calls[i].mask) && IsU32(calls[i].hitID)
  }

  /** The builder after a sequence of WithObject calls from a fresh builder. */
  function Collect<E>(calls: seq<Call<E>>): (b: Builder<E>)
    requires CallsValid(calls)
    ensures Valid(b)
  {
    if |calls| == 0 then Empty()
    else
      var c := calls[|calls| - 1];
      var p := calls[..|calls| - 1];
      assert CallsValid(p) by {
        forall i | 0 <= i < |p| ensures IsU32(p[i].mask) && IsU32(p[i].hitID) {
          assert p[i] == calls[i];
        }
      }
      WithObject(Collect(p), c.mesh, c.transform, c.mask, c.hitID)
  }

  /** Reference definition: the distinct values of a sequence in first-seen order. */
  function FirstSeen(s: seq<MeshRef>): seq<MeshRef> {
    if |s| == 0 then []
    else
      var d := FirstSeen(s[..|s| - 1]);
      if s[|s| - 1] in d then d else d + [s[|s| - 1]]
  }

  function MeshesOf<E>(calls: seq<Call<E>>): (r: seq<MeshRef>)
    ensures |r| == |calls| && forall i :: 0 <= i < |calls| ==> r[i] == calls[i].mesh
  {
    seq(|calls|, i requires 0 <= i < |calls| => calls[i].mesh)
  }

  /** The entries of a builder, as a statement about the calls that produced them. */
  ghost predicate EntriesMatch<E>(b: Builder<E>, calls: seq<Call<E>>) {
    && |b.entries| == |calls|
    && (forall i :: 0 <= i < |calls| ==>
          && b.entries[i].modelMat == calls[i].transform
          && b.entries[i].mask == calls[i].mask
          && b.entries[i].hitID == calls[i].hitID
          && b.entries[i].meshID < |b.meshes|
          && b.meshes[b.entries[i].meshID] == calls[i].mesh)
  }

  lemma WithObjectExtendsMatch<E>(b0: Builder<E>, p: seq<Call<E>>, c: Call<E>)
    requires Valid(b0) && IsU32(c.mask) && IsU32(c.hitID) && EntriesMatch(b0, p)
    ensures EntriesMatch(WithObject(b0, c.mesh, c.transform, c.mask, c.hitID), p + [c])
  {
    var b := WithObject(b0, c.mesh, c.transform, c.mask, c.hitID);
    var calls := p + [c];
    assert b.meshes[..|b0.meshes|] == b0.meshes;
    forall i | 0 <= i < |calls|
      ensures b.entries[i].meshID < |b.meshes| && b.meshes[b.entries[i].meshID] == calls[i].mesh
    {
      if i < |p| {
        assert b.entries[i] == b0.entries[i];
        assert calls[i] == p[i];
        assert b.meshes[b0.entries[i].meshID] == b0.meshes[b0.entries[i].meshID];
      }
    }
  }

  lemma WithObjectMeshes<E>(b0: Builder<E>, c: Call<E>)
    requires Valid(b0) && IsU32(c.mask) && IsU32(c.hitID)
    ensures WithObject(b0, c.mesh, c.transform, c.mask, c.hitID).meshes ==
      if c.mesh in b0.meshes then b0.meshes else b0.meshes + [c.mesh]
  {
    if c.mesh in b0.meshes {
      var k :| 0 <= k < |b0.meshes| && b0.meshes[k] == c.mesh;
      assert c.mesh in b0.uniqueMeshes;
    } else {
      assert c.mesh !in b0.uniqueMeshes;
    }
  }

  /** Deduplication is first-seen order: the unique meshes are the distinct meshes
      of the calls in order of first appearance, there is one entry per call with
      that call's transform, mask and hit index, and each entry's meshID indexes its
      own call's mesh. */
  lemma CollectIsFirstSeen<E>(calls: seq<Call<E>>)
    requires CallsValid(calls)
    ensures Collect(calls).meshes == FirstSeen(MeshesOf(calls))
    ensures EntriesMatch(Collect(calls), calls)
  {
    CollectMeshes(calls);
    CollectEntries(calls);
  }

  lemma CallsValidPrefix<E>(calls: seq<Call<E>>)
    requires CallsValid(calls) && |calls| > 0
    ensures CallsValid(calls[..|calls| - 1])
  {
    var p := calls[..|calls| - 1];
    forall i | 0 <= i < |p| ensures IsU32(p[i].mask) && IsU32(p[i].hitID) { assert p[i] == calls[i]; }
  }

  lemma {:induction false} CollectMeshes<E>(calls: seq<Call<E>>)
    requires CallsValid(calls)
    ensures Collect(calls).meshes == FirstSeen(MeshesOf(calls))
  {
    if |calls| > 0 {
      var p := calls[..|calls| - 1];
      var c := calls[|calls| - 1];
      CallsValidPrefix(calls);
      CollectMeshes(p);
      assert MeshesOf(calls)[..|calls| - 1] == MeshesOf(p);
      WithObjectMeshes(Collect(p), c);
    }
  }

  lemma {:induction false} CollectEntries<E>(calls: seq<Call<E>>)
    requires CallsValid(calls)
    ensures EntriesMatch(Collect(calls), calls)
  {
    if |calls| > 0 {
      var p := calls[..|calls| - 1];
      var c := calls[|calls| - 1];
      CallsValidPrefix(calls);
      CollectEntries(p);
      WithObjectExtendsMatch(Collect(p), p, c);
      assert p + [c] == calls;
    }
  }

  /** The instance transform: the 3x4 row-major matrix with
      `matrix[r][c] == modelMat.array[c][r]`, written out as the source does. */
  function PackTransform<E>(m: seq<seq<E>>): (t: seq<seq<E>>)
    requires IsMatrix4(m)
    ensures |t| == 3 && forall r :: 0 <= r < 3 ==> |t[r]| == 4
    ensures forall r, c :: 0 <= r < 3 && 0 <= c < 4 ==> t[r][c] == m[c][r]
  {
    [[m[0][0], m[1][0], m[2][0], m[3][0]],
     [m[0][1], m[1][1], m[2][1], m[3][1]],
     [m[0][2], m[1][2], m[2][2], m[3][2]]]
  }

  /** The model matrix rebuilt from an instance transform and the fourth matrix row
      (the projective row the instance format has no room for). */
  function UnpackTransform<E>(t: seq<seq<E>>, lastRow: seq<E>): (m: seq<seq<E>>)
    requires |t| == 3 && (forall r :: 0 <= r < 3 ==> |t[r]| == 4) && |lastRow| == 4
    ensures IsMatrix4(m)
  {
    seq(4, c requires 0 <= c < 4 => [t[0][c], t[1][c], t[2][c], lastRow[c]])
  }

  /** Packing loses nothing but the fourth row: unpacking with that row gives back
      the model matrix, and packing an unpacked transform gives back the transform. */
  lemma PackRoundTrip<E>(m: seq<seq<E>>, t: seq<seq<E>>, lastRow: seq<E>)
    requires IsMatrix4(m)
    requires |t| == 3 && (forall r :: 0 <= r < 3 ==> |t[r]| == 4) && |lastRow| == 4
    ensures UnpackTransform(PackTransform(m), [m[0][3], m[1][3], m[2][3], m[3][3]]) == m
    ensures PackTransform(UnpackTransform(t, lastRow)) == t
  {
    var u := UnpackTransform(PackTransform(m), [m[0][3], m[1][3], m[2][3], m[3][3]]);
    forall c | 0 <= c < 4 ensures u[c] == m[c] {
      assert u[c] == [m[c][0], m[c][1], m[c][2], m[c][3]];
    }
    var p := PackTransform(UnpackTransform(t, lastRow));
    forall r | 0 <= r < 3 ensures p[r] == t[r] {
      assert p[r] == [t[r][0], t[r][1], t[r][2], t[r][3]];
    }
  }

  // ---------------------------------------------------------------- BLAS data

  datatype IndexType = Uint16 | Uint32 | NoneKHR

  datatype SubMesh = SubMesh(start: nat, count: nat, base: nat)

  /** What BuildBLAS reads from one mesh. `indexFormat` is the value the local
      `iFormat` holds: the mesh's index type when it has indices, otherwise whatever
      the uninitialised local contains (an oracle). `primitiveCounts[j]` is
      GetPrimitiveCount(j). */
  datatype MeshInfo = MeshInfo(vertexCount: nat, subMeshes: seq<SubMesh>, primitiveCounts: seq<nat>,
                               hasIndices: bool, indexFormat: IndexType)

  predicate MeshInfoValid(mi: MeshInfo) {
    |mi.primitiveCounts| == |mi.subMeshes|
  }

  /** One triangle geometry: the vertex limit of its submesh and whether index data
      is attached. */
  datatype Geometry = Geometry(maxVertex: nat, indexType: IndexType, indexed: bool)

  datatype BuildRange = BuildRange(primitiveCount: nat, firstVertex: nat, primitiveOffset: nat)

  datatype BlasEntry = BlasEntry(geometries: seq<Geometry>, ranges: seq<BuildRange>, maxPrims: seq<nat>)

  /** Bytes per index for the byte offset of a submesh's first index. */
  function IndexBytes(f: IndexType): (n: nat)
    ensures n == 4 <==> f == Uint32
    ensures n == 2 <==> f != Uint32
  {
    if f == Uint32 then 4 else 2
  }

  /** The BLAS build data for one mesh: one geometry, range and primitive limit per
      submesh. The triangle data's index type stays at its default (16-bit) unless
      the mesh has indices. */
  function BlasFor(mi: MeshInfo): (e: BlasEntry)
    requires MeshInfoValid(mi)
    ensures |e.geometries| == |e.ranges| == |e.maxPrims| == |mi.subMeshes|
    ensures forall j :: 0 <= j < |mi.subMeshes| ==>
      && e.geometries[j].maxVertex == mi.subMeshes[j].count
      && e.geometries[j].indexed == mi.hasIndices
      && e.ranges[j].primitiveCount == e.maxPrims[j] == mi.primitiveCounts[j]
      && e.ranges[j].firstVertex == mi.subMeshes[j].base
      && e.ranges[j].primitiveOffset == mi.subMeshes[j].start * IndexBytes(mi.indexFormat)
  {
    var n := |mi.subMeshes|;
    var indexType := if mi.hasIndices then mi.indexFormat else Uint16;
    BlasEntry(
      seq(n, j requires 0 <= j < n => Geometry(mi.subMeshes[j].count, indexType, mi.hasIndices)),
      seq(n, j requires 0 <= j < n =>
        BuildRange(mi.primitiveCounts[j], mi.subMeshes[j].base,
                   mi.subMeshes[j].start * (if mi.indexFormat == Uint32 then 4 else 2))),
      seq(n, j requires 0 <= j < n => mi.primitiveCounts[j]))
  }

  /** Size queries answered by the driver for one BLAS (an oracle input). */
  datatype SizeInfo = SizeInfo(structureSize: nat, scratchSize: nat)

  /** The size pass of BuildBLAS: the sum of all structure sizes and the largest
      scratch requirement (starting from 0), which sizes the one shared scratch
      buffer. */
  method SizeTotals(sizes: seq<SizeInfo>) returns (totalSize: nat, scratchSize: nat)
    ensures forall i :: 0 <= i < |sizes| ==> sizes[i].scratchSize <= scratchSize
    ensures |sizes| == 0 ==> scratchSize == 0 && totalSize == 0
    ensures |sizes| > 0 ==> exists i :: 0 <= i < |sizes| && sizes[i].scratchSize == scratchSize
    ensures totalSize == Sum(StructureSizes(sizes))
    ensures forall i :: 0 <= i < |sizes| ==> sizes[i].structureSize <= totalSize
  {
    totalSize, scratchSize := 0, 0;
    ghost var at := 0;
    var i := 0;
    while i < |sizes|
      invariant 0 <= i <= |sizes|
      invariant totalSize == Sum(StructureSizes(sizes[..i]))
      invariant forall k :: 0 <= k < i ==> sizes[k].scratchSize <= scratchSize
      invariant forall k :: 0 <= k < i ==> sizes[k].structureSize <= totalSize
      invariant i == 0 ==> scratchSize == 0
      invariant i > 0 ==> at < i && sizes[at].scratchSize == scratchSize
    {
      StructureSizesSnoc(sizes, i);
      totalSize := totalSize + sizes[i].structureSize;
      if sizes[i].scratchSize > scratchSize {
        scratchSize := sizes[i].scratchSize;
        at := i;
      } else if i == 0 {
        at := 0;
      }
      i := i + 1;
    }
    assert sizes[..i] == sizes;
  }

  /** The structure sizes of one more BLAS sum to the previous total plus its size. */
  lemma StructureSizesSnoc(sizes: seq<SizeInfo>, i: nat)
    requires i < |sizes|
    ensures Sum(StructureSizes(sizes[..i + 1])) == Sum(StructureSizes(sizes[..i])) + sizes[i].structureSize
  {
    assert StructureSizes(sizes[..i + 1]) == StructureSizes(sizes[..i]) + [sizes[i].structureSize];
    SumAppend(StructureSizes(sizes[..i]), [sizes[i].structureSize]);
    assert Sum([sizes[i].structureSize]) == sizes[i].structureSize by {
      assert [sizes[i].structureSize][..0] == [];
    }
  }

  function StructureSizes(sizes: seq<SizeInfo>): (r: seq<nat>)
    ensures |r| == |sizes| && forall i :: 0 <= i < |sizes| ==> r[i] == sizes[i].structureSize
  {
    seq(|sizes|, i requires 0 <= i < |sizes| => sizes[i].structureSize)
  }

  // ---------------------------------------------------------------- TLAS data

  const GEOMETRY_INSTANCE_TRIANGLE_FACING_CULL_DISABLE: nat := 0x1
  const BITS24: nat := 0x100_0000
  const BITS8: nat := 0x100

  /** One top-level instance. The custom index and hit-group offset are 24-bit
      fields and the mask an 8-bit field of VkAccelerationStructureInstanceKHR, so
      the stored values are the caller's truncated to those widths. */
  datatype Instance<E> = Instance(transform: seq<seq<E>>, instanceCustomIndex: nat, mask: nat,
                                  sbtRecordOffset: nat, flags: nat, reference: nat)

  /** The instance for one entry; `blasAddresses[k]` is the device address of the
      backing buffer of the k-th BLAS (an oracle input). */
  function InstanceFor<E>(e: Entry<E>, blasAddresses: seq<nat>): (inst: Instance<E>)
    requires IsMatrix4(e.modelMat) && e.meshID < |blasAddresses|
    ensures |inst.transform| == 3 && forall r :: 0 <= r < 3 ==> |inst.transform[r]| == 4
    ensures forall r, c :: 0 <= r < 3 && 0 <= c < 4 ==> inst.transform[r][c] == e.modelMat[c][r]
    ensures e.meshID < BITS24 ==> inst.instanceCustomIndex == e.meshID
    ensures e.hitID < BITS24 ==> inst.sbtRecordOffset == e.hitID
    ensures inst.instanceCustomIndex < BITS24 && inst.sbtRecordOffset < BITS24
    ensures inst.mask < BITS8 && (e.mask < BITS8 ==> inst.mask == e.mask)
    ensures inst.reference == blasAddresses[e.meshID]
    ensures inst.flags == GEOMETRY_INSTANCE_TRIANGLE_FACING_CULL_DISABLE
  {
    Instance(PackTransform(e.modelMat), e.meshID % BITS24, e.mask % BITS8, e.hitID % BITS24,
             GEOMETRY_INSTANCE_TRIANGLE_FACING_CULL_DISABLE, blasAddresses[e.meshID])
  }

  /** Everything Build derives: BLAS data per unique mesh, the BLAS buffer sizes, the
      shared scratch size, the summed structure size, the instances and the instance
      count given to both the size query and the build range. */
  datatype BuildResult<E> = BuildResult(blas: seq<BlasEntry>, blasBufferSizes: seq<nat>, scratchSize: nat,
                                        totalSize: nat, instances: seq<Instance<E>>, instanceCount: nat)

  predicate EntriesAreMatrices<E>(b: Builder<E>) {
    forall i :: 0 <= i < |b.entries| ==> IsMatrix4(b.entries[i].modelMat)
  }

  /** Build: BuildBLAS over the unique meshes in order, then BuildTLAS over the
      entries. `info[k]`, `sizes[k]` and `blasAddresses[k]` are what the mesh and the
      driver report for the k-th unique mesh. */
  method Build<E>(b: Builder<E>, info: seq<MeshInfo>, sizes: seq<SizeInfo>, blasAddresses: seq<nat>)
    returns (r: BuildResult<E>)
    requires Valid(b) && EntriesAreMatrices(b) && IsU32(|b.entries|)
    requires |info| == |sizes| == |blasAddresses| == |b.meshes|
    requires forall k :: 0 <= k < |info| ==> MeshInfoValid(info[k])
    ensures |r.blas| == |b.meshes| && forall k :: 0 <= k < |info| ==> r.blas[k] == BlasFor(info[k])
    ensures |r.blasBufferSizes| == |sizes| && forall k :: 0 <= k < |sizes| ==> r.blasBufferSizes[k] == sizes[k].structureSize
    ensures forall k :: 0 <= k < |sizes| ==> sizes[k].scratchSize <= r.scratchSize
    ensures |sizes| == 0 ==> r.scratchSize == 0
    ensures |sizes| > 0 ==> exists k :: 0 <= k < |sizes| && sizes[k].scratchSize == r.scratchSize
    ensures r.totalSize == Sum(StructureSizes(sizes))
    ensures r.instanceCount == |b.entries| == |r.instances|
    ensures forall i :: 0 <= i < |b.entries| ==> r.instances[i] == InstanceFor(b.entries[i], blasAddresses)
  {
    var blas := seq(|info|, k requires 0 <= k < |info| => BlasFor(info[k]));
    var total, scratch := SizeTotals(sizes);
    var bufferSizes := StructureSizes(sizes);
    var instances := seq(|b.entries|, i requires 0 <= i < |b.entries| => InstanceFor(b.entries[i], blasAddresses));
    r := BuildResult(blas, bufferSizes, scratch, total, instances, |b.entries|);
  }
}

=== FILE: common.dfy ===
/** Small shared vocabulary: optional values, fallible results, native handles,
    sums and maxima over sequences, powers of two and unsigned 32-bit wrap-around. */
module Common {

  /** A value that may be absent: stands for the source's sentinels (a -1 queue
      family index, VK_NULL_HANDLE) and for a lookup that reports failure by
      returning `false` through an out-parameter. */
  datatype Option<+T> = None | Some(value: T)

  /** Outcome of an operation whose source asserts a precondition at run time:
      `Err` is the failing assertion, `Ok` the state after the call. */
  datatype Result<+T> = Ok(value: T) | Err(reason: string)

  /** An opaque native handle (VkBuffer, VmaAllocation, VkImage ...).
      `Null` is VK_NULL_HANDLE / a zeroed handle. */
  datatype Handle = Null | Live(id: nat)

  const U32_LIMIT: nat := 0x1_0000_0000

  predicate IsU32(x: int) {
    0 <= x < U32_LIMIT
  }

  /** Conversion of an integer into a uint32_t, as C++ does (modulo 2^32). */
  function ToU32(x: int): (r: nat)
    ensures IsU32(r)
    ensures IsU32(x) ==> r == x
  {
    x % U32_LIMIT
  }

  /** A uint32_t read as a 32-bit int (two's complement). */
  function ToI32(x: nat): (r: int)
    requires IsU32(x)
    ensures -0x8000_0000 <= r < 0x8000_0000
    ensures ToU32(r) == x
  {
    if x < 0x8000_0000 then x else x - U32_LIMIT
  }

  /** `x--` on a uint32_t: zero wraps around to 0xFFFFFFFF. */
  function DecU32(x: nat): (r: nat)
    requires IsU32(x)
    ensures IsU32(r)
    ensures x > 0 ==> r + 1 == x
    ensures r == 0 <==> x == 1
  {
    if x == 0 then U32_LIMIT - 1 else x - 1
  }

  function Pow2(k: nat): (r: nat)
    ensures r >= 1
  {
    if k == 0 then 1 else 2 * Pow2(k - 1)
  }

  function Sum(s: seq<nat>): nat {
    if |s| == 0 then 0 else Sum(s[..|s| - 1]) + s[|s| - 1]
  }

  /** Largest element, 0 for the empty sequence (the source starts its running
      maximum at 0). */
  function MaxOf(s: seq<nat>): nat {
    if |s| == 0 then 0 else
      var m := MaxOf(s[..|s| - 1]);
      if s[|s| - 1] > m then s[|s| - 1] else m
  }

  lemma {:induction false} MaxOfBounds(s: seq<nat>)
    ensures forall i :: 0 <= i < |s| ==> s[i] <= MaxOf(s)
    ensures |s| == 0 ==> MaxOf(s) == 0
    ensures |s| > 0 ==> exists i :: 0 <= i < |s| && s[i] == MaxOf(s)
  {
    if |s| > 0 {
      var p := s[..|s| - 1];
      MaxOfBounds(p);
      assert forall i :: 0 <= i < |p| ==> s[i] == p[i];
      if |p| > 0 {
        var j :| 0 <= j < |p| && p[j] == MaxOf(p);
        assert s[j] == p[j];
      }
    }
  }

  lemma {:induction false} SumAppend(s: seq<nat>, t: seq<nat>)
    ensures Sum(s + t) == Sum(s) + Sum(t)
  {
    if |t| == 0 {
      assert s + t == s;
    } else {
      assert (s + t)[..|s + t| - 1] == s + t[..|t| - 1];
      SumAppend(s, t[..|t| - 1]);
    }
  }

  /** Extending a prefix by one element adds that element to its sum. */
  lemma SumSnoc(s: seq<nat>, i: nat)
    requires i < |s|
    ensures Sum(s[..i + 1]) == Sum(s[..i]) + s[i]
  {
    assert s[..i + 1][..i] == s[..i];
  }

  /** Quotient and remainder are determined by a == q * m + r with 0 <= r < m. */
  lemma DivModUnique(a: nat, m: nat, q: nat, r: nat)
    requires m > 0 && a == q * m + r && r < m
    ensures a / m == q && a % m == r
  {
    var q', r' := a / m, a % m;
    assert a == q' * m + r';
    if q' < q {
      assert q' * m + m <= q * m by { MulMono(q' + 1, q, m); }
      assert false;
    } else if q < q' {
      assert q * m + m <= q' * m by { MulMono(q + 1, q', m); }
      assert false;
    }
  }

  lemma MulMono(x: nat, y: nat, a: nat)
    requires x <= y
    ensures x * a <= y * a
  {
  }

  /** n copies of x. */
  function Repeat<T>(n: nat, x: T): (s: seq<T>)
    ensures |s| == n && forall i :: 0 <= i < n ==> s[i] == x
  {
    if n == 0 then [] else Repeat(n - 1, x) + [x]
  }

  /** std::vector::resize: truncate to n, or pad with `fill` up to n. */
  function Resize<T>(s: seq<T>, n: nat, fill: T): (r: seq<T>)
    ensures |r| == n
    ensures forall i :: 0 <= i < n ==> r[i] == if i < |s| then s[i] else fill
  {
    if n <= |s| then s[..n] else s + Repeat(n - |s|, fill)
  }

  /** Flag set a includes every flag of u. */
  predicate Covers(a: bv32, u: bv32) {
    a & u == u
  }

  lemma CoversSelf(u: bv32)
    ensures Covers(u, u)
  {
  }

  /** Flags that cover u | x cover u and x. */
  lemma CoversOr(a: bv32, u: bv32, x: bv32)
    requires Covers(a, u | x)
    ensures Covers(a, u) && Covers(a, x)
  {
  }

  /** Some flag of b is set in the mask. */
  predicate HasBits(mask: bv32, b: bv32) {
    mask & b != 0
  }

  /** OR-ing in flags disjoint from b does not change whether b is present. */
  lemma OrDisjoint(a: bv32, bx: bv32, bt: bv32)
    requires bx & bt == 0
    ensures HasBits(a | bx, bt) == HasBits(a, bt)
  {
    OrAndDisjoint(a, bx, bt);
  }

  lemma OrAndDisjoint(a: bv32, bx: bv32, bt: bv32)
    requires bx & bt == 0
    ensures (a | bx) & bt == a & bt
  {
  }

  lemma OrSame(a: bv32, b: bv32)
    requires b != 0
    ensures HasBits(a | b, b)
  {
  }

  /** OR-ing in x keeps u, adds x, and doing it twice changes nothing. */
  lemma OrFlags(u: bv32, x: bv32)
    ensures Covers(u | x, u) && Covers(u | x, x) && (u | x) | x == u | x
  {
  }
}

=== FILE: countdown.dfy ===
/** The frame-countdown list shared by the VMA deferred-deletion queue and the staging
    pool: every entry carries a uint32 counter, `Update` is called once per produced
    frame, decrements every counter and erases the entries whose counter reaches zero. */
module Countdown {
  import opened Common

  /** One list entry: the owned resource and its remaining frame count. */
  datatype Pending<T> = Pending(item: T, frames: nat)

  /** Every counter fits the source's uint32_t field. */
  predicate WellFormed<T>(s: seq<Pending<T>>) {
    forall i :: 0 <= i < |s| ==> IsU32(s[i].frames)
  }

  /** The entry after one decrement of its counter. */
  function Decrement<T>(e: Pending<T>): Pending<T>
    requires IsU32(e.frames)
  {
    Pending(e.item, DecU32(e.frames))
  }

  /** The list after one call of Update. Defined from the back so that a
      left-to-right walk can keep "the processed prefix is Tick of the input prefix". */
  function Tick<T>(s: seq<Pending<T>>): (r: seq<Pending<T>>)
    requires WellFormed(s)
    ensures WellFormed(r)
    ensures |r| <= |s|
  {
    if |s| == 0 then []
    else
      var last := s[|s| - 1];
      var front := Tick(s[..|s| - 1]);
      if last.frames == 1 then front else front + [Decrement(last)]
  }

  /** Tick applied n times: the list after n frames. */
  function TickN<T>(s: seq<Pending<T>>, n: nat): (r: seq<Pending<T>>)
    requires WellFormed(s)
    ensures WellFormed(r)
    decreases n
  {
    if n == 0 then s else TickN(Tick(s), n - 1)
  }

  /** Update as the source performs it: walk with an iterator, decrement the entry
      under it, and either erase it (the iterator then points at the next entry) or
      step past it. */
  method Update<T>(s: seq<Pending<T>>) returns (v: seq<Pending<T>>)
    requires WellFormed(s)
    ensures v == Tick(s)
  {
    v := s;
    var i := 0;
    var k := 0;
    while i < |v|
      invariant 0 <= k <= |s|
      invariant v == Tick(s[..k]) + s[k..]
      invariant i == |Tick(s[..k])|
      decreases |s| - k
    {
      assert v[i] == s[k];
      assert s[..k + 1][..k] == s[..k];
      var e := Decrement(v[i]);
      if e.frames == 0 {
        v := v[..i] + v[i + 1..];
      } else {
        v := v[..i] + [e] + v[i + 1..];
        i := i + 1;
      }
      k := k + 1;
    }
    assert s[..k] == s;
  }

  /** The resources held by a list, front to back. */
  function Items<T>(s: seq<Pending<T>>): (r: seq<T>)
    ensures |r| == |s|
    ensures forall i :: 0 <= i < |s| ==> r[i] == s[i].item
  {
    seq(|s|, i requires 0 <= i < |s| => s[i].item)
  }

  /** The resources one Update erases (counter at 1), front to back. */
  function Expired<T>(s: seq<Pending<T>>): seq<T> {
    if |s| == 0 then []
    else Expired(s[..|s| - 1]) + (if s[|s| - 1].frames == 1 then [s[|s| - 1].item] else [])
  }

  /** Nothing is lost or duplicated by Update: every resource either survives it
      or is among the erased ones, exactly once. */
  lemma {:induction false} TickPartition<T>(s: seq<Pending<T>>)
    requires WellFormed(s)
    ensures multiset(Items(Tick(s))) + multiset(Expired(s)) == multiset(Items(s))
    ensures |Tick(s)| + |Expired(s)| == |s|
  {
    if |s| > 0 {
      var p := s[..|s| - 1];
      var e := s[|s| - 1];
      TickPartition(p);
      assert Items(s) == Items(p) + [e.item];
      if e.frames != 1 {
        assert Items(Tick(s)) == Items(Tick(p)) + [e.item];
      }
    }
  }

  /** Tick works entry by entry: it distributes over concatenation. Together with
      TickSingle this characterises Tick completely. */
  lemma {:induction false} TickAppend<T>(a: seq<Pending<T>>, b: seq<Pending<T>>)
    requires WellFormed(a) && WellFormed(b)
    ensures WellFormed(a + b)
    ensures Tick(a + b) == Tick(a) + Tick(b)
  {
    WellFormedAppend(a, b);
    var ab := a + b;
    if |b| == 0 {
      assert ab == a;
    } else {
      var b' := b[..|b| - 1];
      var e := b[|b| - 1];
      assert ab[..|ab| - 1] == a + b';
      assert ab[|ab| - 1] == e;
      assert WellFormed(b') by { WellFormedPrefix(b, |b| - 1); }
      TickAppend(a, b');
      assert Tick(b) == if e.frames == 1 then Tick(b') else Tick(b') + [Decrement(e)];
      assert Tick(ab) == if e.frames == 1 then Tick(a + b') else Tick(a + b') + [Decrement(e)];
    }
  }

  lemma WellFormedAppend<T>(a: seq<Pending<T>>, b: seq<Pending<T>>)
    requires WellFormed(a) && WellFormed(b)
    ensures WellFormed(a + b)
  {
    var ab := a + b;
    forall i | 0 <= i < |ab| ensures IsU32(ab[i].frames) {
      if i < |a| { assert ab[i] == a[i]; } else { assert ab[i] == b[i - |a|]; }
    }
  }

  lemma WellFormedPrefix<T>(s: seq<Pending<T>>, k: nat)
    requires WellFormed(s) && k <= |s|
    ensures WellFormed(s[..k]) && WellFormed(s[k..])
  {
    forall i | 0 <= i < k ensures IsU32(s[..k][i].frames) { assert s[..k][i] == s[i]; }
    forall i | 0 <= i < |s| - k ensures IsU32(s[k..][i].frames) { assert s[k..][i] == s[k + i]; }
  }

  /** A single entry survives one frame with its counter decremented, unless the
      counter was 1, in which case it is erased. */
  lemma TickSingle<T>(e: Pending<T>)
    requires IsU32(e.frames)
    ensures WellFormed([e])
    ensures Tick([e]) == if e.frames == 1 then [] else [Decrement(e)]
  {
    assert [e][..0] == [];
  }

  lemma {:induction false} TickNAppend<T>(a: seq<Pending<T>>, b: seq<Pending<T>>, n: nat)
    requires WellFormed(a) && WellFormed(b)
    ensures WellFormed(a + b)
    ensures TickN(a + b, n) == TickN(a, n) + TickN(b, n)
    decreases n
  {
    TickAppend(a, b);
    if n > 0 {
      TickNAppend(Tick(a), Tick(b), n - 1);
    }
  }

  lemma {:induction false} TickNEmpty<T>(n: nat)
    ensures TickN<T>([], n) == []
  {
    if n > 0 {
      TickNEmpty<T>(n - 1);
    }
  }

  /** An entry whose counter is k (1 <= k < 2^32) is still present, with counter
      k - n, after n < k frames, and is gone after k frames or more. */
  lemma {:induction false} TickNSingle<T>(x: T, k: nat, n: nat)
    requires 1 <= k && IsU32(k)
    ensures WellFormed([Pending(x, k)])
    ensures n < k ==> TickN([Pending(x, k)], n) == [Pending(x, k - n)]
    ensures n >= k ==> TickN([Pending(x, k)], n) == []
  {
    var e := Pending(x, k);
    TickSingle(e);
    if n > 0 {
      if k == 1 {
        assert Tick([e]) == [];
        TickNEmpty<T>(n - 1);
        assert TickN([e], n) == TickN([], n - 1);
      } else {
        assert Tick([e]) == [Pending(x, k - 1)];
        TickNSingle(x, k - 1, n - 1);
        assert TickN([e], n) == TickN([Pending(x, k - 1)], n - 1);
      }
    }
  }

  /** Lifetime of one entry anywhere in the list, whatever its neighbours: an entry
      added with counter k >= 1 survives k - 1 Update calls and is erased by the k-th. */
  lemma Lifetime<T>(s: seq<Pending<T>>, i: nat, n: nat)
    requires WellFormed(s) && i < |s| && s[i].frames >= 1
    ensures WellFormed(s[..i]) && WellFormed(s[i + 1..])
    ensures n < s[i].frames ==>
      TickN(s, n) == TickN(s[..i], n) + [Pending(s[i].item, s[i].frames - n)] + TickN(s[i + 1..], n)
    ensures n >= s[i].frames ==>
      TickN(s, n) == TickN(s[..i], n) + TickN(s[i + 1..], n)
  {
    var a, e, b := s[..i], s[i], s[i + 1..];
    WellFormedPrefix(s, i);
    WellFormedPrefix(s, i + 1);
    assert s == a + [e] + b;
    TickNSplit(a, e, b, n);
    TickNSingle(e.item, e.frames, n);
  }

  /** n frames act on the entries before e, on e and on those after it separately. */
  lemma TickNSplit<T>(a: seq<Pending<T>>, e: Pending<T>, b: seq<Pending<T>>, n: nat)
    requires WellFormed(a) && WellFormed(b) && IsU32(e.frames)
    ensures WellFormed([e]) && WellFormed(a + [e] + b)
    ensures TickN(a + [e] + b, n) == TickN(a, n) + TickN([e], n) + TickN(b, n)
  {
    TickSingle(e);
    TickNAppend(a, [e], n);
    TickNAppend(a + [e], b, n);
  }

  /** The staging-pool shape: counters lie in 1..framesInFlight and never decrease
      from front to back (entries are appended with the largest count). */
  predicate Ordered<T>(s: seq<Pending<T>>, framesInFlight: nat) {
    && IsU32(framesInFlight)
    && (forall i :: 0 <= i < |s| ==> 1 <= s[i].frames <= framesInFlight)
    && (forall i, j :: 0 <= i <= j < |s| ==> s[i].frames <= s[j].frames)
  }

  /** Number of entries whose counter is exactly 1 (those the next Update erases). */
  function Expiring<T>(s: seq<Pending<T>>): nat {
    if |s| == 0 then 0
    else Expiring(s[..|s| - 1]) + (if s[|s| - 1].frames == 1 then 1 else 0)
  }

  /** Every entry of an Ordered list with its counter lowered by one. */
  function DecrementAll<T>(s: seq<Pending<T>>): (r: seq<Pending<T>>)
    requires forall i :: 0 <= i < |s| ==> s[i].frames >= 1
    ensures |r| == |s|
    ensures forall i :: 0 <= i < |s| ==> r[i] == Pending(s[i].item, s[i].frames - 1)
  {
    seq(|s|, i requires 0 <= i < |s| => Pending(s[i].item, s[i].frames - 1))
  }

  lemma OrderedWellFormed<T>(s: seq<Pending<T>>, f: nat)
    requires Ordered(s, f)
    ensures WellFormed(s)
  {
  }

  lemma OrderedPrefix<T>(s: seq<Pending<T>>, f: nat)
    requires Ordered(s, f) && |s| > 0
    ensures Ordered(s[..|s| - 1], f)
  {
    var p := s[..|s| - 1];
    assert forall i :: 0 <= i < |p| ==> p[i] == s[i];
  }

  /** On an Ordered list, Update erases exactly a prefix (the entries at 1) and
      decrements the rest. */
  lemma {:induction false} TickErasesPrefix<T>(s: seq<Pending<T>>, f: nat)
    requires Ordered(s, f)
    ensures WellFormed(s)
    ensures Expiring(s) <= |s|
    ensures forall j :: 0 <= j < Expiring(s) ==> s[j].frames == 1
    ensures forall j :: Expiring(s) <= j < |s| ==> s[j].frames > 1
    ensures Tick(s) == DecrementAll(s[Expiring(s)..])
  {
    OrderedWellFormed(s, f);
    if |s| > 0 {
      var p := s[..|s| - 1];
      var e := s[|s| - 1];
      OrderedPrefix(s, f);
      OrderedWellFormed(p, f);
      TickErasesPrefix(p, f);
      var k := Expiring(p);
      assert forall j :: 0 <= j < |p| ==> p[j] == s[j];
      if e.frames == 1 {
        AllExpire(s, f, k);
      } else {
        assert Expiring(s) == k;
        assert Tick(s) == Tick(p) + [Decrement(e)];
        DecrementAllSnoc(s, k);
      }
    }
  }

  /** DecrementAll of a suffix, entry by entry: entry j is entry k + j of the
      whole list, one frame lower. */
  lemma DecrementAllShift<T>(s: seq<Pending<T>>, k: nat)
    requires k <= |s| && forall i :: k <= i < |s| ==> s[i].frames >= 1
    ensures |DecrementAll(s[k..])| == |s| - k
    ensures forall j :: 0 <= j < |s| - k ==>
      DecrementAll(s[k..])[j] == Pending(s[k + j].item, s[k + j].frames - 1)
  {
    forall j | 0 <= j < |s| - k
      ensures DecrementAll(s[k..])[j] == Pending(s[k + j].item, s[k + j].frames - 1)
    {
      assert s[k..][j] == s[k + j];
    }
  }

  lemma AllExpire<T>(s: seq<Pending<T>>, f: nat, k: nat)
    requires Ordered(s, f) && |s| > 0 && s[|s| - 1].frames == 1
    requires k == Expiring(s[..|s| - 1]) && k <= |s| - 1
    requires forall j :: k <= j < |s| - 1 ==> s[j].frames > 1
    ensures Expiring(s) == |s|
  {
    if k < |s| - 1 {
      assert false;
    }
  }

  lemma DecrementAllSnoc<T>(s: seq<Pending<T>>, k: nat)
    requires |s| > 0 && k <= |s| - 1
    requires forall i :: 0 <= i < |s| ==> s[i].frames >= 1 && IsU32(s[i].frames)
    ensures DecrementAll(s[k..]) == DecrementAll(s[..|s| - 1][k..]) + [Decrement(s[|s| - 1])]
  {
    var p := s[..|s| - 1];
    var d := DecrementAll(s[k..]);
    var dp := DecrementAll(p[k..]);
    assert |d| == |dp| + 1;
    forall i | 0 <= i < |d| ensures d[i] == (dp + [Decrement(s[|s| - 1])])[i] {
      if i < |dp| { assert s[k..][i] == p[k..][i]; }
    }
  }

  /** Appending a fresh entry with the full count keeps the list Ordered. */
  lemma AppendKeepsOrdered<T>(s: seq<Pending<T>>, x: T, f: nat)
    requires Ordered(s, f) && f >= 1
    ensures Ordered(s + [Pending(x, f)], f)
  {
  }

  /** Update keeps the list Ordered. */
  lemma TickKeepsOrdered<T>(s: seq<Pending<T>>, f: nat)
    requires Ordered(s, f)
    ensures WellFormed(s)
    ensures Ordered(Tick(s), f)
  {
    TickErasesPrefix(s, f);
  }
}

=== FILE: dynamic_render.dfy ===
/** DynamicRenderBuilder: the colour and depth attachments, the render area and
    the flags that make up a VkRenderingInfoKHR, and the scissor BeginRendering
    sets when the builder manages the view state. Clear values and the viewport
    are float state and stay opaque. */
module DynamicRender {
  import opened Common

  const LOAD_OP_LOAD: nat := 0
  const LOAD_OP_CLEAR: nat := 1
  const LOAD_OP_DONT_CARE: nat := 2
  const STORE_OP_STORE: nat := 0
  const LAYOUT_UNDEFINED: nat := 0

  /** A clear colour or depth value, kept opaque. */
  datatype ClearValue = ClearValue(raw: seq<int>)

  /** A VkRenderingAttachmentInfoKHR. */
  datatype Attachment = Attachment(view: Handle, layout: nat, loadOp: nat, storeOp: nat, clearValue: ClearValue)

  /** A value-initialised attachment: no view, undefined layout, load and store. */
  const DEFAULT_ATTACHMENT: Attachment := Attachment(Null, LAYOUT_UNDEFINED, LOAD_OP_LOAD, STORE_OP_STORE, ClearValue([]))

  /** A VkRect2D: a signed offset and an unsigned extent. */
  datatype Rect = Rect(offsetX: int, offsetY: int, extentX: nat, extentY: nat)

  /** A VkRenderingInfoKHR; the depth and stencil pointers are the attachment they
      point at, if set. */
  datatype RenderInfo = RenderInfo(
    flags: nat,
    renderArea: Rect,
    layerCount: nat,
    viewMask: nat,
    colourAttachments: seq<Attachment>,
    depth: Option<Attachment>,
    stencil: Option<Attachment>)

  datatype DynamicRenderBuilder = DynamicRenderBuilder(
    colourAttachments: seq<Attachment>,
    depthAttachment: Attachment,
    usingStencil: bool,
    usingAutoViewstate: bool,
    renderInfo: RenderInfo)

  /** The constructor: no stencil and one layer; everything else value-initialised. */
  function NewDynamicRenderBuilder(): (b: DynamicRenderBuilder)
    ensures !b.usingStencil && b.renderInfo.layerCount == 1
    ensures b.colourAttachments == [] && b.depthAttachment == DEFAULT_ATTACHMENT
    ensures b.renderInfo.depth.None? && b.renderInfo.stencil.None?
  {
    DynamicRenderBuilder([], DEFAULT_ATTACHMENT, false, false,
      RenderInfo(0, Rect(0, 0, 0, 0), 1, 0, [], None, None))
  }

  // ---------------------------------------------------------------- attachments

  /** The load operation for a `clear` flag. */
  function LoadOp(clear: bool): (op: nat)
    ensures op == LOAD_OP_CLEAR <==> clear
    ensures !clear ==> op == LOAD_OP_DONT_CARE
  {
    if clear then LOAD_OP_CLEAR else LOAD_OP_DONT_CARE
  }

  /** WithColourAttachment (info overload): appends the given attachment. */
  function WithColourAttachmentInfo(b: DynamicRenderBuilder, info: Attachment): (r: DynamicRenderBuilder)
    ensures r.colourAttachments == b.colourAttachments + [info]
    ensures r.(colourAttachments := b.colourAttachments) == b
  {
    b.(colourAttachments := b.colourAttachments + [info])
  }

  /** WithColourAttachment (view overload): appends one attachment of that view and
      layout that clears on load iff `clear`, otherwise does not care, and stores. */
  function WithColourAttachment(b: DynamicRenderBuilder, view: Handle, layout: nat, clear: bool, clearValue: ClearValue): (r: DynamicRenderBuilder)
    ensures |r.colourAttachments| == |b.colourAttachments| + 1
    ensures r.colourAttachments[..|b.colourAttachments|] == b.colourAttachments
    ensures var a := r.colourAttachments[|b.colourAttachments|];
      a.view == view && a.layout == layout && a.storeOp == STORE_OP_STORE && a.clearValue == clearValue &&
      (a.loadOp == LOAD_OP_CLEAR <==> clear) && (!clear ==> a.loadOp == LOAD_OP_DONT_CARE)
    ensures r.(colourAttachments := b.colourAttachments) == b
  {
    WithColourAttachmentInfo(b, Attachment(view, layout, LoadOp(clear), STORE_OP_STORE, clearValue))
  }

  /** WithDepthAttachment (info overload): replaces the depth attachment; the
      stencil choice is untouched. */
  function WithDepthAttachmentInfo(b: DynamicRenderBuilder, info: Attachment): (r: DynamicRenderBuilder)
    ensures r.depthAttachment == info && r.usingStencil == b.usingStencil
    ensures r.(depthAttachment := b.depthAttachment) == b
  {
    b.(depthAttachment := info)
  }

  /** WithDepthAttachment (view overload): the single depth attachment takes the
      view, layout, load op from `clear`, store op and clear value, and the stencil
      choice becomes `withStencil`. */
  function WithDepthAttachment(b: DynamicRenderBuilder, view: Handle, layout: nat, clear: bool, clearValue: ClearValue, withStencil: bool): (r: DynamicRenderBuilder)
    ensures r.depthAttachment.view == view && r.depthAttachment.layout == layout
    ensures (r.depthAttachment.loadOp == LOAD_OP_CLEAR <==> clear) && r.depthAttachment.storeOp == STORE_OP_STORE
    ensures r.depthAttachment.clearValue == clearValue
    ensures r.usingStencil == withStencil
    ensures r.colourAttachments == b.colourAttachments && r.renderInfo == b.renderInfo
    ensures r.usingAutoViewstate == b.usingAutoViewstate
  {
    b.(depthAttachment := Attachment(view, layout, LoadOp(clear), STORE_OP_STORE, clearValue), usingStencil := withStencil)
  }

  /** A second call replaces the first: only the last depth attachment is kept. */
  lemma DepthAttachmentReplaced(b: DynamicRenderBuilder, v1: Handle, l1: nat, c1: bool, cv1: ClearValue, s1: bool,
                                v2: Handle, l2: nat, c2: bool, cv2: ClearValue, s2: bool)
    ensures WithDepthAttachment(WithDepthAttachment(b, v1, l1, c1, cv1, s1), v2, l2, c2, cv2, s2)
         == WithDepthAttachment(b, v2, l2, c2, cv2, s2)
  {
  }

  // ---------------------------------------------------------------- render info

  /** WithRenderArea (rectangle overload): the area and the auto-viewstate flag. */
  function WithRenderArea(b: DynamicRenderBuilder, area: Rect, useAutoViewstate: bool): (r: DynamicRenderBuilder)
    ensures r.renderInfo.renderArea == area && r.usingAutoViewstate == useAutoViewstate
    ensures r.renderInfo.(renderArea := b.renderInfo.renderArea) == b.renderInfo
    ensures r.(renderInfo := b.renderInfo, usingAutoViewstate := b.usingAutoViewstate) == b
  {
    b.(renderInfo := b.renderInfo.(renderArea := area), usingAutoViewstate := useAutoViewstate)
  }

  /** WithRenderArea (component overload): offsets are int32 and extents uint32. */
  function WithRenderAreaOf(b: DynamicRenderBuilder, offsetX: int, offsetY: int, extentX: nat, extentY: nat, useAutoViewstate: bool): (r: DynamicRenderBuilder)
    requires -0x8000_0000 <= offsetX < 0x8000_0000 && -0x8000_0000 <= offsetY < 0x8000_0000
    requires IsU32(extentX) && IsU32(extentY)
    ensures r.renderInfo.renderArea == Rect(offsetX, offsetY, extentX, extentY)
    ensures r.usingAutoViewstate == useAutoViewstate
    ensures r == WithRenderArea(b, Rect(offsetX, offsetY, extentX, extentY), useAutoViewstate)
  {
    b.(renderInfo := b.renderInfo.(renderArea := Rect(offsetX, offsetY, extentX, extentY)), usingAutoViewstate := useAutoViewstate)
  }

  /** WithLayerCount: the int argument becomes the uint32 layer count. */
  function WithLayerCount(b: DynamicRenderBuilder, count: int): (r: DynamicRenderBuilder)
    requires -0x8000_0000 <= count < 0x8000_0000
    ensures IsU32(count) ==> r.renderInfo.layerCount == count
    ensures count < 0 ==> r.renderInfo.layerCount == count + U32_LIMIT
    ensures r.renderInfo.(layerCount := b.renderInfo.layerCount) == b.renderInfo
    ensures r.(renderInfo := b.renderInfo) == b
  {
    b.(renderInfo := b.renderInfo.(layerCount := ToU32(count)))
  }

  function WithRenderingFlags(b: DynamicRenderBuilder, flags: nat): (r: DynamicRenderBuilder)
    ensures r.renderInfo.flags == flags
    ensures r.renderInfo.(flags := b.renderInfo.flags) == b.renderInfo && r.(renderInfo := b.renderInfo) == b
  {
    b.(renderInfo := b.renderInfo.(flags := flags))
  }

  function WithViewMask(b: DynamicRenderBuilder, viewMask: nat): (r: DynamicRenderBuilder)
    ensures r.renderInfo.viewMask == viewMask
    ensures r.renderInfo.(viewMask := b.renderInfo.viewMask) == b.renderInfo && r.(renderInfo := b.renderInfo) == b
  {
    b.(renderInfo := b.renderInfo.(viewMask := viewMask))
  }

  /** WithRenderInfo: the whole info is replaced, attachments it points at included. */
  function WithRenderInfo(b: DynamicRenderBuilder, info: RenderInfo): (r: DynamicRenderBuilder)
    ensures r.renderInfo == info && r.(renderInfo := b.renderInfo) == b
  {
    b.(renderInfo := info)
  }

  // ---------------------------------------------------------------- build

  /** Build: the colour attachments in insertion order, the depth pointer always
      set, and the stencil pointer set to the depth attachment when stencil is in
      use; otherwise the stencil pointer is left as it was. */
  function Build(b: DynamicRenderBuilder): (r: DynamicRenderBuilder)
    ensures r.renderInfo.colourAttachments == b.colourAttachments
    ensures r.renderInfo.depth == Some(b.depthAttachment)
    ensures b.usingStencil ==> r.renderInfo.stencil == Some(b.depthAttachment)
    ensures !b.usingStencil ==> r.renderInfo.stencil == b.renderInfo.stencil
    ensures r.renderInfo.renderArea == b.renderInfo.renderArea && r.renderInfo.layerCount == b.renderInfo.layerCount
    ensures r.renderInfo.flags == b.renderInfo.flags && r.renderInfo.viewMask == b.renderInfo.viewMask
    ensures r.(renderInfo := b.renderInfo) == b
  {
    var info := b.renderInfo.(colourAttachments := b.colourAttachments, depth := Some(b.depthAttachment));
    b.(renderInfo := if b.usingStencil then info.(stencil := Some(b.depthAttachment)) else info)
  }

  /** From a builder whose render info has no stencil pointer (a new builder, or
      one whose info was replaced by one without), Build sets it exactly when
      stencil is in use. */
  lemma StencilIffUsing(b: DynamicRenderBuilder)
    requires b.renderInfo.stencil.None?
    ensures Build(b).renderInfo.stencil.Some? <==> b.usingStencil
    ensures Build(b).renderInfo.stencil.Some? ==> Build(b).renderInfo.stencil.value == Build(b).renderInfo.depth.value
  {
  }

  /** Setters other than WithRenderInfo keep the stencil pointer of a new builder
      unset, so Build on it sets the pointer exactly when WithDepthAttachment last
      asked for stencil. */
  lemma NewBuilderStencil(view: Handle, layout: nat, clear: bool, cv: ClearValue, withStencil: bool)
    ensures var b := WithDepthAttachment(NewDynamicRenderBuilder(), view, layout, clear, cv, withStencil);
      Build(b).renderInfo.stencil.Some? <==> withStencil
  {
  }

  /** BeginRendering: begins with Build's info and, with auto-viewstate, sets the
      scissor to the render area's extent at offset (0, 0). */
  function BeginRendering(b: DynamicRenderBuilder): (r: (DynamicRenderBuilder, Option<Rect>))
    ensures r.0 == Build(b)
    ensures r.1.Some? <==> b.usingAutoViewstate
    ensures r.1.Some? ==> r.1.value.offsetX == 0 && r.1.value.offsetY == 0
    ensures r.1.Some? ==> r.1.value.extentX == b.renderInfo.renderArea.extentX && r.1.value.extentY == b.renderInfo.renderArea.extentY
  {
    var built := Build(b);
    if b.usingAutoViewstate then
      var area := built.renderInfo.renderArea;
      (built, Some(Rect(0, 0, area.extentX, area.extentY)))
    else (built, None)
  }

  /** With auto-viewstate, the scissor covers the render area when the area starts
      at the origin. */
  lemma AutoScissorCoversOriginArea(b: DynamicRenderBuilder, area: Rect)
    requires area.offsetX == 0 && area.offsetY == 0
    ensures BeginRendering(WithRenderArea(b, area, true)).1 == Some(area)
  {
  }
}

=== FILE: graphics_pipeline.dfy ===
/** PipelineBuilder for graphics pipelines: the fixed-function state its
    constructor sets, the per-attachment blend states, the depth and stencil
    formats, and Build's default blend states and dynamic-rendering info. Enum
    values are Vulkan's; float state (line width, blend constants) is not kept. */
module GraphicsPipeline {
  import opened Common
  import opened ShaderReflection
  import opened PipelineLayouts
  import Shader

  const DYNAMIC_VIEWPORT: nat := 0
  const DYNAMIC_SCISSOR: nat := 1
  const SAMPLE_COUNT_1: nat := 1
  const COMPARE_ALWAYS: nat := 7
  const CULL_NONE: nat := 0
  const POLYGON_FILL: nat := 0
  const FRONT_COUNTER_CLOCKWISE: nat := 0
  const TOPOLOGY_TRIANGLE_LIST: nat := 3
  const FORMAT_UNDEFINED: nat := 0
  /** VK_FORMAT_D32_SFLOAT, a depth-only format. */
  const FORMAT_D32_SFLOAT: nat := 126
  const BLEND_SRC_ALPHA: nat := 6
  const BLEND_ONE_MINUS_SRC_ALPHA: nat := 7
  const BLEND_OP_ADD: nat := 0
  /** R | G | B | A colour components. */
  const WRITE_RGBA: nat := 0xF

  datatype DepthState = DepthState(compareOp: nat, testEnable: bool, writeEnable: bool, stencilEnable: bool, boundsEnable: bool)

  /** A VkPipelineColorBlendAttachmentState. */
  datatype BlendAttachment = BlendAttachment(
    writeMask: nat, enabled: bool, colourOp: nat, alphaOp: nat,
    srcColour: nat, srcAlpha: nat, dstColour: nat, dstAlpha: nat)

  datatype GraphicsBuilder = GraphicsBuilder(
    base: PipelineBase,
    dynamicStates: seq<nat>,
    samples: nat,
    viewportCount: nat,
    scissorCount: nat,
    depth: DepthState,
    depthFormat: nat,
    stencilFormat: nat,
    cullMode: nat,
    polygonMode: nat,
    frontFace: nat,
    topology: nat,
    blendStates: seq<BlendAttachment>,
    colourFormats: seq<nat>,
    patchControlPoints: Option<nat>,
    renderPass: Handle,
    stages: Option<Shader.StageList>)

  /** VkPipelineRenderingCreateInfoKHR. */
  datatype RenderingInfo = RenderingInfo(depthFormat: nat, stencilFormat: nat, colourAttachmentCount: nat, colourFormats: seq<nat>)

  /** The parts of the create infos Build hands to the device. */
  datatype GraphicsCreateInfo = GraphicsCreateInfo(
    setLayouts: seq<Handle>,
    pushConstants: seq<PushRange>,
    blendStates: seq<BlendAttachment>,
    layout: Handle,
    rendering: Option<RenderingInfo>)

  /** The constructor: viewport and scissor dynamic, one sample, one viewport and
      scissor, depth test, write, stencil and bounds off with compare-always, no
      culling, filled CCW triangles from a triangle list, undefined depth and
      stencil formats, and nothing else set. */
  function NewGraphicsBuilder(): (b: GraphicsBuilder)
    ensures b.dynamicStates == [DYNAMIC_VIEWPORT, DYNAMIC_SCISSOR]
    ensures b.samples == SAMPLE_COUNT_1 && b.viewportCount == 1 && b.scissorCount == 1
    ensures b.depth == DepthState(COMPARE_ALWAYS, false, false, false, false)
    ensures b.depthFormat == FORMAT_UNDEFINED && b.stencilFormat == FORMAT_UNDEFINED
    ensures b.cullMode == CULL_NONE && b.polygonMode == POLYGON_FILL && b.frontFace == FRONT_COUNTER_CLOCKWISE
    ensures b.topology == TOPOLOGY_TRIANGLE_LIST
    ensures b.blendStates == [] && b.colourFormats == [] && b.patchControlPoints.None? && b.stages.None?
    ensures b.base.userLayouts == [] && b.base.allLayouts == [] && b.base.pushConstants == []
  {
    GraphicsBuilder(
      PipelineBase(Null, Null, {}, [], [], [], []),
      [DYNAMIC_VIEWPORT, DYNAMIC_SCISSOR], SAMPLE_COUNT_1, 1, 1,
      DepthState(COMPARE_ALWAYS, false, false, false, false),
      FORMAT_UNDEFINED, FORMAT_UNDEFINED,
      CULL_NONE, POLYGON_FILL, FRONT_COUNTER_CLOCKWISE, TOPOLOGY_TRIANGLE_LIST,
      [], [], None, Null, None)
  }

  // ---------------------------------------------------------------- setters

  /** WithDepthState: compare op and the three enables; depth bounds unchanged. */
  function WithDepthState(b: GraphicsBuilder, op: nat, depthEnabled: bool, writeEnabled: bool, stencilEnabled: bool): (r: GraphicsBuilder)
    ensures r.depth.compareOp == op && r.depth.testEnable == depthEnabled
    ensures r.depth.writeEnable == writeEnabled && r.depth.stencilEnable == stencilEnabled
    ensures r.depth.boundsEnable == b.depth.boundsEnable
    ensures r.(depth := b.depth) == b
  {
    b.(depth := DepthState(op, depthEnabled, writeEnabled, stencilEnabled, b.depth.boundsEnable))
  }

  /** The blend state WithBlendState builds: all four channels written, add for
      colour and alpha, one source and one destination factor for both. */
  function BlendState(src: nat, dst: nat, enabled: bool): (a: BlendAttachment)
    ensures a.writeMask == WRITE_RGBA && a.enabled == enabled
    ensures a.colourOp == BLEND_OP_ADD && a.alphaOp == BLEND_OP_ADD
    ensures a.srcColour == src && a.srcAlpha == src && a.dstColour == dst && a.dstAlpha == dst
  {
    BlendAttachment(WRITE_RGBA, enabled, BLEND_OP_ADD, BLEND_OP_ADD, src, src, dst, dst)
  }

  /** The state Build adds when no blend state was given: alpha blending, disabled. */
  const DEFAULT_BLEND: BlendAttachment := BlendState(BLEND_SRC_ALPHA, BLEND_ONE_MINUS_SRC_ALPHA, false)

  /** WithBlendState: appends exactly one attachment state. */
  function WithBlendState(b: GraphicsBuilder, src: nat, dst: nat, enabled: bool): (r: GraphicsBuilder)
    ensures |r.blendStates| == |b.blendStates| + 1 && r.blendStates[..|b.blendStates|] == b.blendStates
    ensures r.blendStates[|b.blendStates|] == BlendState(src, dst, enabled)
    ensures r.(blendStates := b.blendStates) == b
  {
    b.(blendStates := b.blendStates + [BlendState(src, dst, enabled)])
  }

  /** WithRaster: cull and polygon mode. */
  function WithRaster(b: GraphicsBuilder, cullMode: nat, polygonMode: nat): (r: GraphicsBuilder)
    ensures r.cullMode == cullMode && r.polygonMode == polygonMode
    ensures r.(cullMode := b.cullMode, polygonMode := b.polygonMode) == b
  {
    b.(cullMode := cullMode, polygonMode := polygonMode)
  }

  function WithTopology(b: GraphicsBuilder, topology: nat): (r: GraphicsBuilder)
    ensures r.topology == topology && r.(topology := b.topology) == b
  {
    b.(topology := topology)
  }

  /** WithDepthStencilFormat: one format for both depth and stencil. */
  function WithDepthStencilFormat(b: GraphicsBuilder, format: nat): (r: GraphicsBuilder)
    ensures r.depthFormat == format && r.stencilFormat == format
    ensures r.(depthFormat := b.depthFormat, stencilFormat := b.stencilFormat) == b
  {
    b.(depthFormat := format, stencilFormat := format)
  }

  /** WithDepthFormat: the depth format only; the stencil format is kept. */
  function WithDepthFormat(b: GraphicsBuilder, format: nat): (r: GraphicsBuilder)
    ensures r.depthFormat == format && r.stencilFormat == b.stencilFormat
    ensures r.(depthFormat := b.depthFormat) == b
  {
    b.(depthFormat := format)
  }

  /** The last depth setter decides the depth format; the stencil format is the
      one WithDepthStencilFormat last gave. */
  lemma DepthSettersCompose(b: GraphicsBuilder, f: nat, g: nat)
    ensures WithDepthFormat(WithDepthStencilFormat(b, f), g).depthFormat == g
    ensures WithDepthFormat(WithDepthStencilFormat(b, f), g).stencilFormat == f
    ensures WithDepthStencilFormat(WithDepthFormat(b, g), f) == WithDepthStencilFormat(b, f)
  {
  }

  /** WithColourFormats: the formats replace the earlier ones. */
  function WithColourFormats(b: GraphicsBuilder, formats: seq<nat>): (r: GraphicsBuilder)
    ensures r.colourFormats == formats && r.(colourFormats := b.colourFormats) == b
  {
    b.(colourFormats := formats)
  }

  /** WithTessellationPatchVertexCount: sets the patch size and attaches the
      tessellation state. */
  function WithTessellationPatchVertexCount(b: GraphicsBuilder, controlPoints: nat): (r: GraphicsBuilder)
    ensures r.patchControlPoints == Some(controlPoints) && r.(patchControlPoints := b.patchControlPoints) == b
  {
    b.(patchControlPoints := Some(controlPoints))
  }

  function WithPass(b: GraphicsBuilder, renderPass: Handle): (r: GraphicsBuilder)
    ensures r.renderPass == renderPass && r.(renderPass := b.renderPass) == b
  {
    b.(renderPass := renderPass)
  }

  /** WithShader: the shader's compacted stage list goes into the create info. */
  function WithShader(b: GraphicsBuilder, s: Shader.VulkanShader): (r: GraphicsBuilder)
    requires Shader.ShaderWf(s)
    ensures r.stages.Some? && r.stages.value.stageCount == s.stageCount && r.stages.value.stages == s.infos
    ensures r.(stages := b.stages) == b
  {
    b.(stages := Some(Shader.FillShaderStageCreateInfo(s)))
  }

  // ---------------------------------------------------------------- build

  /** Dynamic rendering is set up when there is a colour format or a depth format. */
  predicate UsesDynamicRendering(b: GraphicsBuilder) {
    b.colourFormats != [] || b.depthFormat != FORMAT_UNDEFINED
  }

  /** The blend states Build ends with, as written: the given ones, or one default
      per colour format, or exactly one default when there are no formats. */
  function BlendStatesAsWritten(b: GraphicsBuilder): (r: seq<BlendAttachment>)
    ensures b.blendStates != [] ==> r == b.blendStates
    ensures b.blendStates == [] ==> |r| == (if b.colourFormats != [] then |b.colourFormats| else 1)
    ensures b.blendStates == [] ==> forall i :: 0 <= i < |r| ==> r[i] == DEFAULT_BLEND
  {
    if b.blendStates != [] then b.blendStates
    else if b.colourFormats != [] then Repeat(|b.colourFormats|, DEFAULT_BLEND)
    else [DEFAULT_BLEND]
  }

  /** With dynamic rendering and no render pass, the colour blend state must have
      exactly one attachment per colour attachment (valid-usage rule 06055 of
      VkGraphicsPipelineCreateInfo in the Vulkan specification). */
  predicate BlendMatchesRendering(info: GraphicsCreateInfo) {
    info.rendering.Some? ==> |info.blendStates| == info.rendering.value.colourAttachmentCount
  }

  /** The rendering info Build chains, if any. */
  function RenderingOf(b: GraphicsBuilder): (r: Option<RenderingInfo>)
    ensures r.Some? <==> UsesDynamicRendering(b)
    ensures r.Some? ==> r.value.depthFormat == b.depthFormat && r.value.stencilFormat == b.stencilFormat
    ensures r.Some? ==> r.value.colourFormats == b.colourFormats
    ensures r.Some? ==> r.value.colourAttachmentCount == ToU32(|b.colourFormats|)
  {
    if UsesDynamicRendering(b) then Some(RenderingInfo(b.depthFormat, b.stencilFormat, ToU32(|b.colourFormats|), b.colourFormats))
    else None
  }

  /** A depth-only pipeline (a depth format, no colour formats, no blend state):
      as written it gets one blend attachment while its rendering info declares no
      colour attachment. */
  lemma DepthOnlyBlendMismatch()
    ensures var b := WithDepthFormat(NewGraphicsBuilder(), FORMAT_D32_SFLOAT);
      var info := GraphicsCreateInfo([], [], BlendStatesAsWritten(b), Null, RenderingOf(b));
      |info.blendStates| == 1 && info.rendering.Some? && info.rendering.value.colourAttachmentCount == 0 &&
      !BlendMatchesRendering(info)
  {
    var b := WithDepthFormat(NewGraphicsBuilder(), FORMAT_D32_SFLOAT);
    assert ToU32(0) == 0;
    assert |BlendStatesAsWritten(b)| == 1;
  }

  /** The blend states with the default for a missing format list added only when
      no depth-only dynamic rendering is set up: one default per colour format,
      one when neither colour nor depth formats are given, none for depth-only. */
  function BlendStates(b: GraphicsBuilder): (r: seq<BlendAttachment>)
    ensures b.blendStates != [] ==> r == b.blendStates
    ensures b.blendStates == [] ==> forall i :: 0 <= i < |r| ==> r[i] == DEFAULT_BLEND
    ensures b.blendStates == [] && UsesDynamicRendering(b) ==> |r| == |b.colourFormats|
    ensures b.blendStates == [] && !UsesDynamicRendering(b) ==> |r| == 1
    ensures b.blendStates == [] && b.colourFormats != [] ==> r == BlendStatesAsWritten(b)
  {
    if b.blendStates != [] then b.blendStates
    else if b.colourFormats != [] then Repeat(|b.colourFormats|, DEFAULT_BLEND)
    else if b.depthFormat == FORMAT_UNDEFINED then [DEFAULT_BLEND]
    else []
  }

  /** Build: the layout from the builder's set layouts and push constants, the
      blend states (defaults added through WithBlendState when none were given),
      and the dynamic-rendering info when a colour or depth format is set.
      `created` is the pipeline layout the device returns. */
  method Build(b: GraphicsBuilder, created: Handle) returns (r: GraphicsBuilder, info: GraphicsCreateInfo)
    ensures r.blendStates == BlendStates(b) && info.blendStates == r.blendStates
    ensures info.setLayouts == b.base.allLayouts && info.pushConstants == b.base.pushConstants
    ensures info.layout == created && r.base.createLayout == created
    ensures info.rendering == RenderingOf(b)
    ensures b.blendStates == [] && |b.colourFormats| < U32_LIMIT ==> BlendMatchesRendering(info)
    ensures r.(blendStates := b.blendStates, base := b.base) == b
  {
    r := b;
    if b.blendStates == [] {
      if b.colourFormats != [] {
        var i := 0;
        while i < |b.colourFormats|
          invariant 0 <= i <= |b.colourFormats|
          invariant r == b.(blendStates := Repeat(i, DEFAULT_BLEND))
        {
          r := WithBlendState(r, BLEND_SRC_ALPHA, BLEND_ONE_MINUS_SRC_ALPHA, false);
          assert r.blendStates == Repeat(i + 1, DEFAULT_BLEND);
          i := i + 1;
        }
      } else if b.depthFormat == FORMAT_UNDEFINED {
        r := WithBlendState(r, BLEND_SRC_ALPHA, BLEND_ONE_MINUS_SRC_ALPHA, false);
      }
    }
    r := r.(base := r.base.(createLayout := created));
    info := GraphicsCreateInfo(b.base.allLayouts, b.base.pushConstants, r.blendStates, created, RenderingOf(b));
  }
}

=== FILE: mesh.dfy ===
/** VulkanMesh: which vertex attributes a mesh uploads, the bindings and
    descriptions built for them, where each attribute and the index data sit in
    the single GPU buffer, how large that buffer must be, the index and attribute
    lookups and the draw calls. Byte copies themselves are not modelled. */
module Mesh {
  import opened Common

  /** The vertex attribute types, in the order the upload visits them; each is also
      its shader location and its bit in the attribute mask. */
  const POSITIONS: nat := 0
  const COLOURS: nat := 1
  const TEXTURE_COORDS: nat := 2
  const NORMALS: nat := 3
  const TANGENTS: nat := 4
  const JOINT_WEIGHTS: nat := 5
  const JOINT_INDICES: nat := 6
  const ATTRIBUTE_COUNT: nat := 7

  /** Bytes per element of each attribute: Vector3, Vector4, Vector2, Vector3, then
      three Vector4s (four-byte components). */
  const ATTRIBUTE_SIZES: seq<nat> := [12, 16, 8, 12, 16, 16, 16]

  /** VkFormat values of the attribute table. */
  const FORMAT_R32G32_SFLOAT: nat := 103
  const FORMAT_R32G32B32_SFLOAT: nat := 106
  const FORMAT_R32G32B32A32_SINT: nat := 108
  const FORMAT_R32G32B32A32_SFLOAT: nat := 109
  const ATTRIBUTE_FORMATS: seq<nat> := [FORMAT_R32G32B32_SFLOAT, FORMAT_R32G32B32A32_SFLOAT, FORMAT_R32G32_SFLOAT,
    FORMAT_R32G32B32_SFLOAT, FORMAT_R32G32B32A32_SFLOAT, FORMAT_R32G32B32A32_SFLOAT, FORMAT_R32G32B32A32_SINT]

  datatype IndexType = IndexNone | IndexUint16 | IndexUint32

  datatype SubMesh = SubMesh(start: nat, count: nat, base: nat)

  /** The CPU-side mesh: the element count of each attribute's data array, the
      vertex and index counts, submeshes and primitive type. */
  datatype MeshData = MeshData(attributeCounts: seq<nat>, vertexCount: nat, indexCount: nat,
                               subMeshes: seq<SubMesh>, primType: nat)

  predicate MeshValid(m: MeshData) {
    |m.attributeCounts| == ATTRIBUTE_COUNT
  }

  predicate AttributeList(used: seq<nat>) {
    forall i :: 0 <= i < |used| ==> used[i] < ATTRIBUTE_COUNT
  }

  /** The attributes among the first k types whose data is non-empty, in type order. */
  function UsedBelow(counts: seq<nat>, k: nat): (used: seq<nat>)
    requires k <= |counts|
    ensures AttributeList(used) || k > ATTRIBUTE_COUNT
    ensures forall i :: 0 <= i < |used| ==> used[i] < k
    ensures forall i, j :: 0 <= i < j < |used| ==> used[i] < used[j]
    ensures forall t :: 0 <= t < k ==> (t in used <==> counts[t] > 0)
  {
    if k == 0 then []
    else UsedBelow(counts, k - 1) + (if counts[k - 1] > 0 then [k - 1] else [])
  }

  function UsedAttributes(m: MeshData): (used: seq<nat>)
    requires MeshValid(m)
    ensures AttributeList(used) && |used| <= ATTRIBUTE_COUNT
  {
    var u := UsedBelow(m.attributeCounts, ATTRIBUTE_COUNT);
    StrictlyIncreasingBound(u, ATTRIBUTE_COUNT);
    u
  }

  /** A strictly increasing list of values below k has at most k elements. */
  lemma {:induction false} StrictlyIncreasingBound(s: seq<nat>, k: nat)
    requires forall i :: 0 <= i < |s| ==> s[i] < k
    requires forall i, j :: 0 <= i < j < |s| ==> s[i] < s[j]
    ensures |s| <= k
  {
    if |s| > 0 {
      var p := s[..|s| - 1];
      assert forall i :: 0 <= i < |p| ==> p[i] < s[|s| - 1];
      StrictlyIncreasingBound(p, s[|s| - 1]);
    }
  }

  /** The per-vertex size of each used attribute. */
  function SizesOf(used: seq<nat>): (sizes: seq<nat>)
    requires AttributeList(used)
    ensures |sizes| == |used|
    ensures forall i :: 0 <= i < |used| ==> sizes[i] == ATTRIBUTE_SIZES[used[i]]
  {
    seq(|used|, i requires 0 <= i < |used| => ATTRIBUTE_SIZES[used[i]])
  }

  /** The bytes each used attribute occupies: vertexCount elements of its size. */
  function CopySizes(used: seq<nat>, vertexCount: nat): (sizes: seq<nat>)
    requires AttributeList(used)
    ensures |sizes| == |used|
    ensures forall i :: 0 <= i < |used| ==> sizes[i] == vertexCount * ATTRIBUTE_SIZES[used[i]]
  {
    seq(|used|, i requires 0 <= i < |used| => vertexCount * ATTRIBUTE_SIZES[used[i]])
  }

  /** Bytes per vertex (vSize). */
  function VertexSize(m: MeshData): nat
    requires MeshValid(m)
  {
    Sum(SizesOf(UsedAttributes(m)))
  }

  /** Summing per-attribute byte counts is the same as scaling the vertex size. */
  lemma {:induction false} SumScale(used: seq<nat>, vertexCount: nat)
    requires AttributeList(used)
    ensures Sum(CopySizes(used, vertexCount)) == vertexCount * Sum(SizesOf(used))
  {
    if |used| > 0 {
      var p := used[..|used| - 1];
      SumScale(p, vertexCount);
      assert CopySizes(used, vertexCount)[..|used| - 1] == CopySizes(p, vertexCount);
      assert SizesOf(used)[..|used| - 1] == SizesOf(p);
      var s := ATTRIBUTE_SIZES[used[|used| - 1]];
      assert vertexCount * (Sum(SizesOf(p)) + s) == vertexCount * Sum(SizesOf(p)) + vertexCount * s;
    }
  }

  // -------------------------------------------------------------- upload layout

  datatype Binding = Binding(binding: nat, stride: nat)
  datatype AttributeDescription = AttributeDescription(location: nat, binding: nat, format: nat, offset: nat)

  /** What UploadToGPU leaves in the mesh: the used attributes with their formats,
      bindings, descriptions and buffer offsets, the mask, the index type and index
      offset, and the byte count copied to the GPU buffer. */
  datatype Layout = Layout(usedAttributes: seq<nat>, usedFormats: seq<nat>, bindings: seq<Binding>,
                           descriptions: seq<AttributeDescription>, mask: bv32,
                           usedBuffers: seq<Handle>, usedOffsets: seq<nat>,
                           indexType: IndexType, indexDataOffset: nat, copySize: nat)

  /** The attribute mask of a list of attribute types. */
  function MaskOf(used: seq<nat>): bv32
    requires AttributeList(used)
  {
    if |used| == 0 then 0 else MaskOf(used[..|used| - 1]) | Bit(used[|used| - 1])
  }

  /** `1 << t` for each attribute type. */
  function Bit(t: nat): bv32
    requires t < ATTRIBUTE_COUNT
  {
    if t == 0 then 0x1 else if t == 1 then 0x2 else if t == 2 then 0x4 else if t == 3 then 0x8
    else if t == 4 then 0x10 else if t == 5 then 0x20 else 0x40
  }

  /** Bit t of the mask is set. */
  predicate MaskHas(mask: bv32, t: nat)
    requires t < ATTRIBUTE_COUNT
  {
    HasBits(mask, Bit(t))
  }

  lemma DisjointBits(x: nat, t: nat)
    requires x < ATTRIBUTE_COUNT && t < ATTRIBUTE_COUNT && x != t
    ensures Bit(x) & Bit(t) == 0
  {
    if x == 0 {} else if x == 1 {} else if x == 2 {} else if x == 3 {} else if x == 4 {} else if x == 5 {} else {}
  }

  lemma BitOrSame(a: bv32, t: nat)
    requires t < ATTRIBUTE_COUNT
    ensures MaskHas(a | Bit(t), t)
  {
    BitNonZero(t);
    OrSame(a, Bit(t));
  }

  lemma BitOrOther(a: bv32, x: nat, t: nat)
    requires x < ATTRIBUTE_COUNT && t < ATTRIBUTE_COUNT && x != t
    ensures MaskHas(a | Bit(x), t) == MaskHas(a, t)
  {
    DisjointBits(x, t);
    OrDisjoint(a, Bit(x), Bit(t));
  }

  lemma BitNonZero(t: nat)
    requires t < ATTRIBUTE_COUNT
    ensures Bit(t) != 0
  {
    if t == 0 {} else if t == 1 {} else if t == 2 {} else if t == 3 {} else if t == 4 {} else if t == 5 {} else {}
  }

  /** Bit t of the mask is set exactly when t is among the listed attributes. */
  lemma {:induction false} MaskBits(used: seq<nat>, t: nat)
    requires AttributeList(used) && t < ATTRIBUTE_COUNT
    ensures MaskHas(MaskOf(used), t) <==> t in used
  {
    if |used| > 0 {
      var p := used[..|used| - 1];
      MaskBits(p, t);
      if used[|used| - 1] == t {
        BitOrSame(MaskOf(p), t);
      } else {
        BitOrOther(MaskOf(p), used[|used| - 1], t);
      }
      assert used == p + [used[|used| - 1]];
    }
  }

  /** The binding loop of UploadToGPU: binding i and its description for the i-th
      used attribute, and the attribute mask. */
  method BuildBindings(used: seq<nat>) returns (bindings: seq<Binding>, descriptions: seq<AttributeDescription>, mask: bv32)
    requires AttributeList(used)
    ensures |bindings| == |used| && |descriptions| == |used|
    ensures forall i :: 0 <= i < |used| ==> bindings[i] == Binding(i, ATTRIBUTE_SIZES[used[i]])
    ensures forall i :: 0 <= i < |used| ==>
      descriptions[i] == AttributeDescription(used[i], i, ATTRIBUTE_FORMATS[used[i]], 0)
    ensures forall t :: 0 <= t < ATTRIBUTE_COUNT ==> (MaskHas(mask, t) <==> t in used)
  {
    bindings, descriptions, mask := [], [], 0;
    var i := 0;
    while i < |used|
      invariant 0 <= i <= |used|
      invariant |bindings| == i && |descriptions| == i
      invariant forall j :: 0 <= j < i ==> bindings[j] == Binding(j, ATTRIBUTE_SIZES[used[j]])
      invariant forall j :: 0 <= j < i ==>
        descriptions[j] == AttributeDescription(used[j], j, ATTRIBUTE_FORMATS[used[j]], 0)
      invariant mask == MaskOf(used[..i])
    {
      var t := used[i];
      bindings := bindings + [Binding(i, ATTRIBUTE_SIZES[t])];
      descriptions := descriptions + [AttributeDescription(t, i, ATTRIBUTE_FORMATS[t], 0)];
      assert used[..i + 1][..i] == used[..i];
      mask := mask | Bit(t);
      i := i + 1;
    }
    assert used[..i] == used;
    forall t | 0 <= t < ATTRIBUTE_COUNT
      ensures MaskHas(mask, t) <==> t in used
    {
      MaskBits(used, t);
    }
  }

  /** The copy loop of UploadToGPU: every used attribute reads from the mesh buffer,
      at the running total of the bytes of the attributes before it. */
  method BuildOffsets(used: seq<nat>, vertexCount: nat, gpuBuffer: Handle) returns (buffers: seq<Handle>, offsets: seq<nat>, end: nat)
    requires AttributeList(used)
    ensures |buffers| == |used| && |offsets| == |used|
    ensures forall j :: 0 <= j < |used| ==> buffers[j] == gpuBuffer
    ensures forall j :: 0 <= j < |used| ==> offsets[j] == Sum(CopySizes(used, vertexCount)[..j])
    ensures end == vertexCount * Sum(SizesOf(used))
  {
    var copies := CopySizes(used, vertexCount);
    buffers, offsets, end := [], [], 0;
    var i := 0;
    while i < |used|
      invariant 0 <= i <= |used|
      invariant |buffers| == i && |offsets| == i
      invariant forall j :: 0 <= j < i ==> buffers[j] == gpuBuffer
      invariant forall j :: 0 <= j < i ==> offsets[j] == Sum(copies[..j])
      invariant end == Sum(copies[..i])
    {
      buffers := buffers + [gpuBuffer];
      offsets := offsets + [end];
      SumSnoc(copies, i);
      end := end + vertexCount * ATTRIBUTE_SIZES[used[i]];
      i := i + 1;
    }
    assert copies[..i] == copies;
    SumScale(used, vertexCount);
  }

  /** Consecutive prefix sums differ by the element between them. */
  lemma PrefixSumsStep(s: seq<nat>, offsets: seq<nat>)
    requires |offsets| == |s|
    requires forall j :: 0 <= j < |s| ==> offsets[j] == Sum(s[..j])
    ensures |offsets| > 0 ==> offsets[0] == 0
    ensures forall j :: 0 <= j < |offsets| - 1 ==> offsets[j + 1] == offsets[j] + s[j]
  {
    forall j | 0 <= j < |offsets| - 1
      ensures offsets[j + 1] == offsets[j] + s[j]
    {
      SumSnoc(s, j);
    }
  }

  /** The layout work of UploadToGPU on a first upload (every list empty, mask 0,
      index offset 0), into the GPU buffer `gpuBuffer`. */
  method UploadToGPU(m: MeshData, gpuBuffer: Handle) returns (l: Layout)
    requires MeshValid(m)
    ensures forall t :: 0 <= t < ATTRIBUTE_COUNT ==> (t in l.usedAttributes <==> m.attributeCounts[t] > 0)
    ensures forall i, j :: 0 <= i < j < |l.usedAttributes| ==> l.usedAttributes[i] < l.usedAttributes[j]
    ensures AttributeList(l.usedAttributes)
    ensures var n := |l.usedAttributes|;
      && |l.usedFormats| == n && |l.bindings| == n && |l.descriptions| == n
      && |l.usedBuffers| == n && |l.usedOffsets| == n
    ensures forall i :: 0 <= i < |l.usedAttributes| ==>
      var t := l.usedAttributes[i];
      && l.usedFormats[i] == ATTRIBUTE_FORMATS[t]
      && l.bindings[i] == Binding(i, ATTRIBUTE_SIZES[t])
      && l.descriptions[i] == AttributeDescription(t, i, ATTRIBUTE_FORMATS[t], 0)
      && l.usedBuffers[i] == gpuBuffer
    ensures forall t :: 0 <= t < ATTRIBUTE_COUNT ==> (MaskHas(l.mask, t) <==> m.attributeCounts[t] > 0)
    ensures |l.usedOffsets| > 0 ==> l.usedOffsets[0] == 0
    ensures forall i :: 0 <= i < |l.usedOffsets| - 1 ==>
      l.usedOffsets[i + 1] == l.usedOffsets[i] + m.vertexCount * ATTRIBUTE_SIZES[l.usedAttributes[i]]
    ensures forall j :: 0 <= j < |l.usedOffsets| ==> l.usedOffsets[j] == Sum(CopySizes(l.usedAttributes, m.vertexCount)[..j])
    ensures l.indexType == IndexUint32 <==> m.indexCount > 0
    ensures l.indexType != IndexUint16
    ensures m.indexCount > 0 ==> l.indexDataOffset == m.vertexCount * VertexSize(m)
    ensures m.indexCount == 0 ==> l.indexDataOffset == 0
    ensures l.copySize == m.vertexCount * VertexSize(m) + 4 * m.indexCount
  {
    var used := UsedAttributes(m);
    var formats := seq(|used|, i requires 0 <= i < |used| => ATTRIBUTE_FORMATS[used[i]]);
    var indexType := if m.indexCount > 0 then IndexUint32 else IndexNone;
    var bindings, descriptions, mask := BuildBindings(used);
    var buffers, offsets, end := BuildOffsets(used, m.vertexCount, gpuBuffer);
    PrefixSumsStep(CopySizes(used, m.vertexCount), offsets);
    var indexOffset := if m.indexCount > 0 then end else 0;
    l := Layout(used, formats, bindings, descriptions, mask, buffers, offsets, indexType, indexOffset,
                m.vertexCount * VertexSize(m) + 4 * m.indexCount);
  }

  // ----------------------------------------------------------- allocation size

  function IndexElementSize(t: IndexType): nat {
    if t == IndexUint32 then 4 else 2
  }

  /** CalculateGPUAllocationSize: vertex bytes plus, when there are indices, the
      index bytes at the element size of the current index type. */
  function CalculateGPUAllocationSize(m: MeshData, indexType: IndexType): (size: nat)
    requires MeshValid(m)
    ensures size >= m.vertexCount * VertexSize(m)
    ensures m.indexCount == 0 ==> size == m.vertexCount * VertexSize(m)
  {
    var vertexDataSize := m.vertexCount * VertexSize(m);
    var indexDataSize := if m.indexCount > 0 then IndexElementSize(indexType) * m.indexCount else 0;
    vertexDataSize + indexDataSize
  }

  /** With the 32-bit index type the renderer sets before sizing the buffers, the
      allocation is exactly the byte count the upload copies, and every attribute
      range and the index range lie inside it. Sized before the index type is known,
      the allocation falls short by two bytes per index. */
  lemma AllocationCoversUpload(m: MeshData, l: Layout)
    requires MeshValid(m)
    requires AttributeList(l.usedAttributes) && |l.usedOffsets| == |l.usedAttributes|
    requires l.usedAttributes == UsedAttributes(m)
    requires forall j :: 0 <= j < |l.usedOffsets| ==> l.usedOffsets[j] == Sum(CopySizes(l.usedAttributes, m.vertexCount)[..j])
    requires l.copySize == m.vertexCount * VertexSize(m) + 4 * m.indexCount
    requires m.indexCount > 0 ==> l.indexDataOffset == m.vertexCount * VertexSize(m)
    ensures CalculateGPUAllocationSize(m, IndexUint32) == l.copySize
    ensures m.indexCount > 0 ==> CalculateGPUAllocationSize(m, IndexNone) + 2 * m.indexCount == l.copySize
    ensures forall i :: 0 <= i < |l.usedOffsets| ==>
      l.usedOffsets[i] + m.vertexCount * ATTRIBUTE_SIZES[l.usedAttributes[i]] <= l.copySize
    ensures m.indexCount > 0 ==> l.indexDataOffset + 4 * m.indexCount == l.copySize
  {
    var copies := CopySizes(l.usedAttributes, m.vertexCount);
    SumScale(l.usedAttributes, m.vertexCount);
    forall i | 0 <= i < |l.usedOffsets|
      ensures l.usedOffsets[i] + m.vertexCount * ATTRIBUTE_SIZES[l.usedAttributes[i]] <= l.copySize
    {
      PrefixWithin(copies, i);
    }
  }

  /** A prefix sum plus the next element never exceeds the total. */
  lemma PrefixWithin(s: seq<nat>, i: nat)
    requires i < |s|
    ensures Sum(s[..i]) + s[i] <= Sum(s)
  {
    SumSnoc(s, i);
    assert s == s[..i + 1] + s[i + 1..];
    SumAppend(s[..i + 1], s[i + 1..]);
  }

  // ------------------------------------------------------------------- lookups

  datatype IndexInfo = IndexInfo(buffer: Handle, offset: nat, range: nat, indexType: IndexType)

  /** GetIndexInformation: nothing when the mesh has no index type; otherwise the
      mesh buffer, the index data offset and the index byte range (as uint32). */
  function GetIndexInformation(l: Layout, gpuBuffer: Handle, indexCount: nat): (r: Option<IndexInfo>)
    ensures r.None? <==> l.indexType == IndexNone
    ensures r.Some? ==> r.value.buffer == gpuBuffer && r.value.indexType == l.indexType
    ensures r.Some? ==> r.value.offset == ToU32(l.indexDataOffset)
    ensures r.Some? && l.indexType == IndexUint32 ==> r.value.range == ToU32(4 * indexCount)
    ensures r.Some? && l.indexType == IndexUint16 ==> r.value.range == ToU32(2 * indexCount)
  {
    if l.indexType == IndexNone then None
    else Some(IndexInfo(gpuBuffer, ToU32(l.indexDataOffset), ToU32(IndexElementSize(l.indexType) * indexCount), l.indexType))
  }

  datatype AttributeInfo = AttributeInfo(buffer: Handle, offset: nat, range: nat, format: nat)

  /** GetAttributeInformation: the first used attribute equal to v, with its buffer,
      offset and format, and range = element size × vertex count (as uint32). */
  method GetAttributeInformation(l: Layout, v: nat, vertexCount: nat) returns (r: Option<AttributeInfo>)
    requires v < ATTRIBUTE_COUNT
    requires |l.usedBuffers| == |l.usedOffsets| == |l.usedFormats| == |l.usedAttributes|
    ensures r.None? <==> v !in l.usedAttributes
    ensures r.Some? ==> exists i :: (&& 0 <= i < |l.usedAttributes| && l.usedAttributes[i] == v
      && (forall j :: 0 <= j < i ==> l.usedAttributes[j] != v)
      && r.value == AttributeInfo(l.usedBuffers[i], ToU32(l.usedOffsets[i]),
                                  ToU32(ATTRIBUTE_SIZES[v] * vertexCount), l.usedFormats[i]))
  {
    var i := 0;
    while i < |l.usedAttributes|
      invariant 0 <= i <= |l.usedAttributes|
      invariant v !in l.usedAttributes[..i]
    {
      if l.usedAttributes[i] == v {
        assert forall j :: 0 <= j < i ==> l.usedAttributes[..i][j] == l.usedAttributes[j];
        return Some(AttributeInfo(l.usedBuffers[i], ToU32(l.usedOffsets[i]),
                                  ToU32(ATTRIBUTE_SIZES[v] * vertexCount), l.usedFormats[i]));
      }
      assert l.usedAttributes[..i + 1] == l.usedAttributes[..i] + [l.usedAttributes[i]];
      i := i + 1;
    }
    assert l.usedAttributes[..i] == l.usedAttributes;
    return None;
  }

  // --------------------------------------------------------------------- draws

  datatype DrawCall =
    | DrawIndexed(indexCount: nat, instanceCount: int, firstIndex: nat, vertexOffset: nat, firstInstance: nat)
    | DrawPlain(vertexCount: nat, instanceCount: int, firstVertex: nat, firstInstance: nat)

  /** Draw: the whole mesh, indexed when it has indices. */
  function Draw(m: MeshData, instanceCount: int): (d: DrawCall)
    ensures d.DrawIndexed? <==> m.indexCount > 0
    ensures d.DrawIndexed? ==> d == DrawIndexed(m.indexCount, instanceCount, 0, 0, 0)
    ensures d.DrawPlain? ==> d == DrawPlain(m.vertexCount, instanceCount, 0, 0)
  {
    if m.indexCount > 0 then DrawIndexed(m.indexCount, instanceCount, 0, 0, 0)
    else DrawPlain(m.vertexCount, instanceCount, 0, 0)
  }

  /** DrawLayer: one submesh, taking its count, start and (for indexed draws) base
      vertex. */
  function DrawLayer(m: MeshData, layer: nat, instanceCount: int): (d: DrawCall)
    requires layer < |m.subMeshes|
    ensures d.DrawIndexed? <==> m.indexCount > 0
    ensures var sm := m.subMeshes[layer];
      && (d.DrawIndexed? ==> d == DrawIndexed(sm.count, instanceCount, sm.start, sm.base, 0))
      && (d.DrawPlain? ==> d == DrawPlain(sm.count, instanceCount, sm.start, 0))
  {
    var sm := m.subMeshes[layer];
    if m.indexCount > 0 then DrawIndexed(sm.count, instanceCount, sm.start, sm.base, 0)
    else DrawPlain(sm.count, instanceCount, sm.start, 0)
  }

  /** A mesh with a single submesh covering all its indices (or vertices) draws the
      same as a layer draw of that submesh. */
  lemma DrawIsWholeLayer(m: MeshData, instanceCount: int)
    requires |m.subMeshes| == 1
    requires m.subMeshes[0] == SubMesh(0, if m.indexCount > 0 then m.indexCount else m.vertexCount, 0)
    ensures Draw(m, instanceCount) == DrawLayer(m, 0, instanceCount)
  {
  }

  // ------------------------------------------------------------------ topology

  /** The primitive types: points, lines, triangles, triangle fan, triangle strip,
      patches. */
  const MAX_PRIM: nat := 6

  /** VkPrimitiveTopology values. */
  const TOPOLOGY_POINT_LIST: nat := 0
  const TOPOLOGY_LINE_LIST: nat := 1
  const TOPOLOGY_TRIANGLE_LIST: nat := 3
  const TOPOLOGY_TRIANGLE_STRIP: nat := 4
  const TOPOLOGY_TRIANGLE_FAN: nat := 5
  const TOPOLOGY_PATCH_LIST: nat := 10

  const TOPOLOGY_TABLE: seq<nat> := [TOPOLOGY_POINT_LIST, TOPOLOGY_LINE_LIST, TOPOLOGY_TRIANGLE_LIST,
    TOPOLOGY_TRIANGLE_FAN, TOPOLOGY_TRIANGLE_STRIP, TOPOLOGY_PATCH_LIST]

  /** GetVulkanTopology: a table lookup; the source asserts the type is in range. */
  function GetVulkanTopology(primType: nat): (t: nat)
    requires primType < MAX_PRIM
    ensures t in TOPOLOGY_TABLE
  {
    TOPOLOGY_TABLE[primType]
  }

  /** Distinct primitive types map to distinct topologies, and triangles are drawn
      as a triangle list. */
  lemma TopologyInjective(a: nat, b: nat)
    requires a < MAX_PRIM && b < MAX_PRIM && a != b
    ensures GetVulkanTopology(a) != GetVulkanTopology(b)
    ensures GetVulkanTopology(2) == TOPOLOGY_TRIANGLE_LIST
  {
  }
}

=== FILE: pipeline_layouts.dfy ===
/** The descriptor-set-layout and push-constant lists that pipeline builders
    assemble before creating a pipeline layout: PipelineBuilderBase (shared by the
    graphics and ray-tracing builders) and the compute pipeline builder. Layout
    handles are opaque; the device's registered empty layout (GetNullDescriptor)
    is a parameter, distinct from the null handle. */
module PipelineLayouts {
  import opened Common
  import opened ShaderReflection

  /** Set slots a builder accepts: both builders assert the index is below 32. */
  const MAX_SETS: nat := 32

  /** Bit position of VK_PIPELINE_CREATE_DESCRIPTOR_BUFFER_BIT_EXT (0x2000_0000). */
  const CREATE_DESCRIPTOR_BUFFER: nat := 29

  /** PipelineBuilderBase state: the layout stored in the builder and in the create
      info, the create flags (as bit positions), the layouts the user supplied per
      slot, those built from reflection, the final merged list, and the
      push-constant ranges. */
  datatype PipelineBase = PipelineBase(
    layout: Handle,
    createLayout: Handle,
    createFlags: set<nat>,
    userLayouts: seq<Handle>,
    reflectionLayouts: seq<Handle>,
    allLayouts: seq<Handle>,
    pushConstants: seq<PushRange>)

  /** Slot count after padding a list so that `slot` exists. */
  function Padded(n: nat, slot: nat): nat {
    if slot < n then n else slot + 1
  }

  /** Pad `u` with `fill` until `slot` is an index, then put `layout` there. Both
      builders do this; they differ in the fill. */
  function PadAndSet(u: seq<Handle>, slot: nat, fill: Handle, layout: Handle): (r: seq<Handle>)
    ensures |r| == Padded(|u|, slot) && |u| <= |r|
    ensures r[slot] == layout
    ensures forall i :: 0 <= i < |r| && i != slot ==> r[i] == if i < |u| then u[i] else fill
  {
    Resize(u, Padded(|u|, slot), fill)[slot := layout]
  }

  // ---------------------------------------------------------------- setters

  /** WithLayout: the layout is stored both in the builder and in the create info. */
  function WithLayout(b: PipelineBase, l: Handle): (r: PipelineBase)
    ensures r.layout == l && r.createLayout == l
    ensures r.(layout := b.layout, createLayout := b.createLayout) == b
  {
    b.(layout := l, createLayout := l)
  }

  /** WithDescriptorBuffers: ORs the descriptor-buffer bit into the create flags. */
  function WithDescriptorBuffers(b: PipelineBase): (r: PipelineBase)
    ensures CREATE_DESCRIPTOR_BUFFER in r.createFlags
    ensures b.createFlags <= r.createFlags
    ensures r.createFlags - {CREATE_DESCRIPTOR_BUFFER} == b.createFlags - {CREATE_DESCRIPTOR_BUFFER}
    ensures r.(createFlags := b.createFlags) == b
  {
    b.(createFlags := b.createFlags + {CREATE_DESCRIPTOR_BUFFER})
  }

  /** Setting the flag twice is setting it once, and it commutes with WithLayout. */
  lemma DescriptorBuffersIdempotent(b: PipelineBase, l: Handle)
    ensures WithDescriptorBuffers(WithDescriptorBuffers(b)) == WithDescriptorBuffers(b)
    ensures WithDescriptorBuffers(WithLayout(b, l)) == WithLayout(WithDescriptorBuffers(b), l)
  {
  }

  /** WithDescriptorSetLayout: an index of 32 or more fails the assertion;
      otherwise the user list is padded with the device's empty layout up to the
      index and the slot takes the given layout. Every other slot keeps its value. */
  function WithDescriptorSetLayout(b: PipelineBase, setIndex: nat, l: Handle, nullLayout: Handle): (r: Result<PipelineBase>)
    ensures r.Ok? <==> setIndex < MAX_SETS
    ensures r.Ok? ==> |r.value.userLayouts| == Padded(|b.userLayouts|, setIndex)
    ensures r.Ok? ==> r.value.userLayouts[setIndex] == l
    ensures r.Ok? ==> forall i :: 0 <= i < |r.value.userLayouts| && i != setIndex ==>
      r.value.userLayouts[i] == if i < |b.userLayouts| then b.userLayouts[i] else nullLayout
    ensures r.Ok? ==> r.value.(userLayouts := b.userLayouts) == b
  {
    if setIndex >= MAX_SETS then Err("descriptor set index must be below 32")
    else Ok(b.(userLayouts := PadAndSet(b.userLayouts, setIndex, nullLayout, l)))
  }

  /** Padding and setting two different slots gives the same list in either order. */
  lemma PadAndSetCommute(u: seq<Handle>, j: nat, k: nat, fill: Handle, lj: Handle, lk: Handle)
    requires j != k
    ensures PadAndSet(PadAndSet(u, j, fill, lj), k, fill, lk) == PadAndSet(PadAndSet(u, k, fill, lk), j, fill, lj)
  {
    var a := PadAndSet(PadAndSet(u, j, fill, lj), k, fill, lk);
    var c := PadAndSet(PadAndSet(u, k, fill, lk), j, fill, lj);
    assert |a| == |c|;
    forall i | 0 <= i < |a|
      ensures a[i] == c[i]
    {
    }
  }

  /** Two different slots can be set in either order. */
  lemma SetLayoutsCommute(b: PipelineBase, j: nat, k: nat, lj: Handle, lk: Handle, nullLayout: Handle)
    requires j != k && j < MAX_SETS && k < MAX_SETS
    ensures WithDescriptorSetLayout(WithDescriptorSetLayout(b, j, lj, nullLayout).value, k, lk, nullLayout)
         == WithDescriptorSetLayout(WithDescriptorSetLayout(b, k, lk, nullLayout).value, j, lj, nullLayout)
  {
    PadAndSetCommute(b.userLayouts, j, k, nullLayout, lj, lk);
  }

  // ---------------------------------------------------------------- finalise

  /** The layout slot i ends with: the user's, when supplied and not the empty
      layout, else the reflected one. */
  function SlotLayout(user: seq<Handle>, refl: seq<Handle>, i: nat, nullLayout: Handle): Handle
    requires i < |refl|
  {
    if i < |user| && user[i] != nullLayout then user[i] else refl[i]
  }

  /** The merged list, built one reflected slot at a time. */
  function Finalised(user: seq<Handle>, refl: seq<Handle>, nullLayout: Handle): seq<Handle>
  {
    if |refl| == 0 then []
    else Finalised(user, refl[..|refl| - 1], nullLayout) + [SlotLayout(user, refl, |refl| - 1, nullLayout)]
  }

  /** The merged list has one slot per reflected layout, chosen slot by slot; user
      slots beyond the reflected count are dropped. */
  lemma {:induction false} FinalisedAt(user: seq<Handle>, refl: seq<Handle>, nullLayout: Handle)
    ensures |Finalised(user, refl, nullLayout)| == |refl|
    ensures forall i :: 0 <= i < |refl| ==> Finalised(user, refl, nullLayout)[i] == SlotLayout(user, refl, i, nullLayout)
  {
    if |refl| > 0 {
      var front := refl[..|refl| - 1];
      FinalisedAt(user, front, nullLayout);
      forall i | 0 <= i < |refl|
        ensures Finalised(user, refl, nullLayout)[i] == SlotLayout(user, refl, i, nullLayout)
      {
        if i < |front| {
          assert SlotLayout(user, front, i, nullLayout) == SlotLayout(user, refl, i, nullLayout);
        }
      }
    }
  }

  /** FinaliseDescriptorLayouts: clears the merged list and fills it slot by slot. */
  method FinaliseDescriptorLayouts(b: PipelineBase, nullLayout: Handle) returns (r: PipelineBase)
    ensures |r.allLayouts| == |b.reflectionLayouts|
    ensures forall i :: 0 <= i < |r.allLayouts| ==>
      r.allLayouts[i] == if i < |b.userLayouts| && b.userLayouts[i] != nullLayout then b.userLayouts[i] else b.reflectionLayouts[i]
    ensures r.allLayouts == Finalised(b.userLayouts, b.reflectionLayouts, nullLayout)
    ensures r.(allLayouts := b.allLayouts) == b
  {
    var all: seq<Handle> := [];
    var i := 0;
    while i < |b.reflectionLayouts|
      invariant 0 <= i <= |b.reflectionLayouts|
      invariant all == Finalised(b.userLayouts, b.reflectionLayouts[..i], nullLayout)
    {
      assert b.reflectionLayouts[..i + 1][..i] == b.reflectionLayouts[..i];
      if i < |b.userLayouts| && b.userLayouts[i] != nullLayout {
        all := all + [b.userLayouts[i]];
      } else {
        all := all + [b.reflectionLayouts[i]];
      }
      i := i + 1;
    }
    assert b.reflectionLayouts[..i] == b.reflectionLayouts;
    FinalisedAt(b.userLayouts, b.reflectionLayouts, nullLayout);
    r := b.(allLayouts := all);
  }

  /** Padding is invisible after finalising: setting slot k to a real layout puts it
      in slot k of the merged list (when reflection reaches k), and every other
      merged slot is what it would have been without the call. */
  lemma FinaliseAfterSet(b: PipelineBase, k: nat, l: Handle, nullLayout: Handle)
    requires k < MAX_SETS && l != nullLayout
    ensures var u := WithDescriptorSetLayout(b, k, l, nullLayout).value.userLayouts;
      var before := Finalised(b.userLayouts, b.reflectionLayouts, nullLayout);
      var after := Finalised(u, b.reflectionLayouts, nullLayout);
      |after| == |before| &&
      (k < |after| ==> after[k] == l) &&
      forall i :: 0 <= i < |after| && i != k ==> after[i] == before[i]
  {
    var u := WithDescriptorSetLayout(b, k, l, nullLayout).value.userLayouts;
    FinalisedAt(b.userLayouts, b.reflectionLayouts, nullLayout);
    FinalisedAt(u, b.reflectionLayouts, nullLayout);
  }

  /** With no user layouts, or only empty ones, the merged list is the reflected one. */
  lemma FinaliseWithoutUserLayouts(user: seq<Handle>, refl: seq<Handle>, nullLayout: Handle)
    requires forall i :: 0 <= i < |user| ==> user[i] == nullLayout
    ensures Finalised(user, refl, nullLayout) == refl
  {
    FinalisedAt(user, refl, nullLayout);
  }

  // ---------------------------------------------------------------- compute builder

  /** VulkanComputePipelineBuilder state: its own layout and push-constant lists. */
  datatype ComputeBuilder = ComputeBuilder(
    layout: Handle,
    createLayout: Handle,
    allLayouts: seq<Handle>,
    pushConstants: seq<PushRange>)

  /** What the builder hands to createPipelineLayout. */
  datatype LayoutCreateInfo = LayoutCreateInfo(
    setLayoutCount: nat,
    setLayouts: seq<Handle>,
    pushConstantRangeCount: nat,
    pushConstantRanges: seq<PushRange>)

  /** WithPushConstant: appends exactly one range, keeping the earlier ones. */
  function WithPushConstant(b: ComputeBuilder, stages: StageFlags, offset: nat, size: nat): (r: ComputeBuilder)
    ensures |r.pushConstants| == |b.pushConstants| + 1
    ensures r.pushConstants[..|b.pushConstants|] == b.pushConstants
    ensures r.pushConstants[|b.pushConstants|] == PushRange(offset, size, stages)
    ensures r.(pushConstants := b.pushConstants) == b
  {
    b.(pushConstants := b.pushConstants + [PushRange(offset, size, stages)])
  }

  /** WithLayout: as in the base builder, stored twice. */
  function ComputeWithLayout(b: ComputeBuilder, l: Handle): (r: ComputeBuilder)
    ensures r.layout == l && r.createLayout == l
    ensures r.allLayouts == b.allLayouts && r.pushConstants == b.pushConstants
  {
    b.(layout := l, createLayout := l)
  }

  /** WithDescriptorSetLayout: a slot of 32 or more fails the assertion; otherwise
      the list is padded with null handles (not the empty layout) and the slot set. */
  function ComputeWithDescriptorSetLayout(b: ComputeBuilder, slot: nat, l: Handle): (r: Result<ComputeBuilder>)
    ensures r.Ok? <==> slot < MAX_SETS
    ensures r.Ok? ==> |r.value.allLayouts| == Padded(|b.allLayouts|, slot)
    ensures r.Ok? ==> r.value.allLayouts[slot] == l
    ensures r.Ok? ==> forall i :: 0 <= i < |r.value.allLayouts| && i != slot ==>
      r.value.allLayouts[i] == if i < |b.allLayouts| then b.allLayouts[i] else Null
    ensures r.Ok? ==> r.value.(allLayouts := b.allLayouts) == b
  {
    if slot >= MAX_SETS then Err("descriptor set slot must be below 32")
    else Ok(b.(allLayouts := PadAndSet(b.allLayouts, slot, Null, l)))
  }

  /** Build's first loop: every null slot becomes the device's empty layout. */
  method PatchNullLayouts(all: seq<Handle>, nullLayout: Handle) returns (r: seq<Handle>)
    ensures |r| == |all|
    ensures forall i :: 0 <= i < |r| ==> r[i] == if all[i] == Null then nullLayout else all[i]
    ensures nullLayout != Null ==> forall i :: 0 <= i < |r| ==> r[i] != Null
  {
    r := all;
    var i := 0;
    while i < |r|
      invariant 0 <= i <= |r| && |r| == |all|
      invariant forall k :: 0 <= k < |r| ==> r[k] == if k < i && all[k] == Null then nullLayout else all[k]
    {
      if r[i] == Null {
        r := r[i := nullLayout];
      }
      i := i + 1;
    }
  }

  /** Build: patch the null slots, then describe the layout with counts taken
      from the list sizes (cast to 32 bits). The builder keeps the patched list;
      the create info takes the layout `created` that the device returns. */
  method ComputeBuild(b: ComputeBuilder, nullLayout: Handle, created: Handle) returns (r: ComputeBuilder, info: LayoutCreateInfo)
    ensures info.setLayouts == r.allLayouts && info.pushConstantRanges == b.pushConstants
    ensures info.setLayoutCount == ToU32(|r.allLayouts|) && info.pushConstantRangeCount == ToU32(|b.pushConstants|)
    ensures |r.allLayouts| < U32_LIMIT ==> info.setLayoutCount == |r.allLayouts|
    ensures |b.pushConstants| < U32_LIMIT ==> info.pushConstantRangeCount == |b.pushConstants|
    ensures |r.allLayouts| == |b.allLayouts|
    ensures forall i :: 0 <= i < |b.allLayouts| ==> b.allLayouts[i] != Null ==> r.allLayouts[i] == b.allLayouts[i]
    ensures forall i :: 0 <= i < |b.allLayouts| ==> b.allLayouts[i] == Null ==> r.allLayouts[i] == nullLayout
    ensures r.createLayout == created && r.layout == b.layout && r.pushConstants == b.pushConstants
  {
    var patched := PatchNullLayouts(b.allLayouts, nullLayout);
    info := LayoutCreateInfo(ToU32(|patched|), patched, ToU32(|b.pushConstants|), b.pushConstants);
    r := b.(allLayouts := patched, createLayout := created);
  }

  /** A slot set through WithDescriptorSetLayout reaches the pipeline layout, and
      every padded slot reaches it as the empty layout. */
  lemma ComputeSlotsAfterPatch(b: ComputeBuilder, slot: nat, l: Handle, nullLayout: Handle)
    requires slot < MAX_SETS && l != Null
    requires forall i :: 0 <= i < |b.allLayouts| ==> b.allLayouts[i] != Null
    ensures var u := ComputeWithDescriptorSetLayout(b, slot, l).value.allLayouts;
      forall i :: 0 <= i < |u| ==>
        (if u[i] == Null then nullLayout else u[i]) == if i == slot then l else if i < |b.allLayouts| then b.allLayouts[i] else nullLayout
  {
  }
}

=== FILE: queue_families.dfy ===
/** InitDeviceQueueIndices: choosing the queue family for graphics, async compute,
    copy and presentation from the device's queue-family flags. Each capability
    takes the first family whose flag popcount is strictly smaller than every
    earlier capable family's, i.e. the first family of least popcount. */
module QueueFamilies {
  import opened Common

  const QUEUE_GRAPHICS: bv32 := 0x1
  const QUEUE_COMPUTE: bv32 := 0x2
  const QUEUE_TRANSFER: bv32 := 0x4

  /** The running minimum of each search starts at INT_MAX. */
  const INT_MAX: nat := 0x7FFF_FFFF

  /** Number of set bits among the lowest k bits of x. */
  function PopBits(x: bv32, k: nat): (n: nat)
    requires k <= 32
    ensures n <= k
  {
    if k == 0 then 0
    else PopBits(x, k - 1) + (if x & (1 << (k - 1)) != 0 then 1 else 0)
  }

  /** std::popcount of the flags. */
  function PopCount(x: bv32): (n: nat)
    ensures n <= 32
  {
    PopBits(x, 32)
  }

  predicate Has(flags: bv32, bit: bv32) {
    flags & bit != 0
  }

  // ------------------------------------------------------- reference definition

  /** Family i would become the current choice when the loop reaches it: it has the
      capability and every earlier capable family has strictly more flag bits. */
  predicate Candidate(props: seq<bv32>, bit: bv32, i: nat)
    requires i < |props|
  {
    Has(props[i], bit) && forall j :: 0 <= j < i && Has(props[j], bit) ==> PopCount(props[j]) > PopCount(props[i])
  }

  /** Family i is the first capable family of least popcount. */
  predicate FirstMinimal(props: seq<bv32>, bit: bv32, i: nat) {
    && i < |props|
    && Candidate(props, bit, i)
    && forall j :: i < j < |props| && Has(props[j], bit) ==> PopCount(props[j]) >= PopCount(props[i])
  }

  /** At most one family is first-minimal. */
  lemma FirstMinimalUnique(props: seq<bv32>, bit: bv32, i: nat, k: nat)
    requires FirstMinimal(props, bit, i) && FirstMinimal(props, bit, k)
    ensures i == k
  {
  }

  // -------------------------------------------------------- the loop, unrolled

  /** The popcount the loop compares against for a current choice. */
  function Bits(props: seq<bv32>, choice: Option<nat>): nat
    requires choice.Some? ==> choice.value < |props|
  {
    if choice.Some? then PopCount(props[choice.value]) else INT_MAX
  }

  /** The choice for one capability after the loop has seen `props`. */
  function Best(props: seq<bv32>, bit: bv32): (o: Option<nat>)
    ensures o.Some? ==> o.value < |props| && Has(props[o.value], bit)
  {
    if |props| == 0 then None
    else
      var i := |props| - 1;
      var p := Best(props[..i], bit);
      if Has(props[i], bit) && PopCount(props[i]) < Bits(props[..i], p) then Some(i) else p
  }

  /** The present family: set once, to the first family that both became the
      graphics choice and supports presentation. */
  function Present(props: seq<bv32>, support: seq<bool>): (o: Option<nat>)
    requires |support| == |props|
    ensures o.Some? ==> o.value < |props|
  {
    if |props| == 0 then None
    else
      var i := |props| - 1;
      var p := Present(props[..i], support[..i]);
      var g := Best(props[..i], QUEUE_GRAPHICS);
      if Has(props[i], QUEUE_GRAPHICS) && PopCount(props[i]) < Bits(props[..i], g) && support[i] && p.None?
      then Some(i) else p
  }

  /** Candidacy of an earlier family does not depend on later families. */
  lemma CandidatePrefix(props: seq<bv32>, bit: bv32, i: nat, n: nat)
    requires i < n <= |props|
    ensures Candidate(props, bit, i) <==> Candidate(props[..n], bit, i)
  {
    assert forall j :: 0 <= j <= i ==> props[..n][j] == props[j];
  }

  /** Best picks the first capable family of least popcount, and nothing exactly when
      no family has the capability. */
  lemma {:induction false} BestIsFirstMinimal(props: seq<bv32>, bit: bv32)
    ensures Best(props, bit).None? <==> forall i :: 0 <= i < |props| ==> !Has(props[i], bit)
    ensures Best(props, bit).Some? ==> FirstMinimal(props, bit, Best(props, bit).value)
  {
    if |props| > 0 {
      var i := |props| - 1;
      var pre := props[..i];
      BestIsFirstMinimal(pre, bit);
      assert forall j :: 0 <= j < i ==> pre[j] == props[j];
      var p := Best(pre, bit);
      if Has(props[i], bit) && PopCount(props[i]) < Bits(pre, p) {
        if p.Some? {
          assert forall j :: 0 <= j < i && Has(props[j], bit) ==> PopCount(props[j]) >= PopCount(props[p.value]);
        }
        assert Candidate(props, bit, i);
      } else if p.Some? {
        CandidatePrefix(props, bit, p.value, i);
        assert FirstMinimal(props, bit, p.value);
      }
    }
  }

  /** The last family becomes the choice exactly when it is a candidate. */
  lemma LastCandidate(props: seq<bv32>, bit: bv32)
    requires |props| > 0
    ensures var i := |props| - 1;
      Candidate(props, bit, i) <==> Has(props[i], bit) && PopCount(props[i]) < Bits(props[..i], Best(props[..i], bit))
  {
    var i := |props| - 1;
    var pre := props[..i];
    BestIsFirstMinimal(pre, bit);
    assert forall j :: 0 <= j < i ==> pre[j] == props[j];
    var p := Best(pre, bit);
    if p.Some? && Has(props[i], bit) && PopCount(props[i]) >= PopCount(props[p.value]) {
      assert !Candidate(props, bit, i);
    }
  }

  /** Present is the first family that is a graphics candidate and supports
      presentation, and nothing when there is none. */
  lemma {:induction false} PresentIsFirstCandidate(props: seq<bv32>, support: seq<bool>)
    requires |support| == |props|
    ensures var o := Present(props, support);
      && (o.None? <==> forall i :: 0 <= i < |props| ==> !(Candidate(props, QUEUE_GRAPHICS, i) && support[i]))
      && (o.Some? ==> (&& Candidate(props, QUEUE_GRAPHICS, o.value) && support[o.value]
                       && forall j :: 0 <= j < o.value ==> !(Candidate(props, QUEUE_GRAPHICS, j) && support[j])))
  {
    if |props| > 0 {
      var i := |props| - 1;
      var pre, spre := props[..i], support[..i];
      PresentIsFirstCandidate(pre, spre);
      LastCandidate(props, QUEUE_GRAPHICS);
      forall j | 0 <= j < i
        ensures Candidate(props, QUEUE_GRAPHICS, j) <==> Candidate(pre, QUEUE_GRAPHICS, j)
        ensures support[j] == spre[j]
      {
        CandidatePrefix(props, QUEUE_GRAPHICS, j, i);
      }
    }
  }

  /** One more family: Best over the longer prefix, stated with the popcount of the
      current choice read from the whole list. */
  lemma BestStep(props: seq<bv32>, bit: bv32, i: nat)
    requires i < |props|
    ensures var p := Best(props[..i], bit);
      && (p.Some? ==> p.value < i)
      && Best(props[..i + 1], bit) == if Has(props[i], bit) && PopCount(props[i]) < Bits(props, p) then Some(i) else p
  {
    assert props[..i + 1][..i] == props[..i];
    var p := Best(props[..i], bit);
    if p.Some? {
      assert props[..i][p.value] == props[p.value];
    }
  }

  /** One more family: Present over the longer prefix. */
  lemma PresentStep(props: seq<bv32>, support: seq<bool>, i: nat)
    requires |support| == |props| && i < |props|
    ensures Present(props[..i + 1], support[..i + 1]) ==
      if Has(props[i], QUEUE_GRAPHICS) && PopCount(props[i]) < Bits(props, Best(props[..i], QUEUE_GRAPHICS))
         && support[i] && Present(props[..i], support[..i]).None?
      then Some(i) else Present(props[..i], support[..i])
  {
    assert props[..i + 1][..i] == props[..i];
    assert support[..i + 1][..i] == support[..i];
    var g := Best(props[..i], QUEUE_GRAPHICS);
    if g.Some? {
      assert props[..i][g.value] == props[g.value];
    }
  }

  // ------------------------------------------------------------------ the scan

  /** The raw choices when the loop ends: m_queueFamilies before the fallbacks. */
  datatype Selection = Selection(graphics: Option<nat>, compute: Option<nat>, copy: Option<nat>, present: Option<nat>)

  /** The same choices as a function of the whole list. */
  function Scan(props: seq<bv32>, support: seq<bool>): Selection
    requires |support| == |props|
  {
    Selection(Best(props, QUEUE_GRAPHICS), Best(props, QUEUE_COMPUTE), Best(props, QUEUE_TRANSFER), Present(props, support))
  }

  /** The selection loop (VulkanRenderer.cpp, InitDeviceQueueIndices), over the
      device's queue-family flags and the per-family presentation support reported
      by the surface: one pass with three running minima computes Scan. */
  method ScanFamilies(props: seq<bv32>, support: seq<bool>) returns (sel: Selection)
    requires |support| == |props|
    ensures sel == Scan(props, support)
  {
    var gfx, compute, copy, present: Option<nat> := None, None, None, None;
    var gfxBits, computeBits, copyBits := INT_MAX, INT_MAX, INT_MAX;
    var i := 0;
    while i < |props|
      invariant 0 <= i <= |props|
      invariant gfx == Best(props[..i], QUEUE_GRAPHICS) && gfxBits == Bits(props, gfx)
      invariant compute == Best(props[..i], QUEUE_COMPUTE) && computeBits == Bits(props, compute)
      invariant copy == Best(props[..i], QUEUE_TRANSFER) && copyBits == Bits(props, copy)
      invariant present == Present(props[..i], support[..i])
    {
      BestStep(props, QUEUE_GRAPHICS, i);
      BestStep(props, QUEUE_COMPUTE, i);
      BestStep(props, QUEUE_TRANSFER, i);
      PresentStep(props, support, i);
      var bitCount := PopCount(props[i]);
      if Has(props[i], QUEUE_GRAPHICS) && bitCount < gfxBits {
        gfx := Some(i);
        gfxBits := bitCount;
        if support[i] && present.None? {
          present := Some(i);
        }
      }
      if Has(props[i], QUEUE_COMPUTE) && bitCount < computeBits {
        compute := Some(i);
        computeBits := bitCount;
      }
      if Has(props[i], QUEUE_TRANSFER) && bitCount < copyBits {
        copy := Some(i);
        copyBits := bitCount;
      }
      i := i + 1;
    }
    assert props[..i] == props;
    assert support[..i] == support;
    sel := Selection(gfx, compute, copy, present);
  }

  /** What the scan leaves: graphics, compute and copy each at the first capable
      family of least popcount (unset exactly when no family is capable), and
      present at the first graphics candidate that supports presentation. */
  lemma ScanSpec(props: seq<bv32>, support: seq<bool>)
    requires |support| == |props|
    ensures var sel := Scan(props, support);
      && (sel.graphics.None? <==> forall i :: 0 <= i < |props| ==> !Has(props[i], QUEUE_GRAPHICS))
      && (sel.graphics.Some? ==> FirstMinimal(props, QUEUE_GRAPHICS, sel.graphics.value))
      && (sel.compute.None? <==> forall i :: 0 <= i < |props| ==> !Has(props[i], QUEUE_COMPUTE))
      && (sel.compute.Some? ==> FirstMinimal(props, QUEUE_COMPUTE, sel.compute.value))
      && (sel.copy.None? <==> forall i :: 0 <= i < |props| ==> !Has(props[i], QUEUE_TRANSFER))
      && (sel.copy.Some? ==> FirstMinimal(props, QUEUE_TRANSFER, sel.copy.value))
      && (sel.present.None? <==> forall i :: 0 <= i < |props| ==> !(Candidate(props, QUEUE_GRAPHICS, i) && support[i]))
      && (sel.present.Some? ==> (&& sel.present.value < |props|
                                 && Candidate(props, QUEUE_GRAPHICS, sel.present.value) && support[sel.present.value]
                                 && forall j :: 0 <= j < sel.present.value ==> !(Candidate(props, QUEUE_GRAPHICS, j) && support[j])))
  {
    BestIsFirstMinimal(props, QUEUE_GRAPHICS);
    BestIsFirstMinimal(props, QUEUE_COMPUTE);
    BestIsFirstMinimal(props, QUEUE_TRANSFER);
    PresentIsFirstCandidate(props, support);
  }

  // ------------------------------------------------------------------ fallbacks

  /** The fallbacks as written: no graphics family fails the call; an unset compute
      family falls back to graphics; the copy fallback assigns the copy entry to
      itself, so an unset copy family stays unset. */
  function FallbacksAsWritten(raw: Selection): (r: Option<Selection>)
    ensures r.None? <==> raw.graphics.None?
    ensures r.Some? ==> r.value.graphics == raw.graphics && r.value.present == raw.present
    ensures r.Some? ==> r.value.compute.Some? && r.value.copy == raw.copy
  {
    if raw.graphics.None? then None
    else
      var compute := if raw.compute.None? then raw.graphics else raw.compute;
      Some(raw.(compute := compute, copy := raw.copy))
  }

  /** The evidently intended fallbacks: copy, like compute, falls back to the graphics
      family (which can always transfer). */
  function Fallbacks(raw: Selection): (r: Option<Selection>)
    ensures r.None? <==> raw.graphics.None?
    ensures r.Some? ==> r.value.graphics == raw.graphics && r.value.present == raw.present
    ensures r.Some? ==> r.value.compute.Some? && r.value.copy.Some?
    ensures r.Some? && raw.compute.Some? ==> r.value.compute == raw.compute
    ensures r.Some? && raw.copy.Some? ==> r.value.copy == raw.copy
    ensures r.Some? && raw.compute.None? ==> r.value.compute == raw.graphics
    ensures r.Some? && raw.copy.None? ==> r.value.copy == raw.graphics
  {
    if raw.graphics.None? then None
    else
      var compute := if raw.compute.None? then raw.graphics else raw.compute;
      var copy := if raw.copy.None? then raw.graphics else raw.copy;
      Some(raw.(compute := compute, copy := copy))
  }

  /** InitDeviceQueueIndices with the intended fallbacks: fails exactly when no
      family can do graphics; otherwise every command type has a family, and each
      family chosen by the scan is the first of least popcount for its capability. */
  method InitDeviceQueueIndices(props: seq<bv32>, support: seq<bool>) returns (r: Option<Selection>)
    requires |support| == |props|
    ensures r.None? <==> forall i :: 0 <= i < |props| ==> !Has(props[i], QUEUE_GRAPHICS)
    ensures r.Some? ==> r.value.graphics.Some? && FirstMinimal(props, QUEUE_GRAPHICS, r.value.graphics.value)
    ensures r.Some? ==> r.value.compute.Some? && r.value.copy.Some?
    ensures r.Some? ==> r.value.compute.value < |props| && r.value.copy.value < |props|
    ensures r.Some? ==> (FirstMinimal(props, QUEUE_COMPUTE, r.value.compute.value)
                         || (r.value.compute == r.value.graphics && forall i :: 0 <= i < |props| ==> !Has(props[i], QUEUE_COMPUTE)))
    ensures r.Some? ==> (FirstMinimal(props, QUEUE_TRANSFER, r.value.copy.value)
                         || (r.value.copy == r.value.graphics && forall i :: 0 <= i < |props| ==> !Has(props[i], QUEUE_TRANSFER)))
  {
    var raw := ScanFamilies(props, support);
    ScanSpec(props, support);
    r := Fallbacks(raw);
  }

  /** A device whose only family reports graphics and compute but not the transfer
      bit (which such families may leave out, since they can always transfer): as
      written, the copy family stays unset; with the intended fallback it is the
      graphics family. */
  lemma CopyFallbackMissing()
    ensures var raw := Scan([QUEUE_GRAPHICS | QUEUE_COMPUTE], [true]);
      && FallbacksAsWritten(raw) == Some(Selection(Some(0), Some(0), None, Some(0)))
      && Fallbacks(raw) == Some(Selection(Some(0), Some(0), Some(0), Some(0)))
  {
    var props: seq<bv32> := [QUEUE_GRAPHICS | QUEUE_COMPUTE];
    assert props[..0] == [];
    assert [true][..0] == [];
    assert PopCount(props[0]) <= 32;
  }
}

=== FILE: raytracing_pipeline.dfy ===
/** VulkanRayTracingPipelineBuilder: shader groups collected in three lists
    (ray generation, miss, hit), shader entries collected in order, and Build's
    assembly of stages, groups and layouts for the pipeline create info. */
module RayTracingPipeline {
  import opened Common
  import opened ShaderReflection
  import opened PipelineLayouts
  import Sbt

  /** VK_SHADER_UNUSED_KHR, i.e. ~0U. */
  const SHADER_UNUSED: nat := 0xFFFF_FFFF

  /** A VkRayTracingShaderGroupCreateInfoKHR: its type and four shader indices. */
  datatype ShaderGroup = ShaderGroup(kind: Sbt.GroupType, general: nat, closestHit: nat, anyHit: nat, intersection: nat)

  /** A value-initialised group create info: general type, every index 0. */
  const DEFAULT_GROUP: ShaderGroup := ShaderGroup(Sbt.General, 0, 0, 0, 0)

  /** An index that is either unused or names one of the n stages. */
  predicate OptionalIndex(x: nat, n: nat) {
    x == SHADER_UNUSED || x < n
  }

  /** The index rules the Vulkan specification's valid-usage statements for
      VkRayTracingShaderGroupCreateInfoKHR set (VUID-VkRayTracingShaderGroupCreateInfoKHR-type-03474
      for general groups, its neighbours for hit groups) for a group of a pipeline
      with n stages (the kinds of the named stages are not checked here):
      a general group names only its general shader; a triangles hit group has no
      general or intersection shader; a procedural hit group has no general shader
      and names an intersection shader. */
  predicate GroupValid(g: ShaderGroup, n: nat) {
    match g.kind
    case General =>
      g.general < n && g.closestHit == SHADER_UNUSED && g.anyHit == SHADER_UNUSED && g.intersection == SHADER_UNUSED
    case TrianglesHitGroup =>
      g.general == SHADER_UNUSED && g.intersection == SHADER_UNUSED && OptionalIndex(g.closestHit, n) && OptionalIndex(g.anyHit, n)
    case ProceduralHitGroup =>
      g.general == SHADER_UNUSED && g.intersection < n && OptionalIndex(g.closestHit, n) && OptionalIndex(g.anyHit, n)
  }

  // ---------------------------------------------------------------- groups

  /** WithRayGenGroup and WithMissGroup as written: a value-initialised group with
      only the type and the general shader set, so the other three indices stay 0. */
  function GeneralGroupAsWritten(shaderIndex: nat): (g: ShaderGroup)
    ensures g.kind == Sbt.General && g.general == shaderIndex
    ensures g.closestHit == 0 && g.anyHit == 0 && g.intersection == 0
  {
    DEFAULT_GROUP.(general := shaderIndex)
  }

  /** Such a group breaks the rule that a general group leaves its hit and
      intersection shaders unused, whatever the index and stage count. */
  lemma GeneralGroupAsWrittenInvalid(shaderIndex: nat, n: nat)
    ensures !GroupValid(GeneralGroupAsWritten(shaderIndex), n)
  {
  }

  /** A general group with the other three indices unused, as the disabled
      WithGeneralGroup in the same file builds it. */
  function GeneralGroup(shaderIndex: nat): (g: ShaderGroup)
    ensures g.kind == Sbt.General && g.general == shaderIndex
    ensures shaderIndex < SHADER_UNUSED ==> forall n :: shaderIndex < n ==> GroupValid(g, n)
  {
    ShaderGroup(Sbt.General, shaderIndex, SHADER_UNUSED, SHADER_UNUSED, SHADER_UNUSED)
  }

  /** WithTriangleHitGroup's group: general and intersection unused. */
  function TriangleHitGroup(closestHit: nat, anyHit: nat): (g: ShaderGroup)
    ensures g.kind == Sbt.TrianglesHitGroup && g.closestHit == closestHit && g.anyHit == anyHit
    ensures forall n :: OptionalIndex(closestHit, n) && OptionalIndex(anyHit, n) ==> GroupValid(g, n)
  {
    ShaderGroup(Sbt.TrianglesHitGroup, SHADER_UNUSED, closestHit, anyHit, SHADER_UNUSED)
  }

  /** WithProceduralHitGroup's group: general unused, the other three given. */
  function ProceduralHitGroup(intersection: nat, closestHit: nat, anyHit: nat): (g: ShaderGroup)
    ensures g.kind == Sbt.ProceduralHitGroup && g.intersection == intersection
    ensures g.closestHit == closestHit && g.anyHit == anyHit
    ensures forall n :: intersection < n && OptionalIndex(closestHit, n) && OptionalIndex(anyHit, n) ==> GroupValid(g, n)
  {
    ShaderGroup(Sbt.ProceduralHitGroup, SHADER_UNUSED, closestHit, anyHit, intersection)
  }

  // ---------------------------------------------------------------- builder

  /** A shader entry: the shader's reflected state and module, its stage flag and
      its entry point. */
  datatype ShaderEntry = ShaderEntry(shader: ShaderBase, shaderModule: Handle, stage: bv32, entryPoint: string)

  /** A VkPipelineShaderStageCreateInfo. */
  datatype StageInfo = StageInfo(shaderModule: Handle, stage: bv32, entryPoint: string)

  datatype RtBuilder = RtBuilder(
    base: PipelineBase,
    recursionDepth: nat,
    genGroups: seq<ShaderGroup>,
    missGroups: seq<ShaderGroup>,
    hitGroups: seq<ShaderGroup>,
    entries: seq<ShaderEntry>,
    stages: seq<StageInfo>,
    allGroups: seq<ShaderGroup>)

  /** What Build hands to the driver. */
  datatype RtCreateInfo = RtCreateInfo(
    groupCount: nat,
    groups: seq<ShaderGroup>,
    stageCount: nat,
    stages: seq<StageInfo>,
    setLayouts: seq<Handle>,
    pushConstants: seq<PushRange>,
    layout: Handle,
    maxRecursionDepth: nat)

  /** WithRecursionDepth: only the recursion depth changes. */
  function WithRecursionDepth(b: RtBuilder, count: nat): (r: RtBuilder)
    ensures r.recursionDepth == count && r.(recursionDepth := b.recursionDepth) == b
  {
    b.(recursionDepth := count)
  }

  /** WithRayGenGroup, corrected: one general group, with the other three shaders
      unused, appended to the ray-generation list. */
  function WithRayGenGroup(b: RtBuilder, shaderIndex: nat): (r: RtBuilder)
    ensures |r.genGroups| == |b.genGroups| + 1 && r.genGroups[..|b.genGroups|] == b.genGroups
    ensures r.genGroups[|b.genGroups|] == GeneralGroup(shaderIndex)
    ensures r.(genGroups := b.genGroups) == b
  {
    b.(genGroups := b.genGroups + [GeneralGroup(shaderIndex)])
  }

  /** WithMissGroup, corrected: one general group, with the other three shaders
      unused, appended to the miss list. */
  function WithMissGroup(b: RtBuilder, shaderIndex: nat): (r: RtBuilder)
    ensures |r.missGroups| == |b.missGroups| + 1 && r.missGroups[..|b.missGroups|] == b.missGroups
    ensures r.missGroups[|b.missGroups|] == GeneralGroup(shaderIndex)
    ensures r.(missGroups := b.missGroups) == b
  {
    b.(missGroups := b.missGroups + [GeneralGroup(shaderIndex)])
  }

  /** WithTriangleHitGroup: one triangles hit group appended to the hit list. */
  function WithTriangleHitGroup(b: RtBuilder, closestHit: nat, anyHit: nat): (r: RtBuilder)
    ensures |r.hitGroups| == |b.hitGroups| + 1 && r.hitGroups[..|b.hitGroups|] == b.hitGroups
    ensures r.hitGroups[|b.hitGroups|] == TriangleHitGroup(closestHit, anyHit)
    ensures r.(hitGroups := b.hitGroups) == b
  {
    b.(hitGroups := b.hitGroups + [TriangleHitGroup(closestHit, anyHit)])
  }

  /** WithProceduralHitGroup: one procedural hit group appended to the hit list. */
  function WithProceduralHitGroup(b: RtBuilder, intersection: nat, closestHit: nat, anyHit: nat): (r: RtBuilder)
    ensures |r.hitGroups| == |b.hitGroups| + 1 && r.hitGroups[..|b.hitGroups|] == b.hitGroups
    ensures r.hitGroups[|b.hitGroups|] == ProceduralHitGroup(intersection, closestHit, anyHit)
    ensures r.(hitGroups := b.hitGroups) == b
  {
    b.(hitGroups := b.hitGroups + [ProceduralHitGroup(intersection, closestHit, anyHit)])
  }

  /** WithShader: appends exactly one entry, lets the shader fill the reflected
      layout slots it has, and replaces the push-constant ranges with the shader's
      own, so only the last shader's ranges remain. */
  method WithShader(b: RtBuilder, shader: ShaderBase, shaderModule: Handle, stage: bv32, entry: string) returns (r: RtBuilder)
    ensures r.entries == b.entries + [ShaderEntry(shader, shaderModule, stage, entry)]
    ensures |r.base.reflectionLayouts| == Max(|shader.layouts|, |b.base.reflectionLayouts|)
    ensures forall i :: 0 <= i < |r.base.reflectionLayouts| ==>
      r.base.reflectionLayouts[i] == if i < |shader.layouts| then shader.layouts[i] else b.base.reflectionLayouts[i]
    ensures r.base.pushConstants == shader.pushConstants
    ensures r.base.(reflectionLayouts := b.base.reflectionLayouts, pushConstants := b.base.pushConstants) == b.base
    ensures r.(entries := b.entries, base := b.base) == b
  {
    var layouts := FillDescriptorSetLayouts(shader, b.base.reflectionLayouts);
    var ranges := FillPushConstants(shader, b.base.pushConstants);
    r := b.(entries := b.entries + [ShaderEntry(shader, shaderModule, stage, entry)],
            base := b.base.(reflectionLayouts := layouts, pushConstants := ranges));
  }

  /** The stage create info of an entry. */
  function StageOf(e: ShaderEntry): StageInfo {
    StageInfo(e.shaderModule, e.stage, e.entryPoint)
  }

  /** Build's first loop: one stage per entry, in entry order, appended to the
      stages the builder already holds. */
  method AppendStages(stages: seq<StageInfo>, entries: seq<ShaderEntry>) returns (r: seq<StageInfo>)
    ensures |r| == |stages| + |entries| && r[..|stages|] == stages
    ensures forall j :: 0 <= j < |entries| ==> r[|stages| + j] == StageOf(entries[j])
  {
    r := stages;
    var j := 0;
    while j < |entries|
      invariant 0 <= j <= |entries| && |r| == |stages| + j && r[..|stages|] == stages
      invariant forall k :: 0 <= k < j ==> r[|stages| + k] == StageOf(entries[k])
    {
      r := r + [StageOf(entries[j])];
      j := j + 1;
    }
  }

  /** Build: stages from the entries, the merged descriptor layouts, and the groups
      in the order ray generation, miss, hit; the counts are the list sizes, cast
      to 32 bits. `created` is the pipeline layout the device returns. */
  method Build(b: RtBuilder, nullLayout: Handle, created: Handle) returns (r: RtBuilder, info: RtCreateInfo)
    ensures |r.stages| == |b.stages| + |b.entries| && r.stages[..|b.stages|] == b.stages
    ensures forall j :: 0 <= j < |b.entries| ==> r.stages[|b.stages| + j] == StageOf(b.entries[j])
    ensures |r.allGroups| == |b.genGroups| + |b.missGroups| + |b.hitGroups|
    ensures forall i :: 0 <= i < |b.genGroups| ==> r.allGroups[i] == b.genGroups[i]
    ensures forall i :: 0 <= i < |b.missGroups| ==> r.allGroups[|b.genGroups| + i] == b.missGroups[i]
    ensures forall i :: 0 <= i < |b.hitGroups| ==> r.allGroups[|b.genGroups| + |b.missGroups| + i] == b.hitGroups[i]
    ensures info.groups == r.allGroups && info.groupCount == ToU32(|r.allGroups|)
    ensures info.stages == r.stages && info.stageCount == ToU32(|r.stages|)
    ensures |info.setLayouts| == |b.base.reflectionLayouts|
    ensures info.setLayouts == Finalised(b.base.userLayouts, b.base.reflectionLayouts, nullLayout)
    ensures info.pushConstants == b.base.pushConstants && info.layout == created
    ensures info.maxRecursionDepth == b.recursionDepth
  {
    var stages := AppendStages(b.stages, b.entries);
    var base := FinaliseDescriptorLayouts(b.base, nullLayout);
    var groups := b.genGroups + b.missGroups + b.hitGroups;
    r := b.(stages := stages, allGroups := groups, base := base.(createLayout := created));
    info := RtCreateInfo(ToU32(|groups|), groups, ToU32(|stages|), stages, base.allLayouts, base.pushConstants, created, b.recursionDepth);
  }

  // ---------------------------------------------------------------- binding table

  /** Every group of `gs` is a general group whose shader is a stage with flag `bit`. */
  predicate GeneralsOfStage(gs: seq<ShaderGroup>, stages: seq<StageInfo>, bit: bv32) {
    forall i :: 0 <= i < |gs| ==> gs[i].kind == Sbt.General && gs[i].general < |stages| && stages[gs[i].general].stage == bit
  }

  /** Every group of `gs` is a hit group. */
  predicate HitGroupsOnly(gs: seq<ShaderGroup>) {
    forall i :: 0 <= i < |gs| ==> gs[i].kind != Sbt.General
  }

  /** The pipeline as the binding-table builder reads it. */
  function SbtView(stages: seq<StageInfo>, groups: seq<ShaderGroup>): (p: Sbt.PipelineInfo)
    ensures |p.stages| == |stages| && |p.groups| == |groups|
    ensures forall i :: 0 <= i < |stages| ==> p.stages[i] == stages[i].stage
    ensures forall i :: 0 <= i < |groups| ==> p.groups[i] == Sbt.Group(groups[i].kind, groups[i].general)
  {
    Sbt.PipelineInfo(seq(|stages|, i requires 0 <= i < |stages| => stages[i].stage),
                     seq(|groups|, i requires 0 <= i < |groups| => Sbt.Group(groups[i].kind, groups[i].general)))
  }

  /** n clamped to 0..hi. */
  function Clamp(n: int, hi: nat): nat {
    if n <= 0 then 0 else if n >= hi then hi else n
  }

  /** Where each of Build's groups lands in the binding table: the ray-generation
      list in the ray-generation region, the miss list in the miss region, the hit
      list in the hit region. */
  lemma RegionOfBuiltGroup(stages: seq<StageInfo>, gen: seq<ShaderGroup>, miss: seq<ShaderGroup>, hit: seq<ShaderGroup>, i: nat)
    requires GeneralsOfStage(gen, stages, Sbt.STAGE_RAYGEN) && GeneralsOfStage(miss, stages, Sbt.STAGE_MISS) && HitGroupsOnly(hit)
    requires Sbt.InfoValid(SbtView(stages, gen + miss + hit)) && i < |gen + miss + hit|
    ensures Sbt.RegionOf(SbtView(stages, gen + miss + hit), i) ==
      if i < |gen| then Some(Sbt.RAYGEN) else if i < |gen| + |miss| then Some(Sbt.MISS) else Some(Sbt.HIT)
  {
    var groups := gen + miss + hit;
    if i < |gen| {
      assert groups[i] == gen[i];
    } else if i < |gen| + |miss| {
      assert groups[i] == miss[i - |gen|];
    } else {
      assert groups[i] == hit[i - |gen| - |miss|];
    }
  }

  /** The binding table of a pipeline built this way: among the first n groups, the
      counts per region are the parts of the three lists those groups cover, and no
      group is counted as callable. */
  lemma {:induction false} SbtCountsPrefix(stages: seq<StageInfo>, gen: seq<ShaderGroup>, miss: seq<ShaderGroup>, hit: seq<ShaderGroup>, n: nat)
    requires GeneralsOfStage(gen, stages, Sbt.STAGE_RAYGEN) && GeneralsOfStage(miss, stages, Sbt.STAGE_MISS) && HitGroupsOnly(hit)
    requires Sbt.InfoValid(SbtView(stages, gen + miss + hit)) && n <= |gen + miss + hit|
    ensures Sbt.CountIn(SbtView(stages, gen + miss + hit), Sbt.RAYGEN, n) == Clamp(n, |gen|)
    ensures Sbt.CountIn(SbtView(stages, gen + miss + hit), Sbt.MISS, n) == Clamp(n - |gen|, |miss|)
    ensures Sbt.CountIn(SbtView(stages, gen + miss + hit), Sbt.HIT, n) == Clamp(n - |gen| - |miss|, |hit|)
    ensures Sbt.CountIn(SbtView(stages, gen + miss + hit), Sbt.CALL, n) == 0
  {
    if n > 0 {
      SbtCountsPrefix(stages, gen, miss, hit, n - 1);
      RegionOfBuiltGroup(stages, gen, miss, hit, n - 1);
    }
  }

  /** The general groups of Build name real stages, and the binding-table builder
      counts exactly the ray-generation list, the miss list and the hit list into
      their regions. */
  lemma SbtCountsFollowLists(stages: seq<StageInfo>, gen: seq<ShaderGroup>, miss: seq<ShaderGroup>, hit: seq<ShaderGroup>)
    requires GeneralsOfStage(gen, stages, Sbt.STAGE_RAYGEN) && GeneralsOfStage(miss, stages, Sbt.STAGE_MISS) && HitGroupsOnly(hit)
    ensures Sbt.InfoValid(SbtView(stages, gen + miss + hit))
    ensures Sbt.CountIn(SbtView(stages, gen + miss + hit), Sbt.RAYGEN, |gen + miss + hit|) == |gen|
    ensures Sbt.CountIn(SbtView(stages, gen + miss + hit), Sbt.MISS, |gen + miss + hit|) == |miss|
    ensures Sbt.CountIn(SbtView(stages, gen + miss + hit), Sbt.HIT, |gen + miss + hit|) == |hit|
    ensures Sbt.CountIn(SbtView(stages, gen + miss + hit), Sbt.CALL, |gen + miss + hit|) == 0
  {
    var groups := gen + miss + hit;
    var p := SbtView(stages, groups);
    forall i | 0 <= i < |p.groups|
      ensures p.groups[i].kind == Sbt.General ==> p.groups[i].generalShader < |p.stages|
    {
      if i < |gen| {
        assert groups[i] == gen[i];
      } else if i < |gen| + |miss| {
        assert groups[i] == miss[i - |gen|];
      } else {
        assert groups[i] == hit[i - |gen| - |miss|];
      }
    }
    SbtCountsPrefix(stages, gen, miss, hit, |groups|);
  }
}

=== FILE: renderer.dfy ===
/** The renderer's per-frame bookkeeping: the ring of frame contexts, the global
    frame counter and the timeline values waited on and signalled with it, the
    host steps a minimised window skips, the resize guard and the parameters
    chosen when the swap chain is (re)built. GPU work itself is not modelled. */
module Renderer {
  import opened Common
  import Staging

  // ---------------------------------------------------------------- frame pacing

  /** m_currentFrameContext and m_globalFrameID. */
  datatype Counters = Counters(slot: nat, globalFrameID: nat)

  /** Both counters start at zero. */
  function Start(): Counters {
    Counters(0, 0)
  }

  predicate ValidCounters(c: Counters, framesInFlight: nat) {
    framesInFlight >= 1 && c.slot < framesInFlight
  }

  /** What BeginFrame decides: the slot it records into, the frame and cycle ids it
      stores there, the timeline value it blocks on (if any) and whether it blocks
      on the swap image's fence. */
  datatype Begun = Begun(slot: nat, frameID: nat, cycleID: nat, waitValue: Option<nat>, fenceWait: bool)

  /** What EndFrame submits: the slot whose timeline semaphore is signalled, the
      value, and whether the host waits for the submission to finish. */
  datatype Submitted = Submitted(slot: nat, signalValue: nat, synchronous: bool)

  /** WaitForSwapImage: the fence wait happens only while the window is not minimised
      (the layout transition always happens). */
  function WaitForSwapImage(minimised: bool): (fenceWait: bool)
    ensures fenceWait != minimised
  {
    !minimised
  }

  /** BeginFrame: advance the slot round the ring, block on the slot's timeline
      semaphore from frame framesInFlight onwards, and, when the frame buffer is
      transitioned automatically, wait for the swap image. */
  function BeginFrame(c: Counters, framesInFlight: nat, autoTransition: bool, minimised: bool): (r: (Counters, Begun))
    requires ValidCounters(c, framesInFlight)
    ensures ValidCounters(r.0, framesInFlight) && r.0.globalFrameID == c.globalFrameID
    ensures r.0.slot == (c.slot + 1) % framesInFlight
    ensures r.1.slot == r.0.slot && r.1.cycleID == r.0.slot && r.1.frameID == c.globalFrameID
    ensures r.1.waitValue.Some? <==> c.globalFrameID >= framesInFlight
    ensures r.1.waitValue.Some? ==> r.1.waitValue.value == c.globalFrameID
    ensures r.1.fenceWait <==> autoTransition && !minimised
  {
    var slot := (c.slot + 1) % framesInFlight;
    var wait := if c.globalFrameID >= framesInFlight then Some(c.globalFrameID) else None;
    var fence := autoTransition && WaitForSwapImage(minimised);
    (Counters(slot, c.globalFrameID), Begun(slot, c.globalFrameID, slot, wait, fence))
  }

  /** EndFrame: submit (synchronously while minimised), signalling the slot's timeline
      semaphore with globalFrameID + framesInFlight, then count the frame. */
  function EndFrame(c: Counters, framesInFlight: nat, minimised: bool): (r: (Counters, Submitted))
    requires ValidCounters(c, framesInFlight)
    ensures ValidCounters(r.0, framesInFlight)
    ensures r.0.slot == c.slot && r.0.globalFrameID == c.globalFrameID + 1
    ensures r.1.slot == c.slot && r.1.signalValue == c.globalFrameID + framesInFlight
    ensures r.1.synchronous == minimised
  {
    (Counters(c.slot, c.globalFrameID + 1), Submitted(c.slot, c.globalFrameID + framesInFlight, minimised))
  }

  /** The counters after `n` BeginFrame/EndFrame pairs from the start. */
  function CountersAfter(framesInFlight: nat, n: nat): (c: Counters)
    requires framesInFlight >= 1
    ensures ValidCounters(c, framesInFlight)
  {
    if n == 0 then Start()
    else
      var c0 := CountersAfter(framesInFlight, n - 1);
      EndFrame(BeginFrame(c0, framesInFlight, false, false).0, framesInFlight, false).0
  }

  /** BeginFrame and EndFrame as frame number g performs them. */
  function BegunAt(framesInFlight: nat, g: nat): Begun
    requires framesInFlight >= 1
  {
    BeginFrame(CountersAfter(framesInFlight, g), framesInFlight, false, false).1
  }

  function SubmittedAt(framesInFlight: nat, g: nat): Submitted
    requires framesInFlight >= 1
  {
    var c := BeginFrame(CountersAfter(framesInFlight, g), framesInFlight, false, false).0;
    EndFrame(c, framesInFlight, false).1
  }

  /** (a % m + 1) % m == (a + 1) % m. */
  lemma ModSucc(a: nat, m: nat)
    requires m >= 1
    ensures (a % m + 1) % m == (a + 1) % m
  {
    var q, r := a / m, a % m;
    assert a == q * m + r;
    if r + 1 < m {
      DivModUnique(a + 1, m, q, r + 1);
      DivModUnique(r + 1, m, 0, r + 1);
    } else {
      assert a + 1 == (q + 1) * m;
      DivModUnique(a + 1, m, q + 1, 0);
      DivModUnique(r + 1, m, 1, 0);
    }
  }

  /** After n frames the counter is n and the ring is at slot n mod framesInFlight. */
  lemma {:induction false} CountersAfterFormula(framesInFlight: nat, n: nat)
    requires framesInFlight >= 1
    ensures CountersAfter(framesInFlight, n) == Counters(n % framesInFlight, n)
  {
    if n > 0 {
      CountersAfterFormula(framesInFlight, n - 1);
      ModSucc(n - 1, framesInFlight);
    }
  }

  /** Frame g records into slot (g + 1) mod framesInFlight, with frameID g; it does
      not block for the first framesInFlight frames and blocks on value g from then
      on; it signals g + framesInFlight on the same slot. */
  lemma FrameSchedule(framesInFlight: nat, g: nat)
    requires framesInFlight >= 1
    ensures BegunAt(framesInFlight, g).slot == (g + 1) % framesInFlight
    ensures BegunAt(framesInFlight, g).frameID == g
    ensures g < framesInFlight ==> BegunAt(framesInFlight, g).waitValue == None
    ensures g >= framesInFlight ==> BegunAt(framesInFlight, g).waitValue == Some(g)
    ensures SubmittedAt(framesInFlight, g).slot == BegunAt(framesInFlight, g).slot
    ensures SubmittedAt(framesInFlight, g).signalValue == g + framesInFlight
  {
    CountersAfterFormula(framesInFlight, g);
    ModSucc(g, framesInFlight);
  }

  /** Two frames less than framesInFlight apart never share a slot. */
  lemma DistinctSlots(framesInFlight: nat, g: nat, h: nat)
    requires framesInFlight >= 1 && g < h < g + framesInFlight
    ensures (g + 1) % framesInFlight != (h + 1) % framesInFlight
  {
    var m := framesInFlight;
    var q, r := (g + 1) / m, (g + 1) % m;
    assert g + 1 == q * m + r;
    var d := h - g;
    if r + d < m {
      DivModUnique(h + 1, m, q, r + d);
    } else {
      DivModUnique(h + 1, m, q + 1, r + d - m);
    }
  }

  /** The ring comes back to a slot every framesInFlight frames. */
  lemma RingPeriod(framesInFlight: nat, a: nat)
    requires framesInFlight >= 1
    ensures (a + 1) % framesInFlight == (a + framesInFlight + 1) % framesInFlight
  {
    var q, r := (a + 1) / framesInFlight, (a + 1) % framesInFlight;
    assert a + 1 == q * framesInFlight + r;
    DivModUnique(a + framesInFlight + 1, framesInFlight, q + 1, r);
  }

  /** No frame of the last framesInFlight - 1 before g used g's slot. */
  lemma NoSlotReuse(framesInFlight: nat, g: nat)
    requires framesInFlight >= 1 && g >= framesInFlight
    ensures forall h :: g - framesInFlight < h < g ==> BegunAt(framesInFlight, h).slot != BegunAt(framesInFlight, g).slot
  {
    forall h | g - framesInFlight < h < g
      ensures BegunAt(framesInFlight, h).slot != BegunAt(framesInFlight, g).slot
    {
      FrameSchedule(framesInFlight, h);
      FrameSchedule(framesInFlight, g);
      DistinctSlots(framesInFlight, h, g);
    }
  }

  /** The value frame g waits on is exactly the value signalled on the same slot by
      frame g - framesInFlight, and no frame in between used that slot: the host
      never gets more than framesInFlight frames ahead of the GPU. */
  lemma WaitMatchesSignal(framesInFlight: nat, g: nat)
    requires framesInFlight >= 1 && g >= framesInFlight
    ensures var prev := g - framesInFlight;
      && BegunAt(framesInFlight, g).waitValue == Some(SubmittedAt(framesInFlight, prev).signalValue)
      && SubmittedAt(framesInFlight, prev).slot == BegunAt(framesInFlight, g).slot
      && (forall h :: prev < h < g ==> BegunAt(framesInFlight, h).slot != BegunAt(framesInFlight, g).slot)
  {
    var prev := g - framesInFlight;
    FrameSchedule(framesInFlight, g);
    FrameSchedule(framesInFlight, prev);
    RingPeriod(framesInFlight, prev);
    NoSlotReuse(framesInFlight, g);
  }

  /** Timeline values signalled on one slot strictly increase from frame to frame, as
      a timeline semaphore requires. */
  lemma SignalsIncrease(framesInFlight: nat, g: nat, h: nat)
    requires framesInFlight >= 1 && g < h
    requires SubmittedAt(framesInFlight, g).slot == SubmittedAt(framesInFlight, h).slot
    ensures SubmittedAt(framesInFlight, g).signalValue < SubmittedAt(framesInFlight, h).signalValue
    ensures h >= g + framesInFlight
  {
    FrameSchedule(framesInFlight, g);
    FrameSchedule(framesInFlight, h);
    if h < g + framesInFlight {
      DistinctSlots(framesInFlight, g, h);
    }
  }

  // ------------------------------------------------------- minimised-window steps

  /** The host-visible steps of one frame (BeginFrame, EndFrame, SwapBuffers). */
  datatype Step =
    | WaitTimeline(slot: nat, value: nat)
    | AcquireImage
    | WaitFence
    | Submit(submitted: Submitted)
    | UpdateStaging
    | Present

  /** SwapBuffers: the staging pool always moves on a frame; presentation happens
      only while the window is not minimised. Result: (pool, presented). */
  function SwapBuffers(pool: Staging.Pool, minimised: bool): (r: (Staging.Pool, bool))
    requires Staging.Valid(pool)
    ensures Staging.Valid(r.0) && r.0.framesInFlight == pool.framesInFlight
    ensures r.1 != minimised
  {
    (Staging.Update(pool), !minimised)
  }

  /** The steps of one whole frame, in order. */
  function FrameSteps(c: Counters, framesInFlight: nat, autoTransition: bool, minimised: bool): (steps: seq<Step>)
    requires ValidCounters(c, framesInFlight)
  {
    var (c1, b) := BeginFrame(c, framesInFlight, autoTransition, minimised);
    var (_, s) := EndFrame(c1, framesInFlight, minimised);
    var presents := !minimised;
    (if b.waitValue.Some? then [WaitTimeline(b.slot, b.waitValue.value)] else [])
    + [AcquireImage]
    + (if b.fenceWait then [WaitFence] else [])
    + [Submit(s), UpdateStaging]
    + (if presents then [Present] else [])
  }

  /** A minimised frame still acquires, submits (waiting for completion) and moves
      the staging pool on, but never waits on the fence and never presents. A
      visible frame submits without waiting and presents exactly once, last. */
  lemma MinimisedFrame(c: Counters, framesInFlight: nat, autoTransition: bool, minimised: bool)
    requires ValidCounters(c, framesInFlight)
    ensures var steps := FrameSteps(c, framesInFlight, autoTransition, minimised);
      && AcquireImage in steps && UpdateStaging in steps
      && Submit(Submitted(c.slot + 1 - (if c.slot + 1 == framesInFlight then framesInFlight else 0),
                          c.globalFrameID + framesInFlight, minimised)) in steps
      && (minimised ==> Present !in steps && WaitFence !in steps)
      && (!minimised ==> steps[|steps| - 1] == Present && (WaitFence in steps <==> autoTransition))
  {
    var (c1, b) := BeginFrame(c, framesInFlight, autoTransition, minimised);
    if c.slot + 1 == framesInFlight {
      assert c1.slot == 0;
    } else {
      assert (c.slot + 1) % framesInFlight == c.slot + 1 by {
        DivModUnique(c.slot + 1, framesInFlight, 0, c.slot + 1);
      }
    }
  }

  // ------------------------------------------------------------------ resizing

  datatype Rect = Rect(x: int, y: int, width: nat, height: nat)

  /** The window size the renderer last built for, the default screen rect and
      scissor derived from it, and how many times the swap chain has been rebuilt. */
  datatype Surface = Surface(width: int, height: int, screenRect: Rect, scissor: Rect, rebuilds: nat)

  /** OnWindowResize skips the call when the window is visible and the size is
      unchanged, or when both dimensions are zero. */
  predicate ResizeIgnored(s: Surface, minimised: bool, width: int, height: int) {
    (!minimised && width == s.width && height == s.height) || (width == 0 && height == 0)
  }

  /** OnWindowResize: otherwise record the size, derive the default rect and
      scissor from it (converted to uint32) and rebuild the swap chain once. */
  function OnWindowResize(s: Surface, minimised: bool, width: int, height: int): (r: Surface)
    ensures ResizeIgnored(s, minimised, width, height) ==> r == s
    ensures !ResizeIgnored(s, minimised, width, height) ==>
      && r.width == width && r.height == height
      && r.screenRect == Rect(0, 0, ToU32(width), ToU32(height))
      && r.scissor == r.screenRect
      && r.rebuilds == s.rebuilds + 1
  {
    if ResizeIgnored(s, minimised, width, height) then s
    else
      var rect := Rect(0, 0, ToU32(width), ToU32(height));
      Surface(width, height, rect, rect, s.rebuilds + 1)
  }

  /** A second resize to the same size of a visible window rebuilds nothing, and a
      zero-by-zero size never does. */
  lemma ResizeIdempotent(s: Surface, minimised: bool, width: int, height: int)
    ensures var r := OnWindowResize(s, minimised, width, height);
      OnWindowResize(r, false, width, height) == r
    ensures OnWindowResize(s, minimised, 0, 0) == s
  {
  }

  /** Only both dimensions being zero stops a rebuild: a minimised window that
      reports one zero dimension is rebuilt. */
  lemma OneZeroDimensionRebuilds(s: Surface, height: int)
    requires height != 0
    ensures OnWindowResize(s, true, 0, height).rebuilds == s.rebuilds + 1
  {
  }

  // ------------------------------------------------------------ swap-chain setup

  const PRESENT_MODE_FIFO: nat := 2
  const SURFACE_TRANSFORM_IDENTITY: bv32 := 0x1

  /** The present-mode loop of InitBufferChain: the ideal mode if the surface lists
      it, FIFO otherwise. */
  method ChoosePresentMode(modes: seq<nat>, ideal: nat) returns (mode: nat)
    ensures ideal in modes ==> mode == ideal
    ensures ideal !in modes ==> mode == PRESENT_MODE_FIFO
  {
    mode := PRESENT_MODE_FIFO;
    var i := 0;
    while i < |modes|
      invariant 0 <= i <= |modes|
      invariant ideal !in modes[..i]
      invariant mode == PRESENT_MODE_FIFO
    {
      if modes[i] == ideal {
        mode := modes[i];
        return;
      }
      i := i + 1;
    }
    assert modes[..i] == modes;
  }

  /** Identity when the surface supports it, else the current transform. */
  function ChooseTransform(supported: bv32, current: bv32): (t: bv32)
    ensures t == SURFACE_TRANSFORM_IDENTITY || t == current
    ensures t != SURFACE_TRANSFORM_IDENTITY ==> supported & SURFACE_TRANSFORM_IDENTITY == 0
  {
    if supported & SURFACE_TRANSFORM_IDENTITY != 0 then SURFACE_TRANSFORM_IDENTITY else current
  }

  /** The image count asked for: one more than the surface minimum (uint32
      arithmetic, then an int), capped by the maximum when the surface has one,
      handed back to the create info as a uint32. */
  function ChooseImageCount(minImageCount: nat, maxImageCount: nat): (n: nat)
    requires IsU32(minImageCount) && IsU32(maxImageCount)
    ensures IsU32(n)
  {
    var ideal := ToI32(ToU32(minImageCount + 1));
    var capped := if maxImageCount > 0 && ToI32(maxImageCount) < ideal then ToI32(maxImageCount) else ideal;
    ToU32(capped)
  }

  /** For counts a surface can report (below 2^31, minimum within the maximum), the
      image count is minImageCount + 1 unless that exceeds a non-zero maximum, in
      which case it is the maximum; it never falls below the minimum. */
  lemma ImageCountWithinCaps(minImageCount: nat, maxImageCount: nat)
    requires minImageCount < 0x7FFF_FFFF && maxImageCount < 0x8000_0000
    requires maxImageCount > 0 ==> minImageCount <= maxImageCount
    ensures var n := ChooseImageCount(minImageCount, maxImageCount);
      && minImageCount <= n
      && (maxImageCount == 0 || minImageCount < maxImageCount ==> n == minImageCount + 1)
      && (maxImageCount > 0 ==> n <= maxImageCount)
  {
  }

  /** The minimum-count computation wraps when the surface reports 0xFFFFFFFF as its
      minimum and no maximum: the request becomes 0 images. */
  lemma ImageCountWraps()
    ensures ChooseImageCount(0xFFFF_FFFF, 0) == 0
  {
  }

  /** The swap chain InitBufferChain builds and the chain state it leaves. */
  datatype SwapChain = SwapChain(presentMode: nat, transform: bv32, minImageCount: nat,
                                 swapStates: nat, currentSwap: nat)

  /** InitBufferChain: the surface capabilities, listed present modes and the
      driver's image count are oracle inputs. */
  method InitBufferChain(modes: seq<nat>, ideal: nat, supported: bv32, current: bv32,
                         minImageCount: nat, maxImageCount: nat, images: nat) returns (sc: SwapChain)
    requires IsU32(minImageCount) && IsU32(maxImageCount)
    ensures sc.presentMode == (if ideal in modes then ideal else PRESENT_MODE_FIFO)
    ensures sc.transform == ChooseTransform(supported, current)
    ensures sc.minImageCount == ChooseImageCount(minImageCount, maxImageCount)
    ensures sc.swapStates == images && sc.currentSwap == 0
  {
    var mode := ChoosePresentMode(modes, ideal);
    sc := SwapChain(mode, ChooseTransform(supported, current), ChooseImageCount(minImageCount, maxImageCount), images, 0);
  }
}

=== FILE: sbt.dfy ===
/** Shader-binding-table layout: how many handles go into each of the four regions
    (ray generation, miss, hit, callable), how large each region is, where it
    starts, and where every shader-group handle is copied. */
module Sbt {
  import opened Common

  // Shader stage bits that classify a general group.
  const STAGE_RAYGEN: bv32 := 0x100
  const STAGE_MISS: bv32 := 0x800
  const STAGE_CALLABLE: bv32 := 0x2000

  // Region order of the table (BindingTableOrder).
  const RAYGEN: nat := 0
  const MISS: nat := 1
  const HIT: nat := 2
  const CALL: nat := 3
  const REGION_COUNT: nat := 4

  datatype GroupType = General | TrianglesHitGroup | ProceduralHitGroup

  datatype Group = Group(kind: GroupType, generalShader: nat)

  /** The parts of a ray-tracing pipeline create info the builder reads: the stage
      flag of every shader stage and the groups. */
  datatype PipelineInfo = PipelineInfo(stages: seq<bv32>, groups: seq<Group>)

  /** A general group names one of the pipeline's stages. */
  predicate InfoValid(p: PipelineInfo) {
    forall i :: 0 <= i < |p.groups| && p.groups[i].kind == General ==> p.groups[i].generalShader < |p.stages|
  }

  /** A multiple of m leaves no remainder. */
  lemma MultipleModZero(k: nat, m: nat)
    requires m > 0
    ensures (k * m) % m == 0 && (k * m) / m == k
  {
    DivModUnique(k * m, m, k, 0);
  }

  /** MakeMultipleOf: round x up to a multiple of m. */
  function MakeMultipleOf(x: nat, m: nat): (r: nat)
    requires m > 0
    ensures r % m == 0
    ensures x <= r < x + m
  {
    var count := x / m;
    var rest := x % m;
    var c := if rest != 0 then count + 1 else count;
    assert x == count * m + rest;
    assert c * m == if rest != 0 then count * m + m else count * m;
    MultipleModZero(c, m);
    c * m
  }

  /** MakeMultipleOf gives the least multiple of m not below x; in particular it
      returns x itself when x is already a multiple. */
  lemma MakeMultipleOfLeast(x: nat, m: nat, y: nat)
    requires m > 0 && y % m == 0 && x <= y
    ensures MakeMultipleOf(x, m) <= y
    ensures x % m == 0 ==> MakeMultipleOf(x, m) == x
  {
    var r := MakeMultipleOf(x, m);
    var qr, qy := r / m, y / m;
    assert r == qr * m && y == qy * m;
    if qy < qr {
      MulMono(qy + 1, qr, m);
    }
  }

  /** The region a group's handle is counted in, if any: a general group by the
      stage of its general shader (other stages are not counted), every other group
      as a hit group. */
  function RegionOf(p: PipelineInfo, i: nat): (r: Option<nat>)
    requires InfoValid(p) && i < |p.groups|
    ensures r.Some? ==> r.value < REGION_COUNT
    ensures p.groups[i].kind != General ==> r == Some(HIT)
    ensures r == Some(HIT) ==> p.groups[i].kind != General
  {
    if p.groups[i].kind == General then
      var stage := p.stages[p.groups[i].generalShader];
      if stage == STAGE_RAYGEN then Some(RAYGEN)
      else if stage == STAGE_MISS then Some(MISS)
      else if stage == STAGE_CALLABLE then Some(CALL)
      else None
    else Some(HIT)
  }

  /** Reference count: groups among the first n that RegionOf puts in `region`. */
  function CountIn(p: PipelineInfo, region: nat, n: nat): (c: nat)
    requires InfoValid(p) && n <= |p.groups|
    ensures c <= n
  {
    if n == 0 then 0
    else CountIn(p, region, n - 1) + (if RegionOf(p, n - 1) == Some(region) then 1 else 0)
  }

  /** FillCounts: walk the groups once and bump the counter of each group's region. */
  method FillCounts(counts: seq<nat>, p: PipelineInfo) returns (r: seq<nat>)
    requires |counts| == REGION_COUNT && InfoValid(p)
    ensures |r| == REGION_COUNT
    ensures forall k :: 0 <= k < REGION_COUNT ==> r[k] == counts[k] + CountIn(p, k, |p.groups|)
  {
    r := counts;
    var i := 0;
    while i < |p.groups|
      invariant 0 <= i <= |p.groups| && |r| == REGION_COUNT
      invariant forall k :: 0 <= k < REGION_COUNT ==> r[k] == counts[k] + CountIn(p, k, i)
    {
      var region := RegionOf(p, i);
      if region.Some? {
        r := r[region.value := r[region.value] + 1];
      }
      i := i + 1;
    }
  }

  /** Each group is counted at most once: the four counts together never exceed the
      number of groups, and equal it exactly when every general group's stage is a
      ray-generation, miss or callable one. */
  lemma {:induction false} CountsBounded(p: PipelineInfo, n: nat)
    requires InfoValid(p) && n <= |p.groups|
    ensures CountIn(p, RAYGEN, n) + CountIn(p, MISS, n) + CountIn(p, HIT, n) + CountIn(p, CALL, n) <= n
    ensures (forall i :: 0 <= i < n ==> RegionOf(p, i).Some?) ==>
      CountIn(p, RAYGEN, n) + CountIn(p, MISS, n) + CountIn(p, HIT, n) + CountIn(p, CALL, n) == n
  {
    if n > 0 {
      CountsBounded(p, n - 1);
    }
  }

  /** Reference count over libraries: the groups of the first n libraries that
      RegionOf puts in `region`. */
  function LibCount(libraries: seq<PipelineInfo>, region: nat, n: nat): nat
    requires n <= |libraries| && forall l :: 0 <= l < |libraries| ==> InfoValid(libraries[l])
  {
    if n == 0 then 0
    else LibCount(libraries, region, n - 1) + CountIn(libraries[n - 1], region, |libraries[n - 1].groups|)
  }

  /** Reference totals: for each region, the pipeline's count plus every library's. */
  function RegionTotals(pipeline: PipelineInfo, libraries: seq<PipelineInfo>): seq<nat>
    requires InfoValid(pipeline) && forall l :: 0 <= l < |libraries| ==> InfoValid(libraries[l])
  {
    seq(REGION_COUNT, k requires 0 <= k < REGION_COUNT =>
      CountIn(pipeline, k, |pipeline.groups|) + LibCount(libraries, k, |libraries|))
  }

  /** Count the handles of the pipeline and of every library, and the total number
      of shader groups. */
  method CountAll(pipeline: PipelineInfo, libraries: seq<PipelineInfo>) returns (counts: seq<nat>, numShaderGroups: nat)
    requires InfoValid(pipeline) && forall l :: 0 <= l < |libraries| ==> InfoValid(libraries[l])
    ensures |counts| == REGION_COUNT
    ensures numShaderGroups == |pipeline.groups| + Sum(GroupCounts(libraries))
    ensures counts == RegionTotals(pipeline, libraries)
    ensures counts[RAYGEN] + counts[MISS] + counts[HIT] + counts[CALL] <= numShaderGroups
  {
    counts := FillCounts([0, 0, 0, 0], pipeline);
    CountsBounded(pipeline, |pipeline.groups|);
    numShaderGroups := |pipeline.groups|;
    var l := 0;
    while l < |libraries|
      invariant 0 <= l <= |libraries| && |counts| == REGION_COUNT
      invariant numShaderGroups == |pipeline.groups| + Sum(GroupCounts(libraries[..l]))
      invariant forall k :: 0 <= k < REGION_COUNT ==>
        counts[k] == CountIn(pipeline, k, |pipeline.groups|) + LibCount(libraries, k, l)
      invariant counts[RAYGEN] + counts[MISS] + counts[HIT] + counts[CALL] <= numShaderGroups
    {
      assert GroupCounts(libraries[..l + 1]) == GroupCounts(libraries[..l]) + [|libraries[l].groups|];
      SumAppend(GroupCounts(libraries[..l]), [|libraries[l].groups|]);
      assert Sum([|libraries[l].groups|]) == |libraries[l].groups| by {
        assert [|libraries[l].groups|][..0] == [];
      }
      numShaderGroups := numShaderGroups + |libraries[l].groups|;
      counts := FillCounts(counts, libraries[l]);
      CountsBounded(libraries[l], |libraries[l].groups|);
      l := l + 1;
    }
    assert libraries[..l] == libraries;
    assert forall k :: 0 <= k < REGION_COUNT ==> counts[k] == RegionTotals(pipeline, libraries)[k];
  }

  function GroupCounts(libraries: seq<PipelineInfo>): (r: seq<nat>)
    ensures |r| == |libraries| && forall l :: 0 <= l < |libraries| ==> r[l] == |libraries[l].groups|
  {
    seq(|libraries|, l requires 0 <= l < |libraries| => |libraries[l].groups|)
  }

  /** The device properties the layout depends on. */
  datatype Properties = Properties(handleSize: nat, handleAlignment: nat, baseAlignment: nat)

  predicate PropertiesValid(pr: Properties) {
    pr.handleAlignment > 0 && pr.baseAlignment > 0
  }

  /** One strided region of the table. */
  datatype Region = Region(deviceAddress: nat, stride: nat, size: nat)

  function AlignedHandleSize(pr: Properties): nat
    requires PropertiesValid(pr)
  {
    MakeMultipleOf(pr.handleSize, pr.handleAlignment)
  }

  /** Size of region i: its handles at the aligned stride, rounded up to the base
      alignment. */
  function RegionSize(pr: Properties, count: nat): nat
    requires PropertiesValid(pr)
  {
    MakeMultipleOf(AlignedHandleSize(pr) * count, pr.baseAlignment)
  }

  function RegionSizes(pr: Properties, counts: seq<nat>): (r: seq<nat>)
    requires PropertiesValid(pr)
    ensures |r| == |counts| && forall i :: 0 <= i < |counts| ==> r[i] == RegionSize(pr, counts[i])
  {
    seq(|counts|, i requires 0 <= i < |counts| => RegionSize(pr, counts[i]))
  }

  /** The region layout of Build: sizes, strides (the ray-generation region's stride
      is its whole size), the buffer size as the sum of the sizes, and every region's
      address as the buffer address plus the sizes of the regions before it. */
  method Layout(pr: Properties, counts: seq<nat>, bufferAddress: nat) returns (regions: seq<Region>, bufferSize: nat)
    requires PropertiesValid(pr) && |counts| == REGION_COUNT
    ensures |regions| == REGION_COUNT
    ensures forall i :: 0 <= i < REGION_COUNT ==> regions[i].size == RegionSize(pr, counts[i])
    ensures regions[0].stride == regions[0].size
    ensures forall i :: 1 <= i < REGION_COUNT ==> regions[i].stride == AlignedHandleSize(pr)
    ensures bufferSize == Sum(RegionSizes(pr, counts))
    ensures forall i :: 0 <= i < REGION_COUNT ==>
      regions[i].deviceAddress == bufferAddress + Sum(RegionSizes(pr, counts)[..i])
  {
    var sizes := RegionSizes(pr, counts);
    regions, bufferSize := PlaceRegions(sizes, AlignedHandleSize(pr), bufferAddress);
    regions := regions[0 := regions[0].(stride := regions[0].size)];
  }

  /** The address loop of Build: region i has the given size and stride and starts
      after the regions before it; the total is the sum of the sizes. */
  method PlaceRegions(sizes: seq<nat>, stride: nat, bufferAddress: nat) returns (regions: seq<Region>, bufferSize: nat)
    ensures |regions| == |sizes| && bufferSize == Sum(sizes)
    ensures forall k :: 0 <= k < |sizes| ==> regions[k] == Region(bufferAddress + Sum(sizes[..k]), stride, sizes[k])
  {
    bufferSize := 0;
    regions := [];
    var i := 0;
    while i < |sizes|
      invariant 0 <= i <= |sizes| && |regions| == i
      invariant bufferSize == Sum(sizes[..i])
      invariant forall k :: 0 <= k < i ==> regions[k] == Region(bufferAddress + Sum(sizes[..k]), stride, sizes[k])
    {
      SumSnoc(sizes, i);
      regions := regions + [Region(bufferAddress + bufferSize, stride, sizes[i])];
      bufferSize := bufferSize + sizes[i];
      i := i + 1;
    }
    assert sizes[..i] == sizes;
  }

  /** Every region starts at a multiple of the base alignment from the buffer start,
      since every region size is such a multiple. */
  lemma {:induction false} RegionStartsAligned(pr: Properties, counts: seq<nat>, i: nat)
    requires PropertiesValid(pr) && i <= |counts|
    ensures Sum(RegionSizes(pr, counts)[..i]) % pr.baseAlignment == 0
  {
    var sizes := RegionSizes(pr, counts);
    if i > 0 {
      RegionStartsAligned(pr, counts, i - 1);
      assert sizes[..i] == sizes[..i - 1] + [sizes[i - 1]];
      SumAppend(sizes[..i - 1], [sizes[i - 1]]);
      assert Sum([sizes[i - 1]]) == sizes[i - 1] by { assert [sizes[i - 1]][..0] == []; }
      ModAdd(Sum(sizes[..i - 1]), sizes[i - 1], pr.baseAlignment);
    } else {
      assert sizes[..0] == [];
    }
  }

  lemma ModAdd(a: nat, b: nat, m: nat)
    requires m > 0 && a % m == 0 && b % m == 0
    ensures (a + b) % m == 0
  {
    var qa, qb := a / m, b / m;
    assert a == qa * m && b == qb * m;
    assert a + b == (qa + qb) * m;
    MultipleModZero(qa + qb, m);
  }

  /** One handle copy: destination byte offset in the table and source byte offset
      in the handle array returned by the driver. */
  datatype Copy = Copy(dst: int, src: int)

  /** The inner copy loop for one region: `count` handles from `firstHandle` on,
      placed from `start` at the aligned stride. */
  method RegionCopies(start: nat, firstHandle: nat, count: nat, aligned: nat, handleSize: nat)
    returns (region: seq<Copy>)
    ensures |region| == count
    ensures forall m :: 0 <= m < count ==> region[m] == Copy(start + m * aligned, (firstHandle + m) * handleSize)
  {
    region := [];
    var dataOffset := start;
    var currentHandleIndex := firstHandle;
    var j := 0;
    while j < count
      invariant 0 <= j <= count && |region| == j
      invariant dataOffset == start + j * aligned
      invariant currentHandleIndex == firstHandle + j
      invariant forall m :: 0 <= m < j ==> region[m] == Copy(start + m * aligned, (firstHandle + m) * handleSize)
    {
      region := region + [Copy(dataOffset, currentHandleIndex * handleSize)];
      currentHandleIndex := currentHandleIndex + 1;
      assert (j + 1) * aligned == j * aligned + aligned;
      dataOffset := dataOffset + aligned;
      j := j + 1;
    }
  }

  /** Region k's copies: its j-th handle goes to the region start plus j aligned
      strides, taken from the driver's array after the handles of earlier regions. */
  predicate RegionCopiesAt(region: seq<Copy>, k: nat, sizes: seq<nat>, counts: seq<nat>, aligned: nat, handleSize: nat)
    requires k < |sizes| && k < |counts|
  {
    |region| == counts[k] &&
    forall j :: 0 <= j < counts[k] ==>
      region[j] == Copy(Sum(sizes[..k]) + j * aligned, (Sum(counts[..k]) + j) * handleSize)
  }

  /** The copies of the next region, laid out from the running offsets, extend a
      list of correctly laid-out regions. */
  lemma AppendRegion(copies: seq<seq<Copy>>, region: seq<Copy>, sizes: seq<nat>, counts: seq<nat>, aligned: nat, handleSize: nat)
    requires |copies| < |sizes| && |copies| < |counts|
    requires forall k :: 0 <= k < |copies| ==> RegionCopiesAt(copies[k], k, sizes, counts, aligned, handleSize)
    requires |region| == counts[|copies|]
    requires forall m :: 0 <= m < counts[|copies|] ==>
      region[m] == Copy(Sum(sizes[..|copies|]) + m * aligned, (Sum(counts[..|copies|]) + m) * handleSize)
    ensures forall k :: 0 <= k <= |copies| ==> RegionCopiesAt((copies + [region])[k], k, sizes, counts, aligned, handleSize)
  {
    forall k | 0 <= k <= |copies|
      ensures RegionCopiesAt((copies + [region])[k], k, sizes, counts, aligned, handleSize)
    {
      if k < |copies| {
        assert (copies + [region])[k] == copies[k];
      } else {
        assert (copies + [region])[k] == region;
      }
    }
  }

  /** Every region laid out correctly, stated handle by handle. */
  lemma AllRegionCopies(copies: seq<seq<Copy>>, sizes: seq<nat>, counts: seq<nat>, aligned: nat, handleSize: nat)
    requires |copies| == |counts| <= |sizes|
    requires forall k :: 0 <= k < |copies| ==> RegionCopiesAt(copies[k], k, sizes, counts, aligned, handleSize)
    ensures forall k :: 0 <= k < |counts| ==> |copies[k]| == counts[k]
    ensures forall k, j :: 0 <= k < |counts| && 0 <= j < counts[k] ==>
      copies[k][j] == Copy(Sum(sizes[..k]) + j * aligned, (Sum(counts[..k]) + j) * handleSize)
  {
    forall k, j | 0 <= k < |counts| && 0 <= j < counts[k]
      ensures copies[k][j] == Copy(Sum(sizes[..k]) + j * aligned, (Sum(counts[..k]) + j) * handleSize)
    {
      assert RegionCopiesAt(copies[k], k, sizes, counts, aligned, handleSize);
    }
  }

  /** The loop over the regions, given their sizes and the aligned handle size:
      each region's copies are laid out from the running data offset and handle
      index. */
  method CopyRegions(sizes: seq<nat>, counts: seq<nat>, aligned: nat, handleSize: nat) returns (copies: seq<seq<Copy>>)
    requires |sizes| == |counts|
    ensures |copies| == |counts|
    ensures forall k :: 0 <= k < |counts| ==> RegionCopiesAt(copies[k], k, sizes, counts, aligned, handleSize)
  {
    var dataOffset := 0;
    var currentHandleIndex := 0;
    copies := [];
    var i := 0;
    while i < |counts|
      invariant 0 <= i <= |counts| && |copies| == i
      invariant dataOffset == Sum(sizes[..i])
      invariant currentHandleIndex == Sum(counts[..i])
      invariant forall k :: 0 <= k < i ==> RegionCopiesAt(copies[k], k, sizes, counts, aligned, handleSize)
    {
      var region := RegionCopies(dataOffset, currentHandleIndex, counts[i], aligned, handleSize);
      AppendRegion(copies, region, sizes, counts, aligned, handleSize);
      SumSnoc(counts, i);
      SumSnoc(sizes, i);
      currentHandleIndex := currentHandleIndex + counts[i];
      dataOffset := dataOffset + sizes[i];
      copies := copies + [region];
      i := i + 1;
    }
  }

  /** The copy loop of Build: region i's j-th handle goes to the region start plus j
      aligned strides, and handles are taken from the driver's array consecutively,
      across regions in table order. */
  method HandleCopies(pr: Properties, counts: seq<nat>) returns (copies: seq<seq<Copy>>)
    requires PropertiesValid(pr)
    ensures |copies| == |counts|
    ensures forall i :: 0 <= i < |counts| ==> |copies[i]| == counts[i]
    ensures forall i, j :: 0 <= i < |counts| && 0 <= j < counts[i] ==>
      copies[i][j] == Copy(Sum(RegionSizes(pr, counts)[..i]) + j * AlignedHandleSize(pr),
                           (Sum(counts[..i]) + j) * pr.handleSize)
  {
    var sizes := RegionSizes(pr, counts);
    copies := CopyRegions(sizes, counts, AlignedHandleSize(pr), pr.handleSize);
    AllRegionCopies(copies, sizes, counts, AlignedHandleSize(pr), pr.handleSize);
  }

  /** Every handle copy stays inside its own region: the region holds its handles
      at the aligned stride, and a handle is no larger than the aligned stride. */
  lemma CopyInsideRegion(pr: Properties, count: nat, j: nat)
    requires PropertiesValid(pr) && j < count
    ensures j * AlignedHandleSize(pr) + pr.handleSize <= RegionSize(pr, count)
  {
    var a := AlignedHandleSize(pr);
    assert pr.handleSize <= a;
    assert (j + 1) * a <= count * a by {
      MulMono(j + 1, count, a);
    }
    assert a * count <= RegionSize(pr, count);
  }

  /** Two different handles of one region never overlap: their destinations are
      at least one aligned stride apart. */
  lemma CopiesDisjoint(pr: Properties, j1: nat, j2: nat)
    requires PropertiesValid(pr) && j1 < j2
    ensures j1 * AlignedHandleSize(pr) + pr.handleSize <= j2 * AlignedHandleSize(pr)
  {
    var a := AlignedHandleSize(pr);
    MulMono(j1 + 1, j2, a);
  }
}

=== FILE: shader.dfy ===
/** VulkanShader and ShaderBuilder: one optional binary per raster stage, the
    compaction of the stages that have a module into the pipeline's stage list,
    and the builder that loads each named binary, reflects it and records it.
    File contents are inputs: the loaded size and the module the device creates
    for each stage. */
module Shader {
  import opened Common
  import opened ShaderReflection

  /** ShaderStages::Type, in the order of the builder's per-stage error messages. */
  const VERTEX: nat := 0
  const FRAGMENT: nat := 1
  const GEOMETRY: nat := 2
  const TESS_CONTROL: nat := 3
  const TESS_EVAL: nat := 4
  const MESH: nat := 5
  /** ShaderStages::MAX_SIZE. */
  const STAGE_COUNT: nat := 6

  /** rasterStages: the Vulkan stage-flag bit of each stage, as a bit position
      (vertex 0x1, fragment 0x10, geometry 0x8, tessellation control 0x2,
      tessellation evaluation 0x4, mesh 0x80). */
  const RASTER_STAGE_BITS: seq<nat> := [0, 4, 3, 1, 2, 7]

  /** A VkPipelineShaderStageCreateInfo. */
  datatype StageInfo = StageInfo(stageBit: nat, shaderModule: Handle, entryPoint: string)

  /** A value-initialised stage info: the vertex bit, no module, no entry point. */
  const DEFAULT_INFO: StageInfo := StageInfo(0, Null, "")

  /** A VulkanShader: its reflected state, a module and entry point per stage, and
      the compacted stage list with its length. */
  datatype VulkanShader = VulkanShader(
    base: ShaderBase,
    modules: seq<Handle>,
    entryPoints: seq<string>,
    stageCount: nat,
    infos: seq<StageInfo>)

  /** The per-stage arrays have one slot per stage. */
  predicate ShaderWf(s: VulkanShader) {
    |s.modules| == STAGE_COUNT && |s.entryPoints| == STAGE_COUNT && |s.infos| == STAGE_COUNT
  }

  /** A new shader: no stages, no modules, nothing reflected. */
  function NewShader(): (s: VulkanShader)
    ensures ShaderWf(s) && s.stageCount == 0
    ensures forall i :: 0 <= i < STAGE_COUNT ==> s.modules[i] == Null && s.entryPoints[i] == ""
    ensures s.base.setBindings == [] && s.base.layouts == [] && s.base.pushConstants == []
  {
    VulkanShader(ShaderBase([], [], []), Repeat(STAGE_COUNT, Null), Repeat(STAGE_COUNT, ""), 0, Repeat(STAGE_COUNT, DEFAULT_INFO))
  }

  /** The module overload of AddBinaryShaderModule: the given module and the stage's
      module swap places (the caller gets the old one back), and the entry point is
      recorded. The stage list is not rebuilt. */
  function AddBinaryShaderModule(s: VulkanShader, stage: nat, m: Handle, entry: string): (r: (VulkanShader, Handle))
    requires ShaderWf(s) && stage < STAGE_COUNT
    ensures ShaderWf(r.0)
    ensures r.0.modules[stage] == m && r.1 == s.modules[stage] && r.0.entryPoints[stage] == entry
    ensures forall i :: 0 <= i < STAGE_COUNT && i != stage ==> r.0.modules[i] == s.modules[i] && r.0.entryPoints[i] == s.entryPoints[i]
    ensures r.0.base == s.base && r.0.stageCount == s.stageCount && r.0.infos == s.infos
  {
    (s.(modules := s.modules[stage := m], entryPoints := s.entryPoints[stage := entry]), s.modules[stage])
  }

  // ---------------------------------------------------------------- stage compaction

  /** The stages below n that have a module, in ascending order. */
  function Present(modules: seq<Handle>, n: nat): (r: seq<nat>)
    requires n <= |modules|
    ensures |r| <= n && forall k :: 0 <= k < |r| ==> r[k] < n
  {
    if n == 0 then [] else Present(modules, n - 1) + (if modules[n - 1] != Null then [n - 1] else [])
  }

  /** Present lists exactly the stages below n with a module, each once, ascending. */
  lemma {:induction false} PresentSpec(modules: seq<Handle>, n: nat)
    requires n <= |modules|
    ensures forall k :: 0 <= k < |Present(modules, n)| ==> Present(modules, n)[k] < n && modules[Present(modules, n)[k]] != Null
    ensures forall i :: 0 <= i < n && modules[i] != Null ==> i in Present(modules, n)
    ensures forall j, k :: 0 <= j < k < |Present(modules, n)| ==> Present(modules, n)[j] < Present(modules, n)[k]
  {
    if n > 0 {
      PresentSpec(modules, n - 1);
    }
  }

  /** Scanning fewer stages yields a prefix of the list. */
  lemma {:induction false} PresentPrefix(modules: seq<Handle>, a: nat, b: nat)
    requires a <= b <= |modules|
    ensures |Present(modules, a)| <= |Present(modules, b)|
    ensures Present(modules, a) == Present(modules, b)[..|Present(modules, a)|]
  {
    if a < b {
      PresentPrefix(modules, a, b - 1);
    }
  }

  /** Scanning one more stage appends it to the list exactly when it has a module. */
  lemma PresentNext(modules: seq<Handle>, i: nat)
    requires i < |modules|
    ensures modules[i] == Null ==> |Present(modules, i + 1)| == |Present(modules, i)|
    ensures modules[i] != Null ==>
      && |Present(modules, i + 1)| == |Present(modules, i)| + 1
      && |Present(modules, i)| < |Present(modules, |modules|)|
      && Present(modules, |modules|)[|Present(modules, i)|] == i
  {
    PresentPrefix(modules, i + 1, |modules|);
  }

  /** The stage info of stage i. */
  function InfoOf(s: VulkanShader, i: nat): StageInfo
    requires ShaderWf(s) && i < STAGE_COUNT
  {
    StageInfo(RASTER_STAGE_BITS[i], s.modules[i], s.entryPoints[i])
  }

  /** The stage list holds the stages with a module, ascending, and nothing else
      is counted. */
  predicate Compacted(s: VulkanShader)
    requires ShaderWf(s)
  {
    var p := Present(s.modules, |s.modules|);
    s.stageCount == |p| && s.stageCount <= STAGE_COUNT &&
    forall k :: 0 <= k < s.stageCount ==> p[k] < STAGE_COUNT && s.infos[k] == InfoOf(s, p[k])
  }

  /** Init's first loop: the number of stages with a module. */
  method CountStages(modules: seq<Handle>) returns (count: nat)
    requires |modules| == STAGE_COUNT
    ensures count == |Present(modules, |modules|)|
  {
    count := 0;
    var i := 0;
    while i < STAGE_COUNT
      invariant 0 <= i <= STAGE_COUNT && count == |Present(modules, i)|
    {
      if modules[i] != Null {
        count := count + 1;
      }
      i := i + 1;
    }
  }

  /** Init's second loop: the info of each stage with a module written to the next
      free slot, in stage order, stopping once `count` are written. */
  method CompactInfos(s: VulkanShader, count: nat) returns (infos: seq<StageInfo>)
    requires ShaderWf(s) && count == |Present(s.modules, |s.modules|)|
    ensures |infos| == STAGE_COUNT && count <= STAGE_COUNT
    ensures forall k :: 0 <= k < count ==> infos[k] == InfoOf(s, Present(s.modules, |s.modules|)[k])
    ensures forall k :: count <= k < STAGE_COUNT ==> infos[k] == s.infos[k]
  {
    var all := Present(s.modules, |s.modules|);
    infos := s.infos;
    var done := 0;
    var i := 0;
    while i < |s.modules|
      invariant 0 <= i <= |s.modules| && |infos| == |s.infos|
      invariant done == |Present(s.modules, i)| && done <= count
      invariant forall k :: 0 <= k < done ==> infos[k] == InfoOf(s, all[k])
      invariant forall k :: done <= k < |infos| ==> infos[k] == s.infos[k]
    {
      PresentNext(s.modules, i);
      if s.modules[i] != Null {
        infos := infos[done := InfoOf(s, i)];
        done := done + 1;
        if done >= count {
          break;
        }
      }
      i := i + 1;
    }
    assert done == count;
  }

  /** Init: count the stages with a module, then write their infos to the front of
      the list in stage order. The slots beyond the count keep what they held. */
  method Init(s: VulkanShader) returns (r: VulkanShader)
    requires ShaderWf(s)
    ensures ShaderWf(r) && Compacted(r)
    ensures r.modules == s.modules && r.entryPoints == s.entryPoints && r.base == s.base
    ensures forall k :: r.stageCount <= k < STAGE_COUNT ==> r.infos[k] == s.infos[k]
  {
    var count := CountStages(s.modules);
    var infos := CompactInfos(s, count);
    PresentSpec(s.modules, |s.modules|);
    r := s.(stageCount := count, infos := infos);
    assert forall i :: 0 <= i < STAGE_COUNT ==> InfoOf(r, i) == InfoOf(s, i);
  }

  /** What FillShaderStageCreateInfo puts in a create info. */
  datatype StageList = StageList(stageCount: nat, stages: seq<StageInfo>)

  /** FillShaderStageCreateInfo: the count and the whole info array. After Init
      the counted prefix names each stage with a module exactly once, in stage
      order, with that stage's module and entry point. */
  function FillShaderStageCreateInfo(s: VulkanShader): (r: StageList)
    requires ShaderWf(s)
    ensures r.stageCount == s.stageCount && |r.stages| == STAGE_COUNT
    ensures Compacted(s) ==> r.stageCount <= STAGE_COUNT
    ensures Compacted(s) ==> forall k :: 0 <= k < r.stageCount ==> r.stages[k].shaderModule != Null
    ensures Compacted(s) ==> forall i :: 0 <= i < STAGE_COUNT && s.modules[i] != Null ==>
      exists k :: 0 <= k < r.stageCount && r.stages[k] == InfoOf(s, i)
    ensures Compacted(s) ==> forall j, k :: 0 <= j < k < r.stageCount ==> r.stages[j].stageBit != r.stages[k].stageBit
  {
    if Compacted(s) then CompactedStages(s); StageList(s.stageCount, s.infos)
    else StageList(s.stageCount, s.infos)
  }

  /** The compacted prefix: real modules, every stage with a module listed, and no
      stage twice. */
  lemma CompactedStages(s: VulkanShader)
    requires ShaderWf(s) && Compacted(s)
    ensures forall k :: 0 <= k < s.stageCount ==> s.infos[k].shaderModule != Null
    ensures forall i :: 0 <= i < STAGE_COUNT && s.modules[i] != Null ==>
      exists k :: 0 <= k < s.stageCount && s.infos[k] == InfoOf(s, i)
    ensures forall j, k :: 0 <= j < k < s.stageCount ==> s.infos[j].stageBit != s.infos[k].stageBit
  {
    PresentSpec(s.modules, |s.modules|);
    CompactedListsAll(s);
    CompactedDistinct(s);
  }

  lemma CompactedListsAll(s: VulkanShader)
    requires ShaderWf(s) && Compacted(s)
    ensures forall i :: 0 <= i < STAGE_COUNT && s.modules[i] != Null ==>
      exists k :: 0 <= k < s.stageCount && s.infos[k] == InfoOf(s, i)
  {
    var p := Present(s.modules, |s.modules|);
    PresentSpec(s.modules, |s.modules|);
    forall i | 0 <= i < STAGE_COUNT && s.modules[i] != Null
      ensures exists k :: 0 <= k < s.stageCount && s.infos[k] == InfoOf(s, i)
    {
      assert i in p;
      var k :| 0 <= k < |p| && p[k] == i;
      assert s.infos[k] == InfoOf(s, i);
    }
  }

  /** No two stages share a stage bit. */
  lemma RasterBitsDistinct(a: nat, b: nat)
    requires a < b < STAGE_COUNT
    ensures RASTER_STAGE_BITS[a] != RASTER_STAGE_BITS[b]
  {
  }

  lemma CompactedDistinct(s: VulkanShader)
    requires ShaderWf(s) && Compacted(s)
    ensures forall j, k :: 0 <= j < k < s.stageCount ==> s.infos[j].stageBit != s.infos[k].stageBit
  {
    var p := Present(s.modules, |s.modules|);
    PresentSpec(s.modules, |s.modules|);
    forall j, k | 0 <= j < k < s.stageCount
      ensures s.infos[j].stageBit != s.infos[k].stageBit
    {
      RasterBitsDistinct(p[j], p[k]);
    }
  }

  // ---------------------------------------------------------------- builder

  /** ShaderBuilder: a file name and entry point per stage; an empty name means
      the stage is unused. */
  datatype ShaderBuilder = ShaderBuilder(files: seq<string>, entryPoints: seq<string>)

  predicate BuilderWf(b: ShaderBuilder) {
    |b.files| == STAGE_COUNT && |b.entryPoints| == STAGE_COUNT
  }

  /** r is b with the given stage's name and entry point set, all else unchanged. */
  predicate AddedAt(b: ShaderBuilder, r: ShaderBuilder, stage: nat, name: string, entry: string)
    requires BuilderWf(b)
  {
    BuilderWf(r) && stage < STAGE_COUNT && r.files[stage] == name && r.entryPoints[stage] == entry &&
    forall i :: 0 <= i < STAGE_COUNT && i != stage ==> r.files[i] == b.files[i] && r.entryPoints[i] == b.entryPoints[i]
  }

  /** AddBinary: a stage that already has a binary, or MAX_SIZE, fails the
      assertions; otherwise the name and entry point are recorded. */
  function AddBinary(b: ShaderBuilder, stage: nat, name: string, entry: string): (r: Result<ShaderBuilder>)
    requires BuilderWf(b)
    ensures r.Ok? <==> stage < STAGE_COUNT && b.files[stage] == ""
    ensures r.Ok? ==> AddedAt(b, r.value, stage, name, entry)
  {
    if stage >= STAGE_COUNT then Err("Invalid shader stage!")
    else if b.files[stage] != "" then Err("Multiple shaders of one stage attached to shader object!")
    else Ok(ShaderBuilder(b.files[stage := name], b.entryPoints[stage := entry]))
  }

  /** A second binary for a stage that was given a non-empty name is refused. */
  lemma OneBinaryPerStage(b: ShaderBuilder, stage: nat, name: string, entry: string, name2: string, entry2: string)
    requires BuilderWf(b) && name != ""
    requires AddBinary(b, stage, name, entry).Ok?
    ensures AddBinary(AddBinary(b, stage, name, entry).value, stage, name2, entry2).Err?
  {
  }

  function WithVertexBinary(b: ShaderBuilder, name: string, entry: string): (r: Result<ShaderBuilder>)
    requires BuilderWf(b)
    ensures r.Ok? <==> b.files[VERTEX] == ""
    ensures r.Ok? ==> AddedAt(b, r.value, VERTEX, name, entry)
  {
    AddBinary(b, VERTEX, name, entry)
  }

  function WithFragmentBinary(b: ShaderBuilder, name: string, entry: string): (r: Result<ShaderBuilder>)
    requires BuilderWf(b)
    ensures r.Ok? <==> b.files[FRAGMENT] == ""
    ensures r.Ok? ==> AddedAt(b, r.value, FRAGMENT, name, entry)
  {
    AddBinary(b, FRAGMENT, name, entry)
  }

  function WithGeometryBinary(b: ShaderBuilder, name: string, entry: string): (r: Result<ShaderBuilder>)
    requires BuilderWf(b)
    ensures r.Ok? <==> b.files[GEOMETRY] == ""
    ensures r.Ok? ==> AddedAt(b, r.value, GEOMETRY, name, entry)
  {
    AddBinary(b, GEOMETRY, name, entry)
  }

  function WithTessControlBinary(b: ShaderBuilder, name: string, entry: string): (r: Result<ShaderBuilder>)
    requires BuilderWf(b)
    ensures r.Ok? <==> b.files[TESS_CONTROL] == ""
    ensures r.Ok? ==> AddedAt(b, r.value, TESS_CONTROL, name, entry)
  {
    AddBinary(b, TESS_CONTROL, name, entry)
  }

  function WithTessEvalBinary(b: ShaderBuilder, name: string, entry: string): (r: Result<ShaderBuilder>)
    requires BuilderWf(b)
    ensures r.Ok? <==> b.files[TESS_EVAL] == ""
    ensures r.Ok? ==> AddedAt(b, r.value, TESS_EVAL, name, entry)
  {
    AddBinary(b, TESS_EVAL, name, entry)
  }

  function WithMeshBinary(b: ShaderBuilder, name: string, entry: string): (r: Result<ShaderBuilder>)
    requires BuilderWf(b)
    ensures r.Ok? <==> b.files[MESH] == ""
    ensures r.Ok? ==> AddedAt(b, r.value, MESH, name, entry)
  {
    AddBinary(b, MESH, name, entry)
  }

  /** A stage Build gives a module to: it is named and its file was not empty. */
  predicate Loaded(b: ShaderBuilder, sizes: seq<nat>, i: nat)
    requires BuilderWf(b) && |sizes| == STAGE_COUNT && i < STAGE_COUNT
  {
    b.files[i] != "" && sizes[i] > 0
  }

  /** One stage's reflection merged in, as AddReflectionData does it. */
  function ReflectStage(s: ShaderBase, refl: Reflection, stage: StageFlags): ShaderBase {
    ShaderBase(MergeSets(s.setBindings, refl.sets, stage), s.layouts, MergePushes(s.pushConstants, refl.blocks, stage))
  }

  /** The reflected state after the loaded stages below n, in stage order. */
  function ReflectLoaded(b: ShaderBuilder, sizes: seq<nat>, refls: seq<Reflection>, n: nat): (r: ShaderBase)
    requires BuilderWf(b) && |sizes| == STAGE_COUNT && |refls| == STAGE_COUNT && n <= STAGE_COUNT
    ensures r.layouts == []
  {
    if n == 0 then ShaderBase([], [], [])
    else
      var s := ReflectLoaded(b, sizes, refls, n - 1);
      if Loaded(b, sizes, n - 1) then ReflectStage(s, refls[n - 1], {RASTER_STAGE_BITS[n - 1]}) else s
  }

  /** One pass of Build's loop: a named stage gets its module (when its file is not
      empty, merging its reflection) and its entry point; an unnamed one is skipped. */
  method LoadStage(s: VulkanShader, b: ShaderBuilder, sizes: seq<nat>, created: seq<Handle>, refls: seq<Reflection>, i: nat)
    returns (r: VulkanShader)
    requires BuilderWf(b) && |sizes| == STAGE_COUNT && |created| == STAGE_COUNT && |refls| == STAGE_COUNT
    requires ShaderWf(s) && i < STAGE_COUNT && s.modules[i] == Null && s.entryPoints[i] == ""
    requires s.base == ReflectLoaded(b, sizes, refls, i)
    ensures ShaderWf(r)
    ensures r.modules[i] == (if Loaded(b, sizes, i) then created[i] else Null)
    ensures r.entryPoints[i] == (if b.files[i] != "" then b.entryPoints[i] else "")
    ensures forall k :: 0 <= k < STAGE_COUNT && k != i ==> r.modules[k] == s.modules[k] && r.entryPoints[k] == s.entryPoints[k]
    ensures r.base == ReflectLoaded(b, sizes, refls, i + 1)
  {
    r := s;
    if b.files[i] != "" {
      var m := Null;
      if sizes[i] > 0 {
        m := created[i];
        var base := AddReflectionData(r.base, refls[i], {RASTER_STAGE_BITS[i]});
        r := r.(base := base);
      }
      var swapped := AddBinaryShaderModule(r, i, m, b.entryPoints[i]);
      r := swapped.0;
    }
  }

  /** Build: mesh and vertex binaries together fail the assertion. Otherwise each
      named stage, in stage order, gets the module the device creates from its
      file when the file is not empty (and its reflection is merged in), or no
      module; its entry point is recorded either way. Then the stage list is
      compacted and one layout is created per binding set. */
  method Build(b: ShaderBuilder, sizes: seq<nat>, created: seq<Handle>, refls: seq<Reflection>, createLayout: seq<LayoutBinding> -> nat)
    returns (r: Result<VulkanShader>)
    requires BuilderWf(b) && |sizes| == STAGE_COUNT && |created| == STAGE_COUNT && |refls| == STAGE_COUNT
    requires forall i :: 0 <= i < STAGE_COUNT ==> created[i] != Null
    ensures r.Ok? <==> !(b.files[MESH] != "" && b.files[VERTEX] != "")
    ensures r.Ok? ==> ShaderWf(r.value) && Compacted(r.value)
    ensures r.Ok? ==> forall i :: 0 <= i < STAGE_COUNT ==>
      r.value.modules[i] == (if Loaded(b, sizes, i) then created[i] else Null) &&
      r.value.entryPoints[i] == (if b.files[i] != "" then b.entryPoints[i] else "")
    ensures r.Ok? ==> r.value.base.setBindings == ReflectLoaded(b, sizes, refls, STAGE_COUNT).setBindings
    ensures r.Ok? ==> r.value.base.pushConstants == ReflectLoaded(b, sizes, refls, STAGE_COUNT).pushConstants
    ensures r.Ok? ==> |r.value.base.layouts| == |r.value.base.setBindings|
    ensures r.Ok? ==> forall k :: 0 <= k < |r.value.base.setBindings| ==> r.value.base.layouts[k] == Live(createLayout(r.value.base.setBindings[k]))
  {
    if b.files[MESH] != "" && b.files[VERTEX] != "" {
      return Err("Cannot use traditional vertex pipeline with mesh shaders!");
    }
    var s := NewShader();
    var i := 0;
    while i < STAGE_COUNT
      invariant 0 <= i <= STAGE_COUNT && ShaderWf(s)
      invariant forall k :: 0 <= k < i ==> s.modules[k] == (if Loaded(b, sizes, k) then created[k] else Null)
      invariant forall k :: 0 <= k < i ==> s.entryPoints[k] == (if b.files[k] != "" then b.entryPoints[k] else "")
      invariant forall k :: i <= k < STAGE_COUNT ==> s.modules[k] == Null && s.entryPoints[k] == ""
      invariant s.base == ReflectLoaded(b, sizes, refls, i)
    {
      s := LoadStage(s, b, sizes, created, refls, i);
      i := i + 1;
    }
    s := Init(s);
    var base := BuildLayouts(s.base, createLayout);
    r := Ok(s.(base := base));
  }
}

=== FILE: shader_reflection.dfy ===
/** VulkanShaderBase: merging the descriptor-set bindings and push-constant ranges
    that reflection reports for each shader stage, and the queries pipeline
    builders make of the result. Reflection itself is an input: the sets, bindings
    and push blocks SPIRV-Reflect would enumerate. */
module ShaderReflection {
  import opened Common

  /** One entry of a descriptor-set layout. */
  datatype LayoutBinding = LayoutBinding(binding: nat, count: nat, descType: nat, stages: StageFlags)

  /** A value-initialised layout binding: binding 0, the first descriptor type, no
      descriptors and no stages. */
  const EMPTY_BINDING: LayoutBinding := LayoutBinding(0, 0, 0, {})

  /** Shader stage flags, as the set of bit positions that are set. */
  type StageFlags = set<nat>

  /** Bit positions of the vertex and fragment stage flags. */
  const STAGE_VERTEX: nat := 0
  const STAGE_FRAGMENT: nat := 4

  datatype PushRange = PushRange(offset: nat, size: nat, stages: StageFlags)

  /** What reflection reports for one stage. */
  datatype ReflectedBinding = ReflectedBinding(binding: nat, count: nat, descType: nat)
  datatype ReflectedSet = ReflectedSet(setIndex: nat, bindings: seq<ReflectedBinding>)
  datatype ReflectedBlock = ReflectedBlock(offset: nat, size: nat)
  datatype Reflection = Reflection(sets: seq<ReflectedSet>, blocks: seq<ReflectedBlock>)

  /** The shader's reflected state: bindings per set, the layouts built from them,
      and the push-constant ranges. */
  datatype ShaderBase = ShaderBase(setBindings: seq<seq<LayoutBinding>>, layouts: seq<Handle>, pushConstants: seq<PushRange>)

  function Max(a: nat, b: nat): nat {
    if a >= b then a else b
  }

  // ---------------------------------------------------------------- queries

  /** FillDescriptorSetLayouts: the caller's list grows to the shader's set count if
      shorter; the shader's layouts overwrite its first slots, the rest are kept. */
  method FillDescriptorSetLayouts(s: ShaderBase, given: seq<Handle>) returns (r: seq<Handle>)
    ensures |r| == Max(|s.layouts|, |given|)
    ensures forall i :: 0 <= i < |r| ==> r[i] == if i < |s.layouts| then s.layouts[i] else given[i]
  {
    r := Resize(given, Max(|s.layouts|, |given|), Null);
    var i := 0;
    while i < |s.layouts|
      invariant 0 <= i <= |s.layouts| && |r| == Max(|s.layouts|, |given|)
      invariant forall k :: 0 <= k < |r| ==> r[k] == if k < i then s.layouts[k] else if k < |given| then given[k] else Null
    {
      r := r[i := s.layouts[i]];
      i := i + 1;
    }
  }

  /** FillPushConstants: the output becomes exactly the shader's ranges, whatever
      it held. */
  function FillPushConstants(s: ShaderBase, previous: seq<PushRange>): (r: seq<PushRange>)
    ensures |r| == |s.pushConstants| && forall i :: 0 <= i < |r| ==> r[i] == s.pushConstants[i]
  {
    s.pushConstants
  }

  /** GetLayout: an index outside the built layouts fails its assertion. */
  function GetLayout(s: ShaderBase, index: nat): (r: Result<Handle>)
    ensures r.Ok? <==> index < |s.layouts|
    ensures r.Ok? ==> r.value == s.layouts[index]
  {
    if index < |s.layouts| then Ok(s.layouts[index]) else Err("layout index out of range")
  }

  /** GetLayoutBinding: the bindings of a set, or none for a set beyond the list. */
  function GetLayoutBinding(s: ShaderBase, index: nat): (r: seq<LayoutBinding>)
    ensures index >= |s.setBindings| ==> r == []
    ensures index < |s.setBindings| ==> r == s.setBindings[index]
  {
    if index >= |s.setBindings| then [] else s.setBindings[index]
  }

  // ---------------------------------------------------------- binding merge

  /** The last reflected binding with number i, if any: the one whose values stay. */
  function LastFor(bs: seq<ReflectedBinding>, i: nat): (r: Option<ReflectedBinding>)
    ensures r.Some? <==> exists k :: 0 <= k < |bs| && bs[k].binding == i
    ensures r.Some? ==> r.value.binding == i
  {
    if |bs| == 0 then None
    else if bs[|bs| - 1].binding == i then Some(bs[|bs| - 1])
    else
      var r := LastFor(bs[..|bs| - 1], i);
      assert forall k :: 0 <= k < |bs| - 1 ==> bs[..|bs| - 1][k] == bs[k];
      r
  }

  /** One past the highest binding number reflected. */
  function Span(bs: seq<ReflectedBinding>): (n: nat)
    ensures forall k :: 0 <= k < |bs| ==> bs[k].binding < n
    ensures n > 0 ==> exists k :: 0 <= k < |bs| && bs[k].binding + 1 == n
  {
    if |bs| == 0 then 0 else
      var n := Span(bs[..|bs| - 1]);
      assert forall k :: 0 <= k < |bs| - 1 ==> bs[..|bs| - 1][k] == bs[k];
      Max(n, bs[|bs| - 1].binding + 1)
  }

  /** Entry i of a layout, or the empty binding past its end. */
  function Entry(layout: seq<LayoutBinding>, i: nat): LayoutBinding {
    if i < |layout| then layout[i] else EMPTY_BINDING
  }

  /** Reference definition of a merged entry: a binding the stage reflects takes the
      stage's last number, count and type, and adds the stage to the flags it had;
      any other entry is unchanged. */
  function Expected(layout: seq<LayoutBinding>, bs: seq<ReflectedBinding>, stage: StageFlags, i: nat): LayoutBinding {
    match LastFor(bs, i)
    case None => Entry(layout, i)
    case Some(b) => LayoutBinding(i, b.count, b.descType, Entry(layout, i).stages + stage)
  }

  /** One reflected binding: grow the set to cover it, overwrite number, count and
      type, and OR in the stage. */
  function MergeBinding(layout: seq<LayoutBinding>, b: ReflectedBinding, stage: StageFlags): (r: seq<LayoutBinding>)
    ensures |r| == Max(|layout|, b.binding + 1)
    ensures r[b.binding] == LayoutBinding(b.binding, b.count, b.descType, Entry(layout, b.binding).stages + stage)
    ensures forall i :: 0 <= i < |r| && i != b.binding ==> r[i] == Entry(layout, i)
  {
    var l := if b.binding >= |layout| then Resize(layout, b.binding + 1, EMPTY_BINDING) else layout;
    l[b.binding := LayoutBinding(b.binding, b.count, b.descType, l[b.binding].stages + stage)]
  }

  /** The reflected bindings of one set, in reflection order. */
  function MergeBindings(layout: seq<LayoutBinding>, bs: seq<ReflectedBinding>, stage: StageFlags): seq<LayoutBinding> {
    if |bs| == 0 then layout else MergeBinding(MergeBindings(layout, bs[..|bs| - 1], stage), bs[|bs| - 1], stage)
  }

  /** Merging a stage's bindings into a set yields exactly the reference entries,
      whatever order reflection lists them in. */
  lemma {:induction false} MergeBindingsSpec(layout: seq<LayoutBinding>, bs: seq<ReflectedBinding>, stage: StageFlags)
    ensures |MergeBindings(layout, bs, stage)| == Max(|layout|, Span(bs))
    ensures forall i :: 0 <= i < |MergeBindings(layout, bs, stage)| ==>
      MergeBindings(layout, bs, stage)[i] == Expected(layout, bs, stage, i)
  {
    if |bs| > 0 {
      var init, b := bs[..|bs| - 1], bs[|bs| - 1];
      MergeBindingsSpec(layout, init, stage);
      var p := MergeBindings(layout, init, stage);
      var r := MergeBinding(p, b, stage);
      forall i | 0 <= i < |r|
        ensures r[i] == Expected(layout, bs, stage, i)
      {
        if i == b.binding {
        } else {
          assert LastFor(bs, i) == LastFor(init, i);
          if i >= |p| {
            assert LastFor(init, i).None?;
          }
        }
      }
    }
  }

  /** A merge never loses what an earlier stage recorded: every old entry keeps
      its stages, and entries the stage does not reflect are untouched. */
  lemma MergeKeepsEarlierStages(layout: seq<LayoutBinding>, bs: seq<ReflectedBinding>, stage: StageFlags)
    ensures var r := MergeBindings(layout, bs, stage);
      && |r| >= |layout|
      && (forall i :: 0 <= i < |layout| ==> layout[i].stages <= r[i].stages)
      && (forall i :: 0 <= i < |layout| && LastFor(bs, i).None? ==> r[i] == layout[i])
      && (forall k :: 0 <= k < |bs| ==> bs[k].binding < |r| && stage <= r[bs[k].binding].stages)
  {
    MergeBindingsSpec(layout, bs, stage);
    var r := MergeBindings(layout, bs, stage);
    forall i | 0 <= i < |r|
      ensures Entry(layout, i).stages <= r[i].stages
      ensures LastFor(bs, i).Some? ==> stage <= r[i].stages
    {
    }
  }

  /** The set list grown to hold set number `set`. */
  function GrowSets(sets: seq<seq<LayoutBinding>>, setIndex: nat): (r: seq<seq<LayoutBinding>>)
    ensures |r| == Max(|sets|, setIndex + 1)
    ensures forall j :: 0 <= j < |r| ==> r[j] == if j < |sets| then sets[j] else []
  {
    if setIndex >= |sets| then Resize(sets, setIndex + 1, []) else sets
  }

  /** One reflected set as written: the set is first resized to the stage's
      binding count, which can cut off higher bindings an earlier stage recorded. */
  function MergeSetAsWritten(sets: seq<seq<LayoutBinding>>, rs: ReflectedSet, stage: StageFlags): (r: seq<seq<LayoutBinding>>)
    ensures |r| == Max(|sets|, rs.setIndex + 1)
  {
    var s := GrowSets(sets, rs.setIndex);
    s[rs.setIndex := MergeBindings(Resize(s[rs.setIndex], |rs.bindings|, EMPTY_BINDING), rs.bindings, stage)]
  }

  /** One reflected set with the evident intent of combining stages: the set only
      ever grows, and every entry is the reference merge of what was there. */
  function MergeSet(sets: seq<seq<LayoutBinding>>, rs: ReflectedSet, stage: StageFlags): (r: seq<seq<LayoutBinding>>)
    ensures |r| == Max(|sets|, rs.setIndex + 1)
    ensures forall j :: 0 <= j < |r| && j != rs.setIndex ==> r[j] == if j < |sets| then sets[j] else []
    ensures var before := if rs.setIndex < |sets| then sets[rs.setIndex] else [];
      && |r[rs.setIndex]| == Max(Max(|before|, |rs.bindings|), Span(rs.bindings))
      && forall i :: 0 <= i < |r[rs.setIndex]| ==> r[rs.setIndex][i] == Expected(before, rs.bindings, stage, i)
  {
    var s := GrowSets(sets, rs.setIndex);
    var l := s[rs.setIndex];
    var grown := if |rs.bindings| > |l| then Resize(l, |rs.bindings|, EMPTY_BINDING) else l;
    MergeBindingsSpec(grown, rs.bindings, stage);
    assert forall i :: Entry(grown, i) == Entry(l, i);
    assert forall i :: Expected(grown, rs.bindings, stage, i) == Expected(l, rs.bindings, stage, i);
    s[rs.setIndex := MergeBindings(grown, rs.bindings, stage)]
  }

  /** A vertex stage uses bindings 0 and 3 of set 0, the fragment stage only binding
      0: as written the merged set shrinks to one entry and binding 3 is lost; the
      corrected merge keeps it with the vertex stage. */
  lemma MergeDropsEarlierBinding()
    ensures var vertex := ReflectedSet(0, [ReflectedBinding(0, 1, 6), ReflectedBinding(3, 1, 1)]);
      var fragment := ReflectedSet(0, [ReflectedBinding(0, 1, 6)]);
      var asWritten := MergeSetAsWritten(MergeSetAsWritten([], vertex, {STAGE_VERTEX}), fragment, {STAGE_FRAGMENT});
      var corrected := MergeSet(MergeSet([], vertex, {STAGE_VERTEX}), fragment, {STAGE_FRAGMENT});
      && |asWritten[0]| == 1
      && |corrected[0]| == 4 && corrected[0][3] == LayoutBinding(3, 1, 1, {STAGE_VERTEX})
  {
    var vertex := ReflectedSet(0, [ReflectedBinding(0, 1, 6), ReflectedBinding(3, 1, 1)]);
    var fragment := ReflectedSet(0, [ReflectedBinding(0, 1, 6)]);
    var v := MergeSet([], vertex, {STAGE_VERTEX});
    assert LastFor(vertex.bindings, 3) == Some(ReflectedBinding(3, 1, 1));
    assert Span(vertex.bindings) == 4;
    assert |v[0]| == 4 && v[0][3] == LayoutBinding(3, 1, 1, {STAGE_VERTEX});
    assert LastFor(fragment.bindings, 3).None?;
    assert Span(fragment.bindings) == 1;
    var w := MergeSetAsWritten([], vertex, {STAGE_VERTEX});
    assert |MergeSetAsWritten(w, fragment, {STAGE_FRAGMENT})[0]| == 1 by {
      MergeBindingsSpec(Resize(w[0], 1, EMPTY_BINDING), fragment.bindings, {STAGE_FRAGMENT});
    }
  }

  /** All reflected sets of one stage, in reflection order. */
  function MergeSets(sets: seq<seq<LayoutBinding>>, rss: seq<ReflectedSet>, stage: StageFlags): seq<seq<LayoutBinding>> {
    if |rss| == 0 then sets else MergeSet(MergeSets(sets, rss[..|rss| - 1], stage), rss[|rss| - 1], stage)
  }

  /** The set r still holds every entry of the set a, with at least its stages. */
  predicate KeepsSet(a: seq<LayoutBinding>, r: seq<LayoutBinding>) {
    |r| >= |a| && forall i :: 0 <= i < |a| ==> a[i].stages <= r[i].stages
  }

  /** r still holds every entry of a, with at least its stages. */
  predicate Keeps(a: seq<seq<LayoutBinding>>, r: seq<seq<LayoutBinding>>) {
    |r| >= |a| && forall j :: 0 <= j < |a| ==> KeepsSet(a[j], r[j])
  }

  /** r holds the set rs reflects and each of its bindings carries the stage. */
  predicate Reflected(r: seq<seq<LayoutBinding>>, rs: ReflectedSet, stage: StageFlags) {
    rs.setIndex < |r| &&
    forall m :: 0 <= m < |rs.bindings| ==>
      rs.bindings[m].binding < |r[rs.setIndex]| && stage <= r[rs.setIndex][rs.bindings[m].binding].stages
  }

  lemma KeepsTrans(a: seq<seq<LayoutBinding>>, b: seq<seq<LayoutBinding>>, c: seq<seq<LayoutBinding>>)
    requires Keeps(a, b) && Keeps(b, c)
    ensures Keeps(a, c)
  {
    forall j | 0 <= j < |a|
      ensures KeepsSet(a[j], c[j])
    {
      assert KeepsSet(a[j], b[j]) && KeepsSet(b[j], c[j]);
    }
  }

  lemma KeepsReflected(a: seq<seq<LayoutBinding>>, r: seq<seq<LayoutBinding>>, rs: ReflectedSet, stage: StageFlags)
    requires Reflected(a, rs, stage) && Keeps(a, r)
    ensures Reflected(r, rs, stage)
  {
    forall m: int | 0 <= m < |rs.bindings|
      ensures rs.bindings[m].binding < |r[rs.setIndex]| && stage <= r[rs.setIndex][rs.bindings[m].binding].stages
    {
      var j, i := rs.setIndex, rs.bindings[m].binding;
      assert i < |a[j]| && stage <= a[j][i].stages;
    }
  }

  /** One merged set keeps every entry of every set with its stages, and leaves
      each binding the set reflects carrying the stage. */
  lemma MergeSetKeeps(p: seq<seq<LayoutBinding>>, rs: ReflectedSet, stage: StageFlags)
    ensures Keeps(p, MergeSet(p, rs, stage)) && Reflected(MergeSet(p, rs, stage), rs, stage)
  {
    var r: seq<seq<LayoutBinding>> := MergeSet(p, rs, stage);
    var before: seq<LayoutBinding> := if rs.setIndex < |p| then p[rs.setIndex] else [];
    forall i: int | 0 <= i < |before|
      ensures before[i].stages <= r[rs.setIndex][i].stages
    {
      assert r[rs.setIndex][i] == Expected(before, rs.bindings, stage, i);
    }
    forall m: int | 0 <= m < |rs.bindings|
      ensures stage <= r[rs.setIndex][rs.bindings[m].binding].stages
    {
      var i := rs.bindings[m].binding;
      assert LastFor(rs.bindings, i).Some?;
      assert r[rs.setIndex][i] == Expected(before, rs.bindings, stage, i);
    }
  }

  /** After a stage is merged, every earlier set and entry is still there with its
      stages, and every set and binding it reflects exists and carries the stage. */
  lemma {:induction false} MergeSetsSpec(sets: seq<seq<LayoutBinding>>, rss: seq<ReflectedSet>, stage: StageFlags)
    ensures Keeps(sets, MergeSets(sets, rss, stage))
    ensures forall k :: 0 <= k < |rss| ==> Reflected(MergeSets(sets, rss, stage), rss[k], stage)
  {
    if |rss| > 0 {
      var init, rs := rss[..|rss| - 1], rss[|rss| - 1];
      MergeSetsSpec(sets, init, stage);
      var p: seq<seq<LayoutBinding>> := MergeSets(sets, init, stage);
      MergeSetKeeps(p, rs, stage);
      var r: seq<seq<LayoutBinding>> := MergeSet(p, rs, stage);
      KeepsTrans(sets, p, r);
      forall k: int | 0 <= k < |rss| - 1
        ensures Reflected(r, rss[k], stage)
      {
        assert rss[k] == init[k];
        KeepsReflected(p, r, rss[k], stage);
      }
    }
  }

  // ------------------------------------------------------ push constants

  predicate Matches(p: PushRange, b: ReflectedBlock) {
    p.offset == b.offset && p.size == b.size
  }

  /** The first range with the block's offset and size. */
  function FirstMatch(ps: seq<PushRange>, b: ReflectedBlock): (k: Option<nat>)
    ensures k.Some? ==> k.value < |ps| && Matches(ps[k.value], b) && forall j :: 0 <= j < k.value ==> !Matches(ps[j], b)
    ensures k.None? ==> forall j :: 0 <= j < |ps| ==> !Matches(ps[j], b)
  {
    if |ps| == 0 then None
    else if Matches(ps[0], b) then Some(0)
    else match FirstMatch(ps[1..], b)
      case None => None
      case Some(k) => Some(k + 1)
  }

  /** The search loop over the existing ranges, stopping at the first match. */
  method FindRange(ps: seq<PushRange>, b: ReflectedBlock) returns (k: Option<nat>)
    ensures k == FirstMatch(ps, b)
  {
    k := None;
    var i := 0;
    while i < |ps|
      invariant 0 <= i <= |ps|
      invariant forall j :: 0 <= j < i ==> !Matches(ps[j], b)
    {
      if Matches(ps[i], b) {
        k := Some(i);
        FirstMatchIs(ps, b, i);
        return;
      }
      i := i + 1;
    }
  }

  lemma {:induction false} FirstMatchIs(ps: seq<PushRange>, b: ReflectedBlock, i: nat)
    requires i < |ps| && Matches(ps[i], b) && forall j :: 0 <= j < i ==> !Matches(ps[j], b)
    ensures FirstMatch(ps, b) == Some(i)
  {
    if i > 0 {
      FirstMatchIs(ps[1..], b, i - 1);
    }
  }

  function OrInto(ps: seq<PushRange>, k: nat, stage: StageFlags): (r: seq<PushRange>)
    requires k < |ps|
  {
    ps[k := ps[k].(stages := ps[k].stages + stage)]
  }

  /** A push block as written: the stage is OR-ed into a matching range, and a new
      range with only this stage is appended whether or not one matched. */
  function MergePushAsWritten(ps: seq<PushRange>, b: ReflectedBlock, stage: StageFlags): (r: seq<PushRange>)
    ensures |r| == |ps| + 1 && r[|ps|] == PushRange(b.offset, b.size, stage)
  {
    var merged := match FirstMatch(ps, b)
      case Some(k) => OrInto(ps, k, stage)
      case None => ps;
    merged + [PushRange(b.offset, b.size, stage)]
  }

  /** A push block with the evident intent of its `found` flag: append only when no
      range matched. */
  function MergePush(ps: seq<PushRange>, b: ReflectedBlock, stage: StageFlags): (r: seq<PushRange>)
    ensures |r| == |ps| + (if FirstMatch(ps, b).Some? then 0 else 1)
    ensures exists k :: 0 <= k < |r| && Matches(r[k], b) && stage <= r[k].stages
    ensures forall j :: 0 <= j < |ps| ==> Matches(r[j], ReflectedBlock(ps[j].offset, ps[j].size)) && ps[j].stages <= r[j].stages
    ensures Distinct(ps) ==> forall j :: 0 <= j < |ps| ==>
      r[j] == if Matches(ps[j], b) then ps[j].(stages := ps[j].stages + stage) else ps[j]
    ensures FirstMatch(ps, b).None? ==> r[|ps|] == PushRange(b.offset, b.size, stage)
  {
    match FirstMatch(ps, b)
    case Some(k) =>
      var r := OrInto(ps, k, stage);
      assert Matches(r[k], b) && stage <= r[k].stages;
      r
    case None =>
      var r := ps + [PushRange(b.offset, b.size, stage)];
      assert Matches(r[|ps|], b);
      r
  }

  /** No two ranges share an offset and size. */
  predicate Distinct(ps: seq<PushRange>) {
    forall i, j :: 0 <= i < j < |ps| ==> !Matches(ps[j], ReflectedBlock(ps[i].offset, ps[i].size))
  }

  /** The corrected merge keeps the ranges distinct. */
  lemma MergePushDistinct(ps: seq<PushRange>, b: ReflectedBlock, stage: StageFlags)
    requires Distinct(ps)
    ensures Distinct(MergePush(ps, b, stage))
  {
  }

  /** A vertex and a fragment stage share one 64-byte block: as written the list
      ends with two ranges at offset 0 that both name the fragment stage; corrected,
      one range carries both stages. */
  lemma PushBlockDuplicated()
    ensures var blk := ReflectedBlock(0, 64);
      var asWritten := MergePushAsWritten(MergePushAsWritten([], blk, {STAGE_VERTEX}), blk, {STAGE_FRAGMENT});
      var corrected := MergePush(MergePush([], blk, {STAGE_VERTEX}), blk, {STAGE_FRAGMENT});
      && asWritten == [PushRange(0, 64, {STAGE_VERTEX, STAGE_FRAGMENT}), PushRange(0, 64, {STAGE_FRAGMENT})]
      && !Distinct(asWritten)
      && corrected == [PushRange(0, 64, {STAGE_VERTEX, STAGE_FRAGMENT})]
  {
    var blk := ReflectedBlock(0, 64);
    var v := PushRange(0, 64, {STAGE_VERTEX});
    assert MergePushAsWritten([], blk, {STAGE_VERTEX}) == [v];
    assert MergePush([], blk, {STAGE_VERTEX}) == [v];
    assert FirstMatch([v], blk) == Some(0);
    assert {STAGE_VERTEX} + {STAGE_FRAGMENT} == {STAGE_VERTEX, STAGE_FRAGMENT};
    var w := MergePushAsWritten([v], blk, {STAGE_FRAGMENT});
    assert w == [PushRange(0, 64, {STAGE_VERTEX, STAGE_FRAGMENT}), PushRange(0, 64, {STAGE_FRAGMENT})];
    assert Matches(w[1], ReflectedBlock(w[0].offset, w[0].size));
  }

  /** All push blocks of one stage, in reflection order. */
  function MergePushes(ps: seq<PushRange>, blocks: seq<ReflectedBlock>, stage: StageFlags): seq<PushRange> {
    if |blocks| == 0 then ps else MergePush(MergePushes(ps, blocks[..|blocks| - 1], stage), blocks[|blocks| - 1], stage)
  }

  /** Some block of the list has the range's offset and size. */
  predicate Hit(p: PushRange, blocks: seq<ReflectedBlock>) {
    exists m :: 0 <= m < |blocks| && Matches(p, blocks[m])
  }

  /** Merging a stage's blocks keeps the ranges distinct and the old ranges with
      their stages, and leaves every block covered by a range carrying the stage.
      An old range gains the stage exactly when some block matches it, and is
      otherwise unchanged; every new range comes from a block and carries only
      this stage. */
  lemma {:induction false} MergePushesSpec(ps: seq<PushRange>, blocks: seq<ReflectedBlock>, stage: StageFlags)
    requires Distinct(ps)
    ensures var r := MergePushes(ps, blocks, stage);
      && Distinct(r) && |r| >= |ps|
      && (forall j :: 0 <= j < |ps| ==> Matches(r[j], ReflectedBlock(ps[j].offset, ps[j].size)) && ps[j].stages <= r[j].stages)
      && (forall m :: 0 <= m < |blocks| ==> exists k :: 0 <= k < |r| && Matches(r[k], blocks[m]) && stage <= r[k].stages)
      && (forall j :: 0 <= j < |ps| ==> r[j] == if Hit(ps[j], blocks) then ps[j].(stages := ps[j].stages + stage) else ps[j])
      && (forall k :: |ps| <= k < |r| ==> r[k].stages == stage && Hit(r[k], blocks))
  {
    if |blocks| > 0 {
      var init, b := blocks[..|blocks| - 1], blocks[|blocks| - 1];
      assert blocks == init + [b];
      MergePushesSpec(ps, init, stage);
      var p := MergePushes(ps, init, stage);
      MergePushDistinct(p, b, stage);
      MergePushCover(ps, p, init, b, stage);
      MergePushStep(ps, p, init, b, stage);
    }
  }

  /** One block of MergePushesSpec's coverage: the old ranges keep their offsets,
      sizes and stages, and every block so far, the new one included, stays covered
      by a range carrying the stage. */
  lemma MergePushCover(ps: seq<PushRange>, p: seq<PushRange>, init: seq<ReflectedBlock>, b: ReflectedBlock, stage: StageFlags)
    requires |p| >= |ps|
    requires forall j :: 0 <= j < |ps| ==> Matches(p[j], ReflectedBlock(ps[j].offset, ps[j].size)) && ps[j].stages <= p[j].stages
    requires forall m :: 0 <= m < |init| ==> exists k :: 0 <= k < |p| && Matches(p[k], init[m]) && stage <= p[k].stages
    ensures var r := MergePush(p, b, stage);
      && (forall j :: 0 <= j < |ps| ==> Matches(r[j], ReflectedBlock(ps[j].offset, ps[j].size)) && ps[j].stages <= r[j].stages)
      && (forall m :: 0 <= m < |init + [b]| ==> exists k :: 0 <= k < |r| && Matches(r[k], (init + [b])[m]) && stage <= r[k].stages)
  {
    var r := MergePush(p, b, stage);
    forall m | 0 <= m < |init + [b]|
      ensures exists k :: 0 <= k < |r| && Matches(r[k], (init + [b])[m]) && stage <= r[k].stages
    {
      if m < |init| {
        assert (init + [b])[m] == init[m];
        var k :| 0 <= k < |p| && Matches(p[k], init[m]) && stage <= p[k].stages;
        assert Matches(r[k], ReflectedBlock(p[k].offset, p[k].size)) && p[k].stages <= r[k].stages;
      } else {
        assert (init + [b])[m] == b;
      }
    }
  }

  /** One block of MergePushesSpec's frame: what the ranges owe to the earlier
      blocks extends to one more block. */
  lemma MergePushStep(ps: seq<PushRange>, p: seq<PushRange>, init: seq<ReflectedBlock>, b: ReflectedBlock, stage: StageFlags)
    requires Distinct(p) && |p| >= |ps|
    requires forall j :: 0 <= j < |ps| ==> p[j] == if Hit(ps[j], init) then ps[j].(stages := ps[j].stages + stage) else ps[j]
    requires forall k :: |ps| <= k < |p| ==> p[k].stages == stage && Hit(p[k], init)
    ensures var r := MergePush(p, b, stage);
      && (forall j :: 0 <= j < |ps| ==> r[j] == if Hit(ps[j], init + [b]) then ps[j].(stages := ps[j].stages + stage) else ps[j])
      && (forall k :: |ps| <= k < |r| ==> r[k].stages == stage && Hit(r[k], init + [b]))
  {
    var r := MergePush(p, b, stage);
    forall j | 0 <= j < |ps|
      ensures r[j] == if Hit(ps[j], init + [b]) then ps[j].(stages := ps[j].stages + stage) else ps[j]
    {
      HitSnoc(ps[j], init, b);
    }
    forall k | |ps| <= k < |r|
      ensures r[k].stages == stage && Hit(r[k], init + [b])
    {
      if k < |p| {
        HitSnoc(p[k], init, b);
      } else {
        assert (init + [b])[|init|] == b;
      }
    }
  }

  /** A range is hit by a list with one more block iff it is hit by the shorter
      list or matches the new block. */
  lemma HitSnoc(p: PushRange, init: seq<ReflectedBlock>, b: ReflectedBlock)
    ensures Hit(p, init + [b]) <==> Hit(p, init) || Matches(p, b)
  {
    var blocks := init + [b];
    if Hit(p, init) {
      var m :| 0 <= m < |init| && Matches(p, init[m]);
      assert blocks[m] == init[m];
    }
    if Matches(p, b) {
      assert blocks[|init|] == b;
    }
    if Hit(p, blocks) {
      var m :| 0 <= m < |blocks| && Matches(p, blocks[m]);
      if m < |init| {
        assert init[m] == blocks[m];
      }
    }
  }

  // ------------------------------------------------------------- whole stage

  /** The loop over a stage's reflected sets. */
  method MergeAllSets(sets: seq<seq<LayoutBinding>>, rss: seq<ReflectedSet>, stage: StageFlags) returns (r: seq<seq<LayoutBinding>>)
    ensures r == MergeSets(sets, rss, stage)
  {
    r := sets;
    var i := 0;
    while i < |rss|
      invariant 0 <= i <= |rss|
      invariant r == MergeSets(sets, rss[..i], stage)
    {
      assert rss[..i + 1][..i] == rss[..i];
      r := MergeSet(r, rss[i], stage);
      i := i + 1;
    }
    assert rss[..i] == rss;
  }

  /** The loop over a stage's push blocks, searching for a matching range first. */
  method MergeAllPushes(ps: seq<PushRange>, blocks: seq<ReflectedBlock>, stage: StageFlags) returns (r: seq<PushRange>)
    ensures r == MergePushes(ps, blocks, stage)
  {
    r := ps;
    var m := 0;
    while m < |blocks|
      invariant 0 <= m <= |blocks|
      invariant r == MergePushes(ps, blocks[..m], stage)
    {
      assert blocks[..m + 1][..m] == blocks[..m];
      var found := FindRange(r, blocks[m]);
      match found {
        case Some(k) =>
          r := OrInto(r, k, stage);
        case None =>
          r := r + [PushRange(blocks[m].offset, blocks[m].size, stage)];
      }
      m := m + 1;
    }
    assert blocks[..m] == blocks;
  }

  /** AddReflectionData with the corrected merges: each reflected set in order,
      then each push block in order; the built layouts are untouched. Nothing an
      earlier stage recorded is lost, everything this stage reflects carries its
      flags, and push ranges stay one per offset and size. */
  method AddReflectionData(s: ShaderBase, refl: Reflection, stage: StageFlags) returns (r: ShaderBase)
    ensures r.setBindings == MergeSets(s.setBindings, refl.sets, stage)
    ensures r.pushConstants == MergePushes(s.pushConstants, refl.blocks, stage)
    ensures r.layouts == s.layouts
    ensures Keeps(s.setBindings, r.setBindings)
    ensures forall k :: 0 <= k < |refl.sets| ==> Reflected(r.setBindings, refl.sets[k], stage)
    ensures Distinct(s.pushConstants) ==> Distinct(r.pushConstants)
    ensures Distinct(s.pushConstants) ==> forall m :: 0 <= m < |refl.blocks| ==>
      exists k :: 0 <= k < |r.pushConstants| && Matches(r.pushConstants[k], refl.blocks[m]) && stage <= r.pushConstants[k].stages
  {
    var sets := MergeAllSets(s.setBindings, refl.sets, stage);
    var ps := MergeAllPushes(s.pushConstants, refl.blocks, stage);
    MergeSetsSpec(s.setBindings, refl.sets, stage);
    if Distinct(s.pushConstants) {
      MergePushesSpec(s.pushConstants, refl.blocks, stage);
    }
    r := ShaderBase(sets, s.layouts, ps);
  }

  /** BuildLayouts: one new layout per binding set, in set order, each created (by
      the device, here `create`) from that set's bindings. */
  method BuildLayouts(s: ShaderBase, create: seq<LayoutBinding> -> nat) returns (r: ShaderBase)
    ensures |r.layouts| == |s.layouts| + |s.setBindings|
    ensures r.layouts[..|s.layouts|] == s.layouts
    ensures forall i :: 0 <= i < |s.setBindings| ==> r.layouts[|s.layouts| + i] == Live(create(s.setBindings[i]))
    ensures r.setBindings == s.setBindings && r.pushConstants == s.pushConstants
  {
    var layouts := s.layouts;
    var i := 0;
    while i < |s.setBindings|
      invariant 0 <= i <= |s.setBindings| && |layouts| == |s.layouts| + i
      invariant layouts[..|s.layouts|] == s.layouts
      invariant forall k :: 0 <= k < i ==> layouts[|s.layouts| + k] == Live(create(s.setBindings[k]))
    {
      layouts := layouts + [Live(create(s.setBindings[i]))];
      i := i + 1;
    }
    r := s.(layouts := layouts);
  }
}

=== FILE: staging.dfy ===
/** The staging-buffer pool: every request builds a fresh host-visible transfer
    source buffer that lives for framesInFlight frames. */
module Staging {
  import opened Common
  import VulkanBuffers
  import Countdown

  /** The frame count the pool uses when built without one (the renderer does so). */
  const DEFAULT_FRAMES_IN_FLIGHT: nat := 3

  const BUFFER_USAGE_TRANSFER_SRC: bv32 := 0x1

  /** What the pool asks the buffer builder for. */
  datatype Request = Request(size: nat, usage: bv32, hostVisible: bool)

  datatype Pool = Pool(framesInFlight: nat, active: seq<Countdown.Pending<VulkanBuffers.Buffer>>)

  /** The pool keeps its counters in 1..framesInFlight, non-decreasing front to back. */
  predicate Valid(p: Pool) {
    p.framesInFlight >= 1 && Countdown.Ordered(p.active, p.framesInFlight)
  }

  /** A pool built with `framesInFlight` frames (or the default) and nothing active. */
  function NewPool(framesInFlight: Option<nat>): (p: Pool)
    requires framesInFlight.Some? ==> 1 <= framesInFlight.value && IsU32(framesInFlight.value)
    ensures Valid(p) && p.active == []
    ensures framesInFlight.None? ==> p.framesInFlight == 3
    ensures framesInFlight.Some? ==> p.framesInFlight == framesInFlight.value
  {
    Pool(if framesInFlight.Some? then framesInFlight.value else DEFAULT_FRAMES_IN_FLIGHT, [])
  }

  /** The request GetStagingBuffer makes for a given size. */
  function RequestFor(size: nat): (q: Request)
    ensures q.size == size && q.usage == BUFFER_USAGE_TRANSFER_SRC && q.hostVisible
  {
    Request(size, BUFFER_USAGE_TRANSFER_SRC, true)
  }

  /** GetStagingBuffer: the built buffer (an oracle input) is appended as one new
      entry with the full frame count; the result points at that entry. Nothing is
      reused. Result: (pool, index of the returned buffer). */
  function GetStagingBuffer(p: Pool, built: VulkanBuffers.Buffer): (r: (Pool, nat))
    requires Valid(p)
    ensures Valid(r.0)
    ensures r.0.framesInFlight == p.framesInFlight
    ensures |r.0.active| == |p.active| + 1 && r.0.active[..|p.active|] == p.active
    ensures r.1 == |p.active| && r.0.active[r.1] == Countdown.Pending(built, p.framesInFlight)
  {
    Countdown.AppendKeepsOrdered(p.active, built, p.framesInFlight);
    var active := p.active + [Countdown.Pending(built, p.framesInFlight)];
    assert active[..|p.active|] == p.active;
    (p.(active := active), |p.active|)
  }

  /** Update: one frame passes. Since the counters are ordered, the erased entries
      are exactly a prefix of the list (the ones at 1) and the rest move down by one. */
  function Update(p: Pool): (r: Pool)
    requires Valid(p)
    ensures Valid(r) && r.framesInFlight == p.framesInFlight
    ensures var k := Countdown.Expiring(p.active);
      && k <= |p.active|
      && (forall j :: 0 <= j < k ==> p.active[j].frames == 1)
      && |r.active| == |p.active| - k
      && (forall j :: 0 <= j < |r.active| ==>
            r.active[j] == Countdown.Pending(p.active[k + j].item, p.active[k + j].frames - 1))
  {
    Countdown.TickErasesPrefix(p.active, p.framesInFlight);
    Countdown.DecrementAllShift(p.active, Countdown.Expiring(p.active));
    Countdown.TickKeepsOrdered(p.active, p.framesInFlight);
    p.(active := Countdown.Tick(p.active))
  }

  /** A staging buffer handed out now is still active after framesInFlight - 1
      Update calls and erased by the framesInFlight-th. */
  lemma {:induction false} StagingLifetime(p: Pool, built: VulkanBuffers.Buffer, n: nat)
    requires Valid(p)
    ensures var p1 := GetStagingBuffer(p, built).0;
      && Countdown.WellFormed(p1.active) && Countdown.WellFormed(p.active)
      && (n < p.framesInFlight ==>
           Countdown.TickN(p1.active, n) == Countdown.TickN(p.active, n) + [Countdown.Pending(built, p.framesInFlight - n)])
      && (n >= p.framesInFlight ==> Countdown.TickN(p1.active, n) == Countdown.TickN(p.active, n))
  {
    var p1 := GetStagingBuffer(p, built).0;
    var s := p1.active;
    var i := |p.active|;
    Countdown.OrderedWellFormed(s, p.framesInFlight);
    Countdown.Lifetime(s, i, n);
    assert s[..i] == p.active;
    assert s[i + 1..] == [];
    Countdown.TickNEmpty<VulkanBuffers.Buffer>(n);
  }

  /** The renderer's pool keeps a buffer for exactly three frames. */
  lemma RendererPoolLifetime(built: VulkanBuffers.Buffer)
    ensures var p := GetStagingBuffer(NewPool(None), built).0;
      && Countdown.WellFormed(p.active)
      && Countdown.TickN(p.active, 2) == [Countdown.Pending(built, 1)]
      && Countdown.TickN(p.active, 3) == []
  {
    var p0 := NewPool(None);
    StagingLifetime(p0, built, 2);
    StagingLifetime(p0, built, 3);
    Countdown.TickNEmpty<VulkanBuffers.Buffer>(2);
    Countdown.TickNEmpty<VulkanBuffers.Buffer>(3);
  }
}

=== FILE: texture.dfy ===
/** VulkanTexture: the mip count of a texture and the sequence of barriers and
    blits GenerateMipMaps records to build each layer's mip chain. */
module Texture {
  import opened Common

  // -------------------------------------------------------------------- mips

  /** Number of binary digits of m: floor(log2 m) + 1 for m >= 1. */
  function BitLength(m: nat): (n: nat)
    ensures m >= 1 ==> n >= 1
    ensures m == 0 <==> n == 0
  {
    if m == 0 then 0 else 1 + BitLength(m / 2)
  }

  /** BitLength pins m between consecutive powers of two. */
  lemma {:induction false} BitLengthBounds(m: nat)
    requires m >= 1
    ensures Pow2(BitLength(m) - 1) <= m < Pow2(BitLength(m))
  {
    if m >= 2 {
      BitLengthBounds(m / 2);
    }
  }

  /** Any n with 2^(n-1) <= m < 2^n is the bit length: the floor of log2 plus one is
      unique. */
  lemma {:induction false} BitLengthUnique(m: nat, n: nat)
    requires n >= 1 && Pow2(n - 1) <= m < Pow2(n)
    ensures BitLength(m) == n
  {
    if n > 1 {
      BitLengthUnique(m / 2, n - 1);
    }
  }

  /** Largest component of a dimension vector. */
  function MaxElement(dims: seq<nat>): (m: nat)
    requires |dims| >= 1
    ensures forall i :: 0 <= i < |dims| ==> dims[i] <= m
    ensures exists i :: 0 <= i < |dims| && dims[i] == m
  {
    MaxOfBounds(dims);
    MaxOf(dims)
  }

  /** The largest dimension for which the single-precision log2 of the source and
      the integer bit length agree. */
  const MAX_DIMENSION: nat := 0x1_0000

  /** 2^16 and 2^17, the powers around MAX_DIMENSION. */
  lemma Pow2Sixteen()
    ensures Pow2(16) == MAX_DIMENSION && Pow2(17) == 2 * MAX_DIMENSION
  {
    assert Pow2(4) == 16;
    assert Pow2(8) == 16 * Pow2(4);
    assert Pow2(12) == 16 * Pow2(8);
    assert Pow2(16) == 16 * Pow2(12);
  }

  /** Values below 2^k need at most k binary digits. */
  lemma {:induction false} BitLengthAtMost(m: nat, k: nat)
    requires m < Pow2(k)
    ensures BitLength(m) <= k
  {
    if m > 0 {
      BitLengthAtMost(m / 2, k - 1);
    }
  }

  /** GetMaxMips: one level per halving of the largest dimension down to 1. */
  function GetMaxMips(dims: seq<nat>): (n: nat)
    requires |dims| >= 1 && 1 <= MaxElement(dims) <= MAX_DIMENSION
    ensures 1 <= n <= 17
    ensures n == BitLength(MaxElement(dims))
  {
    Pow2Sixteen();
    BitLengthAtMost(MaxElement(dims), 17);
    BitLength(MaxElement(dims))
  }

  lemma {:induction false} Pow2Mono(a: nat, b: nat)
    requires a <= b
    ensures Pow2(a) <= Pow2(b)
  {
    if a < b {
      Pow2Mono(a, b - 1);
    }
  }

  /** GetMaxMips is floor(log2(max)) + 1: 2^(n-1) <= max < 2^n; the last level is a
      single texel along the largest axis. */
  lemma MaxMipsIsLog2(dims: seq<nat>)
    requires |dims| >= 1 && 1 <= MaxElement(dims) <= MAX_DIMENSION
    ensures var n := GetMaxMips(dims);
      && Pow2(n - 1) <= MaxElement(dims) < Pow2(n)
      && MaxElement(dims) / Pow2(n - 1) == 1
  {
    var m, n := MaxElement(dims), GetMaxMips(dims);
    BitLengthBounds(m);
    DivModUnique(m, Pow2(n - 1), 1, m - Pow2(n - 1));
  }

  /** A 1×1 texture has one level; a 2^k texture has k + 1. */
  lemma {:induction false} MaxMipsOfPowers(k: nat)
    requires k <= 16
    ensures GetMaxMips([1, 1]) == 1
    ensures Pow2(k) <= MAX_DIMENSION && GetMaxMips([Pow2(k), Pow2(k)]) == k + 1
  {
    Pow2Mono(k, 16);
    Pow2Sixteen();
    BitLengthUnique(Pow2(k), k + 1);
    assert MaxElement([1, 1]) == 1;
    assert MaxElement([Pow2(k), Pow2(k)]) == Pow2(k);
  }

  // ------------------------------------------------------------------ defaults

  const FORMAT_UNDEFINED: nat := 0

  datatype TextureState = TextureState(mipCount: nat, layerCount: nat, format: nat, dimensions: seq<nat>)

  /** A texture starts with no levels, no layers and an undefined format. */
  function NewTexture(): (t: TextureState)
    ensures t.mipCount == 0 && t.layerCount == 0 && t.format == FORMAT_UNDEFINED
  {
    TextureState(0, 0, FORMAT_UNDEFINED, [0, 0])
  }

  // ------------------------------------------------------------- mip chain

  const LAYOUT_UNDEFINED: nat := 0
  const LAYOUT_TRANSFER_SRC: nat := 6
  const LAYOUT_TRANSFER_DST: nat := 7

  datatype Extent = Extent(x: nat, y: nat, z: nat)

  /** A recorded command: a layout barrier over mips [baseMip, baseMip + mips) of
      `layers` array layers from `layer`, or a blit between two mips of one layer. */
  datatype MipCommand =
    | Barrier(oldLayout: nat, newLayout: nat, baseMip: nat, mips: nat, layer: nat, layers: nat)
    | Blit(layer: nat, srcMip: nat, srcExtent: Extent, dstMip: nat, dstExtent: Extent)

  /** `x >> m` on a uint32. */
  function Shr(x: nat, m: nat): int {
    x / Pow2(m)
  }

  /** The destination extent of mip m: each axis halved m times, at least 1. */
  function MipExtent(x: nat, y: nat, m: nat): (e: Extent)
    ensures e.x >= 1 && e.y >= 1 && e.z == 1
  {
    Extent(if Shr(x, m) > 1 then Shr(x, m) else 1, if Shr(y, m) > 1 then Shr(y, m) else 1, 1)
  }

  /** The source of the blit producing mip m: the full base extent for mip 1,
      otherwise the previous destination. */
  function SrcExtent(x: nat, y: nat, m: nat): Extent
    requires m >= 1
  {
    if m == 1 then Extent(x, y, 1) else MipExtent(x, y, m - 1)
  }

  /** The three commands that produce mip m of a layer. */
  function MipStep(x: nat, y: nat, layer: nat, m: nat): seq<MipCommand>
    requires m >= 1
  {
    [Barrier(LAYOUT_UNDEFINED, LAYOUT_TRANSFER_DST, m, 1, layer, 1),
     Blit(layer, m - 1, SrcExtent(x, y, m), m, MipExtent(x, y, m)),
     Barrier(LAYOUT_TRANSFER_DST, LAYOUT_TRANSFER_SRC, m, 1, layer, 1)]
  }

  /** The commands for mips 1 .. n-1 of one layer, in increasing mip order. */
  function MipSteps(x: nat, y: nat, layer: nat, n: nat): (s: seq<MipCommand>)
    ensures |s| == if n == 0 then 0 else 3 * (n - 1)
  {
    if n <= 1 then [] else MipSteps(x, y, layer, n - 1) + MipStep(x, y, layer, n - 1)
  }

  /** One layer: make mip 0 a transfer source, build the chain, then move all mips
      to the end layout. */
  function LayerCommands(x: nat, y: nat, mipCount: nat, layer: nat, endLayout: nat): seq<MipCommand> {
    [Barrier(LAYOUT_UNDEFINED, LAYOUT_TRANSFER_SRC, 0, 1, layer, 1)]
    + MipSteps(x, y, layer, mipCount)
    + [Barrier(LAYOUT_TRANSFER_SRC, endLayout, 0, mipCount, layer, 1)]
  }

  /** The layers 0 .. layers-1 in order. */
  function MipChain(x: nat, y: nat, mipCount: nat, layers: nat, endLayout: nat): seq<MipCommand> {
    if layers == 0 then [] else MipChain(x, y, mipCount, layers - 1, endLayout) + LayerCommands(x, y, mipCount, layers - 1, endLayout)
  }

  function LayerOf(c: MipCommand): nat {
    c.layer
  }

  /** Every command addresses exactly one array layer. */
  predicate SingleLayer(c: MipCommand) {
    c.Blit? || c.layers == 1
  }

  /** Every command of c touches one layer below n. */
  predicate LayersBelow(c: seq<MipCommand>, n: nat) {
    forall i :: 0 <= i < |c| ==> LayerOf(c[i]) < n && SingleLayer(c[i])
  }

  /** The layers of c never go back. */
  predicate LayersSorted(c: seq<MipCommand>) {
    forall i, j :: 0 <= i < j < |c| ==> LayerOf(c[i]) <= LayerOf(c[j])
  }

  /** Every command of c touches exactly `layer`. */
  predicate OnLayer(c: seq<MipCommand>, layer: nat) {
    forall i :: 0 <= i < |c| ==> LayerOf(c[i]) == layer && SingleLayer(c[i])
  }

  /** The mip chain of one layer, as the inner loop of GenerateMipMaps records it:
      the blit keeps its source between iterations and takes the previous
      destination as the next source. */
  method RecordLayer(x: nat, y: nat, mipCount: nat, layer: nat, endLayout: nat) returns (layerCmds: seq<MipCommand>)
    ensures layerCmds == LayerCommands(x, y, mipCount, layer, endLayout)
  {
    var steps: seq<MipCommand> := [];
    var srcMip, src := 0, Extent(x, y, 1);
    var mip := 1;
    while mip < mipCount
      invariant 1 <= mip <= if mipCount >= 1 then mipCount else 1
      invariant srcMip == mip - 1 && src == SrcExtent(x, y, mip)
      invariant steps == MipSteps(x, y, layer, mip)
    {
      var dst := MipExtent(x, y, mip);
      steps := steps + [Barrier(LAYOUT_UNDEFINED, LAYOUT_TRANSFER_DST, mip, 1, layer, 1),
                        Blit(layer, srcMip, src, mip, dst),
                        Barrier(LAYOUT_TRANSFER_DST, LAYOUT_TRANSFER_SRC, mip, 1, layer, 1)];
      srcMip, src := mip, dst;
      mip := mip + 1;
    }
    layerCmds := [Barrier(LAYOUT_UNDEFINED, LAYOUT_TRANSFER_SRC, 0, 1, layer, 1)] + steps
      + [Barrier(LAYOUT_TRANSFER_SRC, endLayout, 0, mipCount, layer, 1)];
  }

  /** GenerateMipMaps on a texture of base extent (x, y) with mipCount levels and
      layerCount layers: each layer in turn, every command touching one layer. */
  method GenerateMipMaps(x: nat, y: nat, mipCount: nat, layerCount: nat, endLayout: nat) returns (cmds: seq<MipCommand>)
    ensures cmds == MipChain(x, y, mipCount, layerCount, endLayout)
    ensures LayersBelow(cmds, layerCount) && LayersSorted(cmds)
  {
    cmds := [];
    var layer := 0;
    while layer < layerCount
      invariant 0 <= layer <= layerCount
      invariant cmds == MipChain(x, y, mipCount, layer, endLayout)
    {
      var layerCmds := RecordLayer(x, y, mipCount, layer, endLayout);
      cmds := cmds + layerCmds;
      layer := layer + 1;
    }
    ChainLayers(x, y, mipCount, layerCount, endLayout);
  }

  /** Each command of a layer's block addresses that layer only. */
  lemma {:induction false} MipStepsLayer(x: nat, y: nat, layer: nat, n: nat)
    ensures OnLayer(MipSteps(x, y, layer, n), layer)
  {
    if n > 1 {
      MipStepsLayer(x, y, layer, n - 1);
      var p, q := MipSteps(x, y, layer, n - 1), MipStep(x, y, layer, n - 1);
      assert forall i :: 0 <= i < |p| ==> (p + q)[i] == p[i];
      assert forall i :: |p| <= i < |p + q| ==> (p + q)[i] == q[i - |p|];
    }
  }

  lemma LayerCommandsLayer(x: nat, y: nat, mipCount: nat, layer: nat, endLayout: nat)
    ensures OnLayer(LayerCommands(x, y, mipCount, layer, endLayout), layer)
  {
    MipStepsLayer(x, y, layer, mipCount);
    var a := [Barrier(LAYOUT_UNDEFINED, LAYOUT_TRANSFER_SRC, 0, 1, layer, 1)];
    var b := MipSteps(x, y, layer, mipCount);
    var c := [Barrier(LAYOUT_TRANSFER_SRC, endLayout, 0, mipCount, layer, 1)];
    var l := a + b + c;
    assert forall i :: 1 <= i < 1 + |b| ==> l[i] == b[i - 1];
  }

  /** Appending a block on layer n to commands below n keeps the order. */
  lemma AppendLayer(p: seq<MipCommand>, l: seq<MipCommand>, n: nat)
    requires LayersBelow(p, n) && LayersSorted(p) && OnLayer(l, n)
    ensures LayersBelow(p + l, n + 1) && LayersSorted(p + l)
  {
    var c := p + l;
    assert forall i :: 0 <= i < |p| ==> c[i] == p[i];
    assert forall i :: |p| <= i < |c| ==> c[i] == l[i - |p|];
  }

  /** The chain visits the layers in order, each command touching one layer. */
  lemma {:induction false} ChainLayers(x: nat, y: nat, mipCount: nat, layers: nat, endLayout: nat)
    ensures LayersBelow(MipChain(x, y, mipCount, layers, endLayout), layers)
    ensures LayersSorted(MipChain(x, y, mipCount, layers, endLayout))
  {
    if layers > 0 {
      ChainLayers(x, y, mipCount, layers - 1, endLayout);
      LayerCommandsLayer(x, y, mipCount, layers - 1, endLayout);
      AppendLayer(MipChain(x, y, mipCount, layers - 1, endLayout), LayerCommands(x, y, mipCount, layers - 1, endLayout), layers - 1);
    }
  }

  /** Inside one layer, the blit producing mip m (1 <= m < mipCount) is the
      (3(m-1)+2)-th command: it reads mip m-1 at the previous destination extent
      (the base extent for m = 1) and writes mip m at the halved extent. */
  lemma {:induction false} BlitOfMip(x: nat, y: nat, layer: nat, n: nat, m: nat)
    requires 1 <= m < n
    ensures MipSteps(x, y, layer, n)[3 * (m - 1) + 1] == Blit(layer, m - 1, SrcExtent(x, y, m), m, MipExtent(x, y, m))
  {
    if m < n - 1 {
      BlitOfMip(x, y, layer, n - 1, m);
    }
  }

  /** Shifting right by k + 1 is shifting by k and then halving. */
  lemma ShrSucc(x: nat, k: nat)
    ensures Shr(x, k + 1) == Shr(x, k) / 2
  {
    var p := Pow2(k);
    var q, r := x / p, x % p;
    var q2, r2 := q / 2, q % 2;
    assert x == q * p + r;
    assert q == 2 * q2 + r2;
    assert x == q2 * (2 * p) + (r2 * p + r) by {
      assert q * p == (2 * q2 + r2) * p;
    }
    assert r2 * p + r < 2 * p by { MulMono(r2, 1, p); }
    DivModUnique(x, 2 * p, q2, r2 * p + r);
  }

  /** Each blit halves its source on both axes, rounding down and never below one
      texel: every mip is the previous one halved. */
  lemma BlitHalves(x: nat, y: nat, m: nat)
    requires m >= 1
    ensures var s, d := SrcExtent(x, y, m), MipExtent(x, y, m);
      && d.x == (if s.x / 2 > 1 then s.x / 2 else 1)
      && d.y == (if s.y / 2 > 1 then s.y / 2 else 1)
  {
    ShrSucc(x, m - 1);
    ShrSucc(y, m - 1);
  }

  /** Each layer's block opens with mip 0 becoming a transfer source and closes with
      one transition of all mipCount levels to the end layout. */
  lemma LayerBrackets(x: nat, y: nat, mipCount: nat, layer: nat, endLayout: nat)
    ensures var l := LayerCommands(x, y, mipCount, layer, endLayout);
      && l[0] == Barrier(LAYOUT_UNDEFINED, LAYOUT_TRANSFER_SRC, 0, 1, layer, 1)
      && l[|l| - 1] == Barrier(LAYOUT_TRANSFER_SRC, endLayout, 0, mipCount, layer, 1)
  {
  }
}

=== FILE: texture_builder.dfy ===
/** TextureBuilder: the builder's defaults and command source, the image and view
    parameters GenerateTexture derives, the staging layout of UploadTextureData, the
    usage bracket of the file builds, and the job queue EndTexture and
    WaitForProcessing manage. Vulkan and VMA calls are not modelled; their results
    (an image, a command buffer) are parameters. */
module TextureBuilder {
  import opened Common
  import Texture

  const FORMAT_R8G8B8A8_UNORM: nat := 37
  const LAYOUT_SHADER_READ_ONLY_OPTIMAL: nat := 5
  const USAGE_TRANSFER_SRC: bv32 := 0x1
  const USAGE_TRANSFER_DST: bv32 := 0x2
  const USAGE_SAMPLED: bv32 := 0x4
  const ASPECT_COLOR: bv32 := 0x1
  const STAGE_FRAGMENT_SHADER: nat := 0x80
  /** Faces of a cube map, and the fixed size of a job's data arrays. */
  const CUBE_FACES: nat := 6

  datatype Dims = Dims(x: nat, y: nat, z: nat)

  /** An upload waiting for its fence: its image, up to six face data pointers and
      which of them the builder must free. */
  datatype Job = Job(
    image: nat,
    faceCount: nat,
    dataSrcs: seq<Handle>,
    dataOwnership: seq<bool>,
    endLayout: nat,
    faceByteCount: nat,
    dimensions: Dims)

  predicate JobValid(j: Job) {
    |j.dataSrcs| == CUBE_FACES && |j.dataOwnership| == CUBE_FACES && j.faceCount <= CUBE_FACES
  }

  datatype Builder = Builder(
    generateMips: bool,
    format: nat,
    layout: nat,
    usages: bv32,
    aspects: bv32,
    pipeFlags: nat,
    requestedSize: Dims,
    layerCount: nat,
    cmdBuffer: Handle,
    queue: Handle,
    pool: Handle,
    activeJobs: seq<Job>)

  predicate BuilderValid(b: Builder) {
    IsU32(b.layerCount) && forall j :: j in b.activeJobs ==> JobValid(j)
  }

  // ------------------------------------------------------------- defaults

  /** A new builder: mips on, RGBA8 unorm, shader-read layout, sampled usage, colour
      aspect, fragment-shader stage, one layer, no command source and no jobs. */
  function NewBuilder(): (b: Builder)
    ensures b.generateMips && b.format == FORMAT_R8G8B8A8_UNORM
    ensures b.layout == LAYOUT_SHADER_READ_ONLY_OPTIMAL && b.usages == USAGE_SAMPLED
    ensures b.aspects == ASPECT_COLOR && b.pipeFlags == STAGE_FRAGMENT_SHADER && b.layerCount == 1
    ensures b.cmdBuffer.Null? && b.queue.Null? && b.pool.Null? && b.activeJobs == []
    ensures BuilderValid(b) && SourcesExclusive(b)
  {
    Builder(true, FORMAT_R8G8B8A8_UNORM, LAYOUT_SHADER_READ_ONLY_OPTIMAL, USAGE_SAMPLED, ASPECT_COLOR,
            STAGE_FRAGMENT_SHADER, Dims(0, 0, 0), 1, Null, Null, Null, [])
  }

  // ------------------------------------------------------- command source

  /** The builder records into an external command buffer or into its own from a
      queue and pool, never a mix. */
  predicate SourcesExclusive(b: Builder) {
    b.cmdBuffer.Live? ==> b.queue.Null? && b.pool.Null?
  }

  /** The message the source-setters log when a caller mixes the two sources. */
  const ERR_MIXED_SOURCES: string := "Builder is either passed a command buffer OR uses a queue and pool!"

  /** WithCommandBuffer: refused while a queue or pool is set. */
  function WithCommandBuffer(b: Builder, buffer: Handle): (r: Result<Builder>)
    ensures r.Ok? <==> b.queue.Null? && b.pool.Null?
    ensures r.Ok? ==> r.value.cmdBuffer == buffer && r.value.(cmdBuffer := b.cmdBuffer) == b
  {
    if b.queue.Null? && b.pool.Null? then Ok(b.(cmdBuffer := buffer))
    else Err(ERR_MIXED_SOURCES)
  }

  /** UsingQueue: refused while a command buffer is set. */
  function UsingQueue(b: Builder, queue: Handle): (r: Result<Builder>)
    ensures r.Ok? <==> b.cmdBuffer.Null?
    ensures r.Ok? ==> r.value.queue == queue && r.value.(queue := b.queue) == b
  {
    if b.cmdBuffer.Null? then Ok(b.(queue := queue))
    else Err(ERR_MIXED_SOURCES)
  }

  /** UsingPool: refused while a command buffer is set. */
  function UsingPool(b: Builder, pool: Handle): (r: Result<Builder>)
    ensures r.Ok? <==> b.cmdBuffer.Null?
    ensures r.Ok? ==> r.value.pool == pool && r.value.(pool := b.pool) == b
  {
    if b.cmdBuffer.Null? then Ok(b.(pool := pool))
    else Err(ERR_MIXED_SOURCES)
  }

  /** A source-setting call, for describing any sequence of them. */
  datatype SourceCall = SetCommandBuffer(h: Handle) | SetQueue(h: Handle) | SetPool(h: Handle)

  /** Applies the calls in order, stopping at the first refusal. */
  function ApplyCalls(b: Builder, calls: seq<SourceCall>): Result<Builder>
    decreases |calls|
  {
    if |calls| == 0 then Ok(b) else
      var r := match calls[0]
        case SetCommandBuffer(h) => WithCommandBuffer(b, h)
        case SetQueue(h) => UsingQueue(b, h)
        case SetPool(h) => UsingPool(b, h);
      if r.Err? then r else ApplyCalls(r.value, calls[1..])
  }

  /** Whatever setters a caller chains, a builder that accepts them all never holds
      both an external command buffer and a queue or pool. */
  lemma {:induction false} SettersKeepSourcesExclusive(b: Builder, calls: seq<SourceCall>)
    requires SourcesExclusive(b)
    ensures ApplyCalls(b, calls).Ok? ==> SourcesExclusive(ApplyCalls(b, calls).value)
    decreases |calls|
  {
    if |calls| > 0 {
      var r := match calls[0]
        case SetCommandBuffer(h) => WithCommandBuffer(b, h)
        case SetQueue(h) => UsingQueue(b, h)
        case SetPool(h) => UsingPool(b, h);
      if r.Ok? {
        SettersKeepSourcesExclusive(r.value, calls[1..]);
      }
    }
  }

  /** Where a build records its commands: the caller's buffer, a fresh buffer of
      the builder's own, or nothing at all. */
  datatype CmdSource = External(buffer: nat) | OwnBuffer | NoBuffer

  /** BeginTexture as written: with neither source, its check asserts a constant
      true, so the build goes on with no command buffer. */
  function BeginTextureAsWritten(b: Builder): (s: CmdSource)
    ensures s.External? <==> b.cmdBuffer.Live?
    ensures s.External? ==> b.cmdBuffer == Live(s.buffer)
    ensures s.OwnBuffer? <==> b.cmdBuffer.Null? && b.queue.Live? && b.pool.Live?
  {
    if b.cmdBuffer.Live? then External(b.cmdBuffer.id)
    else if b.queue.Live? && b.pool.Live? then OwnBuffer
    else NoBuffer
  }

  /** BeginTexture with its evident intent: a builder with no command source
      refuses to build. */
  function BeginTexture(b: Builder): (r: Result<CmdSource>)
    ensures r.Ok? <==> b.cmdBuffer.Live? || (b.queue.Live? && b.pool.Live?)
    ensures r.Ok? ==> r.value == BeginTextureAsWritten(b) && !r.value.NoBuffer?
  {
    var s := BeginTextureAsWritten(b);
    if s.NoBuffer? then Err("Cannot build without either a command buffer OR a queue and pool") else Ok(s)
  }

  /** A freshly constructed builder has no command source: as written, BeginTexture
      lets its build go on with no command buffer; corrected, it is refused. */
  lemma BeginWithoutSourceProceeds()
    ensures BeginTextureAsWritten(NewBuilder()) == NoBuffer
    ensures BeginTexture(NewBuilder()).Err?
  {
  }

  // ------------------------------------------------------ image parameters

  datatype ImageType = Image2D | Image3D
  datatype ViewType = View2D | View2DArray | View3D | ViewCube | ViewCubeArray

  /** What GenerateTexture asks of Vulkan and records on the texture. */
  datatype ImageParams = ImageParams(
    imageType: ImageType,
    extent: Dims,
    format: nat,
    usage: bv32,
    mipLevels: nat,
    arrayLayers: nat,
    cubeCompatible: bool,
    viewType: ViewType,
    textureLayers: nat,
    textureDims: seq<nat>)

  /** Adding both transfer usages keeps the original ones. */
  lemma MipUsages(u: bv32)
    ensures var a := u | USAGE_TRANSFER_SRC | USAGE_TRANSFER_DST;
      Covers(a, u) && Covers(a, USAGE_TRANSFER_SRC) && Covers(a, USAGE_TRANSFER_DST)
  {
  }

  /** The usages an image is created with: the requested ones, plus both transfer
      usages when its mips will be generated by blits. */
  function ImageUsage(u: bv32, generateMips: bool): (r: bv32)
    ensures Covers(r, u)
    ensures generateMips ==> Covers(r, USAGE_TRANSFER_SRC) && Covers(r, USAGE_TRANSFER_DST)
    ensures !generateMips ==> r == u
  {
    MipUsages(u);
    CoversSelf(u);
    if generateMips then u | USAGE_TRANSFER_SRC | USAGE_TRANSFER_DST else u
  }

  /** The dimensions GetMaxMips accepts: some side non-zero, none above 2^16. */
  predicate MipDomain(d: seq<nat>) {
    |d| >= 1 && 1 <= Texture.MaxElement(d) <= Texture.MAX_DIMENSION
  }

  function Vec(d: Dims): seq<nat> {
    [d.x, d.y, d.z]
  }

  /** GenerateTexture: six layers per requested layer for a cube (a uint32_t
      product), a 3D image exactly when the depth exceeds one, a full mip chain or a
      single level, and transfer usage added when mips are to be generated. */
  function GenerateTexture(b: Builder, d: Dims, isCube: bool): (p: ImageParams)
    requires MipDomain(Vec(d))
    ensures p.arrayLayers == ToU32(if isCube then CUBE_FACES * b.layerCount else b.layerCount)
    ensures p.imageType == Image3D <==> d.z > 1
    ensures p.mipLevels == if b.generateMips then Texture.GetMaxMips(Vec(d)) else 1
    ensures Covers(p.usage, b.usages)
    ensures b.generateMips ==> Covers(p.usage, USAGE_TRANSFER_SRC) && Covers(p.usage, USAGE_TRANSFER_DST)
    ensures !b.generateMips ==> p.usage == b.usages
    ensures p.cubeCompatible == isCube && p.textureLayers == p.arrayLayers
    ensures p.extent == d && p.format == b.format && p.textureDims == [d.x, d.y]
  {
    var genLayerCount := ToU32(if isCube then CUBE_FACES * b.layerCount else b.layerCount);
    ImageParams(if d.z > 1 then Image3D else Image2D, d, b.format, ImageUsage(b.usages, b.generateMips),
                MipLevels(b.generateMips, d), genLayerCount, isCube, DefaultView(isCube, b.layerCount, d.z),
                genLayerCount, [d.x, d.y])
  }

  /** The mip level count: the full chain when mips are generated, else one. */
  function MipLevels(generateMips: bool, d: Dims): nat
    requires MipDomain(Vec(d))
  {
    if generateMips then Texture.GetMaxMips(Vec(d)) else 1
  }

  /** The view type GenerateTexture picks for the default view. */
  function DefaultView(isCube: bool, layerCount: nat, depth: nat): ViewType {
    if isCube then (if layerCount > 1 then ViewCubeArray else ViewCube)
    else if depth > 1 then View3D
    else if layerCount > 1 then View2DArray
    else View2D
  }

  /** The default view agrees with the image: a cube view exactly for cube-compatible
      images, a 3D view exactly for 3D images that are not cubes, an array view
      exactly when more than one layer was requested (3D aside). */
  lemma ViewMatchesImage(b: Builder, d: Dims, isCube: bool)
    requires MipDomain(Vec(d))
    ensures var p := GenerateTexture(b, d, isCube);
      && (p.viewType.ViewCube? || p.viewType.ViewCubeArray? <==> p.cubeCompatible)
      && (p.viewType.View3D? <==> p.imageType == Image3D && !isCube)
      && (!p.viewType.View3D? ==> (p.viewType.View2DArray? || p.viewType.ViewCubeArray? <==> b.layerCount > 1))
  {
  }

  /** An image whose mips will be blitted can be both the source and the destination
      of a transfer. */
  lemma MippedImagesAllowBlits(b: Builder, d: Dims, isCube: bool)
    requires MipDomain(Vec(d))
    ensures var p := GenerateTexture(b, d, isCube);
      p.mipLevels > 1 ==> Covers(p.usage, USAGE_TRANSFER_SRC) && Covers(p.usage, USAGE_TRANSFER_DST)
  {
  }

  /** A cube map of n requested layers holds 6n image layers (for n below 2^32 / 6). */
  lemma CubeLayers(b: Builder, d: Dims)
    requires MipDomain(Vec(d)) && CUBE_FACES * b.layerCount < U32_LIMIT
    ensures GenerateTexture(b, d, true).arrayLayers == CUBE_FACES * b.layerCount
    ensures GenerateTexture(b, d, true).arrayLayers % CUBE_FACES == 0
  {
  }

  // -------------------------------------------------------------- staging

  /** The staging layout of one upload. */
  datatype Upload = Upload(stagingSize: nat, faceOffsets: seq<nat>, copyLayers: nat, copyExtent: Dims)

  /** The staging size as written: the product is stored into an `int`, then passed
      on as a size_t, so it is reduced modulo 2^32 and a negative value becomes
      2^64 less its magnitude. */
  function StagingSizeAsWritten(faceByteCount: nat, faceCount: nat): (n: nat)
    ensures faceByteCount * faceCount < 0x8000_0000 ==> n == faceByteCount * faceCount
  {
    var i := ToI32(ToU32(faceByteCount * faceCount));
    if i < 0 then i + 0x1_0000_0000_0000_0000 else i
  }

  /** A 32768 × 16384 RGBA8 face loaded from a file is 2^31 bytes. That fits the
      uint32 face size, but the `int` makes it negative, so the staging request is
      2^64 - 2^31 bytes. A face of 2^32 bytes or more can reach the `int` only
      through BuildFromData's size_t byte count, and only if the job's face size
      is wider than 32 bits; it then gets an empty staging buffer. */
  lemma StagingSizeTruncates()
    ensures FileFaceBytes(Dims(32768, 16384, 1), 4) == 0x8000_0000
    ensures StagingSizeAsWritten(FileFaceBytes(Dims(32768, 16384, 1), 4), 1) == 0x1_0000_0000_0000_0000 - 0x8000_0000
    ensures StagingSizeAsWritten(0x1_0000_0000, 1) == 0
  {
  }

  /** UploadTextureData: one staging buffer of faceCount × faceByteCount bytes, face
      i written at offset i × faceByteCount, and one copy of faceCount layers of the
      job's extent. */
  method UploadTextureData(job: Job) returns (u: Upload)
    ensures u.stagingSize == job.faceByteCount * job.faceCount
    ensures |u.faceOffsets| == job.faceCount
    ensures forall i :: 0 <= i < job.faceCount ==> u.faceOffsets[i] == i * job.faceByteCount
    ensures forall i :: 0 <= i < job.faceCount ==> u.faceOffsets[i] + job.faceByteCount <= u.stagingSize
    ensures forall i, k :: 0 <= i < k < job.faceCount ==> u.faceOffsets[i] + job.faceByteCount <= u.faceOffsets[k]
    ensures u.copyLayers == job.faceCount && u.copyExtent == job.dimensions
  {
    var size := job.faceByteCount * job.faceCount;
    var offsets: seq<nat> := [];
    var gpuPtr := 0;
    var i := 0;
    while i < job.faceCount
      invariant 0 <= i <= job.faceCount && |offsets| == i
      invariant gpuPtr == i * job.faceByteCount
      invariant forall k :: 0 <= k < i ==> offsets[k] == k * job.faceByteCount
    {
      offsets := offsets + [gpuPtr];
      gpuPtr := gpuPtr + job.faceByteCount;
      i := i + 1;
    }
    forall k | 0 <= k < job.faceCount
      ensures offsets[k] + job.faceByteCount <= size
    {
      MulMono(k + 1, job.faceCount, job.faceByteCount);
    }
    forall a, k | 0 <= a < k < job.faceCount
      ensures offsets[a] + job.faceByteCount <= offsets[k]
    {
      MulMono(a + 1, k, job.faceByteCount);
    }
    u := Upload(size, offsets, job.faceCount, job.dimensions);
  }

  // ----------------------------------------------------------- file builds

  /** Bytes per face of a loaded image: width × height × depth × channels, a
      uint32_t product. */
  function FileFaceBytes(d: Dims, channels: nat): (n: nat)
    ensures IsU32(n)
    ensures d.x * d.y * d.z * channels < U32_LIMIT ==> n == d.x * d.y * d.z * channels
  {
    ToU32(d.x * d.y * d.z * channels)
  }

  /** The job of BuildFromData: one face the caller keeps ownership of. */
  function DataJob(b: Builder, image: nat, data: Handle, byteCount: nat): (j: Job)
    ensures JobValid(j) && j.faceCount == 1 && j.dataSrcs[0] == data
    ensures forall i :: 0 <= i < CUBE_FACES ==> !j.dataOwnership[i]
    ensures j.faceByteCount == byteCount && j.dimensions == b.requestedSize && j.endLayout == b.layout
  {
    Job(image, 1, [data] + Repeat(CUBE_FACES - 1, Null), Repeat(CUBE_FACES, false), b.layout, byteCount, b.requestedSize)
  }

  /** The job of BuildFromFile (one face) or BuildCubemapFromFile (six faces): the
      builder owns every loaded face; sizes come from the first face. */
  function FileJob(b: Builder, image: nat, faces: seq<Handle>, d: Dims, channels: nat): (j: Job)
    requires 1 <= |faces| <= CUBE_FACES
    ensures JobValid(j) && j.faceCount == |faces| && j.dataSrcs[..|faces|] == faces
    ensures forall i :: 0 <= i < CUBE_FACES ==> (j.dataOwnership[i] <==> i < |faces|)
    ensures j.faceByteCount == FileFaceBytes(d, channels) && j.dimensions == d && j.endLayout == b.layout
  {
    var srcs := faces + Repeat(CUBE_FACES - |faces|, Null);
    assert srcs[..|faces|] == faces;
    Job(image, |faces|, srcs, Repeat(|faces|, true) + Repeat(CUBE_FACES - |faces|, false),
        b.layout, FileFaceBytes(d, channels), d)
  }

  // ------------------------------------------------------------ end of build

  /** What EndTexture did: the mip count it set (if any), the data it freed and
      whether it submitted and waited. */
  datatype EndResult = EndResult(builder: Builder, mipCount: Option<nat>, freed: seq<Handle>, submitted: bool)

  /** The live data of the first n faces whose ownership flag is as given (all
      faces when `ownedOnly` is false). */
  function FacesToFree(j: Job, n: nat, ownedOnly: bool): (s: seq<Handle>)
    requires JobValid(j) && n <= CUBE_FACES
    ensures forall h :: h in s ==> h.Live? && exists i :: 0 <= i < n && j.dataSrcs[i] == h && (ownedOnly ==> j.dataOwnership[i])
    ensures forall i :: 0 <= i < n && j.dataSrcs[i].Live? && (ownedOnly ==> j.dataOwnership[i]) ==> j.dataSrcs[i] in s
  {
    if n == 0 then [] else
      var rest := FacesToFree(j, n - 1, ownedOnly);
      var h := j.dataSrcs[n - 1];
      if h.Live? && (!ownedOnly || j.dataOwnership[n - 1]) then rest + [h] else rest
  }

  /** The data the job's owner must free: live, owned faces. */
  function OwnedData(j: Job): seq<Handle>
    requires JobValid(j)
  {
    FacesToFree(j, j.faceCount, true)
  }

  /** EndTexture: mips are generated when enabled and the 2D extent allows more
      than one level; with its own command buffer the builder submits, waits and
      frees the job's owned data, otherwise the job is queued. */
  function EndTexture(b: Builder, source: CmdSource, texDims: seq<nat>, job: Job): (r: EndResult)
    requires JobValid(job) && (b.generateMips ==> MipDomain(texDims))
    ensures r.mipCount.Some? <==> b.generateMips && Texture.GetMaxMips(texDims) > 1
    ensures r.mipCount.Some? ==> r.mipCount.value == Texture.GetMaxMips(texDims)
    ensures source.OwnBuffer? ==> r.submitted && r.builder == b && r.freed == OwnedData(job)
    ensures !source.OwnBuffer? ==> !r.submitted && r.freed == [] && r.builder == b.(activeJobs := b.activeJobs + [job])
  {
    var mips := if b.generateMips && Texture.GetMaxMips(texDims) > 1 then Some(Texture.GetMaxMips(texDims)) else None;
    if source.OwnBuffer? then EndResult(b, mips, OwnedData(job), true)
    else EndResult(b.(activeJobs := b.activeJobs + [job]), mips, [], false)
  }

  /** A finished file or cube-map build. */
  datatype Built = Built(builder: Builder, params: ImageParams, job: Job, upload: Upload, end: EndResult)

  /** The image a file build creates: GenerateTexture with transfer-dst added to
      the builder's usages, so the upload can write the image. */
  function FileImageParams(b: Builder, d: Dims, isCube: bool): (p: ImageParams)
    requires MipDomain(Vec(d))
    ensures Covers(p.usage, USAGE_TRANSFER_DST) && Covers(p.usage, b.usages)
    ensures p.cubeCompatible == isCube
  {
    var u := b.usages | USAGE_TRANSFER_DST;
    var b2 := b.(usages := u);
    var p := GenerateTexture(b2, d, isCube);
    CoversOr(p.usage, b.usages, USAGE_TRANSFER_DST);
    p
  }

  /** BuildFromFile (one face) and BuildCubemapFromFile (six): transfer-dst usage is
      added for the image's creation and the builder's own usages restored after;
      the staging buffer holds every face and the builder owns them all. */
  method BuildFromFiles(b: Builder, image: nat, faces: seq<Handle>, d: Dims, channels: nat) returns (r: Result<Built>)
    requires |faces| == 1 || |faces| == CUBE_FACES
    requires MipDomain(Vec(d)) && MipDomain([d.x, d.y])
    ensures r.Ok? <==> BeginTexture(b).Ok?
    ensures r.Ok? ==> Covers(r.value.params.usage, USAGE_TRANSFER_DST) && Covers(r.value.params.usage, b.usages)
    ensures r.Ok? ==> r.value.builder.usages == b.usages
    ensures r.Ok? ==> r.value.params.cubeCompatible == (|faces| == CUBE_FACES)
    ensures r.Ok? ==> r.value.upload.stagingSize == |faces| * FileFaceBytes(d, channels)
    ensures r.Ok? ==> r.value.job == FileJob(b, image, faces, d, channels)
  {
    var source := BeginTexture(b);
    if source.Err? {
      return Err(source.reason);
    }
    var realUsages := b.usages;
    var building := b.(usages := b.usages | USAGE_TRANSFER_DST);
    var params := FileImageParams(b, d, |faces| == CUBE_FACES);
    var job := FileJob(building, image, faces, d, channels);
    assert job == FileJob(b, image, faces, d, channels);
    var upload := UploadTextureData(job);
    var end := EndTexture(building, source.value, params.textureDims, job);
    r := Ok(Built(end.builder.(usages := realUsages), params, job, upload, end));
  }

  /** The builder owns every face of a file job, so all its loaded data is owned. */
  lemma FileJobOwnsAll(b: Builder, image: nat, faces: seq<Handle>, d: Dims, channels: nat)
    requires 1 <= |faces| <= CUBE_FACES
    ensures var j := FileJob(b, image, faces, d, channels);
      OwnedData(j) == FacesToFree(j, |faces|, false)
  {
    var j := FileJob(b, image, faces, d, channels);
    assert forall i :: 0 <= i < j.faceCount ==> j.dataOwnership[i];
    OwnedIsAll(j);
  }

  /** For a file job every face is owned, so the owned data is all the live data. */
  lemma OwnedIsAll(j: Job)
    requires JobValid(j) && forall i :: 0 <= i < j.faceCount ==> j.dataOwnership[i]
    ensures OwnedData(j) == FacesToFree(j, j.faceCount, false)
  {
    FacesAgree(j, j.faceCount);
  }

  lemma {:induction false} FacesAgree(j: Job, n: nat)
    requires JobValid(j) && n <= CUBE_FACES && forall i :: 0 <= i < n ==> j.dataOwnership[i]
    ensures FacesToFree(j, n, true) == FacesToFree(j, n, false)
  {
    if n > 0 {
      FacesAgree(j, n - 1);
    }
  }

  // -------------------------------------------------------------- job queue

  /** IsProcessing(): some job is still queued. */
  function IsProcessing(b: Builder): (busy: bool)
    ensures busy <==> exists j :: j in b.activeJobs
  {
    assert |b.activeJobs| > 0 ==> b.activeJobs[0] in b.activeJobs;
    |b.activeJobs| > 0
  }

  /** IsProcessing(name): answers false whatever the queue holds. */
  function IsProcessingNamed(b: Builder, name: string): (busy: bool)
    ensures !busy
  {
    if |b.activeJobs| == 0 then false else false
  }

  /** The handles freed by waiting on the jobs js, all six slots of each (as
      written) or only its owned faces (corrected). */
  function FreedByWait(js: seq<Job>, ownedOnly: bool): seq<Handle>
    requires forall j :: j in js ==> JobValid(j)
  {
    if |js| == 0 then [] else
      var last := js[|js| - 1];
      FreedByWait(js[..|js| - 1], ownedOnly) + FacesToFree(last, if ownedOnly then last.faceCount else CUBE_FACES, ownedOnly)
  }

  /** WaitForProcessing as written: every job's six data slots are freed, whoever
      owns them, and the queue is emptied. */
  function WaitForProcessingAsWritten(b: Builder): (r: (Builder, seq<Handle>))
    requires BuilderValid(b)
    ensures !IsProcessing(r.0) && r.0 == b.(activeJobs := [])
  {
    (b.(activeJobs := []), FreedByWait(b.activeJobs, false))
  }

  /** WaitForProcessing with its evident intent: as EndTexture does for builds on
      the builder's own buffer, only the data the job owns is freed. */
  function WaitForProcessing(b: Builder): (r: (Builder, seq<Handle>))
    requires BuilderValid(b)
    ensures !IsProcessing(r.0) && r.0 == b.(activeJobs := [])
    ensures forall h :: h in r.1 ==> exists j :: j in b.activeJobs && h in OwnedData(j)
    ensures forall j, h :: j in b.activeJobs && h in OwnedData(j) ==> h in r.1
  {
    FreedOwned(b.activeJobs);
    (b.(activeJobs := []), FreedByWait(b.activeJobs, true))
  }

  lemma {:induction false} FreedOwned(js: seq<Job>)
    requires forall j :: j in js ==> JobValid(j)
    ensures forall h :: h in FreedByWait(js, true) ==> exists j :: j in js && h in OwnedData(j)
    ensures forall j, h :: j in js && h in OwnedData(j) ==> h in FreedByWait(js, true)
  {
    if |js| > 0 {
      var init, last := js[..|js| - 1], js[|js| - 1];
      assert forall j :: j in init ==> j in js;
      FreedOwned(init);
      assert js == init + [last];
      var f := FreedByWait(js, true);
      assert f == FreedByWait(init, true) + OwnedData(last);
      forall h | h in f
        ensures exists j :: j in js && h in OwnedData(j)
      {
        if h in FreedByWait(init, true) {
          var j :| j in init && h in OwnedData(j);
          assert j in js;
        } else {
          assert last in js;
        }
      }
    }
  }

  /** Whichever way a build ends, the data it owns is freed exactly by its owner's
      step: at once on the builder's own buffer, or by the (corrected) wait when the
      job was queued on an idle builder. */
  lemma OwnedDataFreedEitherWay(b: Builder, texDims: seq<nat>, job: Job)
    requires BuilderValid(b) && JobValid(job) && b.activeJobs == [] && (b.generateMips ==> MipDomain(texDims))
    ensures EndTexture(b, OwnBuffer, texDims, job).freed == OwnedData(job)
    ensures var e := EndTexture(b, External(0), texDims, job);
      e.freed == [] && WaitForProcessing(e.builder).1 == OwnedData(job)
  {
    var e := EndTexture(b, External(0), texDims, job);
    assert e.builder.activeJobs == [job];
    assert e.builder.activeJobs[..0] == [];
    assert FreedByWait([job], true) == FreedByWait([], true) + OwnedData(job);
  }

  /** A caller builds from its own data into its own command buffer: the job keeps
      the caller's ownership, yet the wait as written frees that data; the corrected
      wait frees nothing. */
  lemma WaitFreesCallerData(b: Builder, image: nat, data: Handle, byteCount: nat, texDims: seq<nat>)
    requires BuilderValid(b) && b.activeJobs == [] && b.cmdBuffer.Live? && data.Live?
    requires b.generateMips ==> MipDomain(texDims)
    ensures var job := DataJob(b, image, data, byteCount);
      var e := EndTexture(b, BeginTextureAsWritten(b), texDims, job);
      && !e.submitted
      && OwnedData(job) == []
      && data in WaitForProcessingAsWritten(e.builder).1
      && WaitForProcessing(e.builder).1 == []
  {
    var job := DataJob(b, image, data, byteCount);
    var e := EndTexture(b, BeginTextureAsWritten(b), texDims, job);
    assert e.builder.activeJobs == [job];
    FreedBySingleWait(job, true);
    FreedBySingleWait(job, false);
    NothingOwned(job, job.faceCount);
  }

  /** Waiting on a single job frees exactly that job's faces. */
  lemma FreedBySingleWait(j: Job, ownedOnly: bool)
    requires JobValid(j)
    ensures FreedByWait([j], ownedOnly) == FacesToFree(j, if ownedOnly then j.faceCount else CUBE_FACES, ownedOnly)
  {
    assert [j][..0] == [];
  }

  /** A job that owns none of its faces has no owned data to free. */
  lemma {:induction false} NothingOwned(j: Job, n: nat)
    requires JobValid(j) && n <= CUBE_FACES && forall i :: 0 <= i < CUBE_FACES ==> !j.dataOwnership[i]
    ensures FacesToFree(j, n, true) == []
  {
    if n > 0 {
      NothingOwned(j, n - 1);
    }
  }
}

=== FILE: vma_memory.dfy ===
/** The VMA-backed memory manager: buffer creation flags, deferred and immediate
    buffer discards, the frame countdown of deferred deletions, the image allocation
    map, and the move operations of VMABuffer that carry the allocation around. */
module VmaMemory {
  import opened Common
  import VulkanBuffers
  import Countdown

  // Vulkan and VMA flag bits used by the manager.
  const MEMORY_PROPERTY_HOST_VISIBLE: bv32 := 0x2
  const MEMORY_PROPERTY_HOST_COHERENT: bv32 := 0x4
  const ALLOCATION_CREATE_MAPPED: bv32 := 0x4
  const ALLOCATION_CREATE_HOST_ACCESS_RANDOM: bv32 := 0x800
  const BUFFER_USAGE_TRANSFER_SRC: bv32 := 0x1
  const BUFFER_USAGE_SHADER_DEVICE_ADDRESS: bv32 := 0x20000

  /** A VMABuffer: the VulkanBuffer fields plus the VMA allocation, its info block
      and the allocator that owns it (Null once destroyed or moved from). */
  datatype VmaBuffer = VmaBuffer(base: VulkanBuffers.Buffer, allocation: Handle, info: nat, allocator: Handle)

  /** The allocation Destroy would release: only a buffer with an allocator holds one. */
  function Held(b: VmaBuffer): Option<Handle> {
    if b.allocator != Null then Some(b.allocation) else None
  }

  /** VMABuffer::Destroy: releases the allocation when an allocator is set, then
      nulls allocator, allocation and buffer handle. Result: (buffer, released). */
  function Destroy(b: VmaBuffer): (r: (VmaBuffer, Option<Handle>))
    ensures r.1 == Held(b)
    ensures Held(r.0) == None
    ensures b.allocator != Null ==>
      r.0.allocator == Null && r.0.allocation == Null && r.0.base.buffer == Null
    ensures b.allocator == Null ==> r.0 == b
    ensures r.0.base.size == b.base.size && r.0.base.manager == b.base.manager
  {
    if b.allocator != Null then
      (b.(allocator := Null, allocation := Null, base := b.base.(buffer := Null)), Some(b.allocation))
    else (b, None)
  }

  /** A second Destroy does nothing, so the destructor (which always calls Destroy)
      releases nothing for a buffer already destroyed or moved from. */
  lemma DestroyIdempotent(b: VmaBuffer)
    ensures Destroy(Destroy(b).0) == (Destroy(b).0, None)
  {
  }

  /** The state a moved-from VMABuffer is left in. */
  function MovedFrom(b: VmaBuffer): VmaBuffer {
    b.(allocator := Null, allocation := Null, base := b.base.(buffer := Null))
  }

  /** Move construction: the VulkanBuffer part moves as VulkanBuffer's move
      constructor does, then allocation, info and allocator are taken over and the
      source's allocator, allocation and buffer are nulled. Result: (new, source). */
  function MoveConstruct(src: VmaBuffer): (r: (VmaBuffer, VmaBuffer))
    ensures Held(r.0) == Held(src) && Held(r.1) == None
    ensures r.0 == src
    ensures VulkanBuffers.Owned(r.1.base) == None
  {
    var (nb, ob) := VulkanBuffers.MoveConstruct(src.base);
    (VmaBuffer(nb, src.allocation, src.info, src.allocator), MovedFrom(src.(base := ob)))
  }

  /** Move assignment as written: only allocation, info and allocator are taken over;
      the target keeps its own VulkanBuffer fields and its previous allocation is
      dropped without release. Result: (target, source). */
  function MoveAssign(dst: VmaBuffer, src: VmaBuffer, aliased: bool): (r: (VmaBuffer, VmaBuffer))
    requires aliased ==> dst == src
    ensures aliased ==> r == (dst, dst)
    ensures !aliased ==> Held(r.0) == Held(src) && Held(r.1) == None
    ensures !aliased ==> r.0.base == dst.base && r.1.base.buffer == Null
  {
    if aliased then (dst, dst)
    else (dst.(allocation := src.allocation, info := src.info, allocator := src.allocator), MovedFrom(src))
  }

  /** The as-written assignment over a buffer that holds an allocation loses it:
      neither object holds it afterwards and it was not released; the target also
      pairs its old buffer handle with the source's allocation. */
  lemma MoveAssignLosesAllocation()
    ensures var dst := VmaBuffer(VulkanBuffers.Buffer(Live(1), 64, 0, Live(0), 0), Live(10), 0, Live(0));
      var src := VmaBuffer(VulkanBuffers.Buffer(Live(2), 64, 0, Live(0), 0), Live(20), 0, Live(0));
      var (d, s) := MoveAssign(dst, src, false);
      Held(dst) == Some(Live(10)) && Held(d) == Some(Live(20)) && Held(s) == None
      && d.base.buffer == Live(1)
  {
  }

  /** Move assignment that destroys the target first and then takes over every
      field. Result: (target, source, released). */
  function MoveAssignReleasing(dst: VmaBuffer, src: VmaBuffer, aliased: bool): (r: (VmaBuffer, VmaBuffer, Option<Handle>))
    requires aliased ==> dst == src
    ensures aliased ==> r == (dst, dst, None)
    ensures !aliased ==> r.0 == src && Held(r.1) == None && r.2 == Held(dst)
  {
    if aliased then (dst, dst, None)
    else
      var (nb, ob) := VulkanBuffers.MoveAssign(Destroy(dst).0.base, src.base, false);
      (VmaBuffer(nb, src.allocation, src.info, src.allocator), MovedFrom(src.(base := ob)), Held(dst))
  }

  /** Every allocation held before a releasing move is held by exactly one object,
      or released, afterwards. */
  lemma MoveAssignReleasingConserves(dst: VmaBuffer, src: VmaBuffer)
    ensures var (d, s, back) := MoveAssignReleasing(dst, src, false);
      multiset{Held(d), Held(s), back} == multiset{Held(src), Held(dst), None}
  {
  }

  /** The element a slot ends up with after one as-written shift step. */
  function Shifted(v: seq<VmaBuffer>, i: nat, k: nat): VmaBuffer
    requires i <= k && k + 1 < |v|
  {
    var target := if k == i then v[k] else MovedFrom(v[k]);
    target.(allocation := v[k + 1].allocation, info := v[k + 1].info, allocator := v[k + 1].allocator)
  }

  /** `std::vector::erase` at position i of the deferred list, with the as-written
      assignment. The allocations shift down correctly, but the erased entry's
      allocation is never released, the slot it leaves keeps the erased buffer
      handle, and every later survivor is left with a null buffer handle. */
  method EraseAsWritten(v: seq<VmaBuffer>, i: nat) returns (w: seq<VmaBuffer>, released: seq<Handle>)
    requires i < |v|
    ensures |w| == |v| - 1
    ensures w[..i] == v[..i]
    ensures forall k :: i <= k < |w| ==> Held(w[k]) == Held(v[k + 1])
    ensures i < |w| ==> w[i].base == v[i].base
    ensures forall k :: i < k < |w| ==> w[k].base.buffer == Null
    ensures i + 1 < |v| ==> released == []
    ensures i + 1 == |v| ==> released == (if Held(v[i]).Some? then [Held(v[i]).value] else [])
  {
    var a := v;
    var j := i;
    while j + 1 < |a|
      invariant i <= j < |a| == |v|
      invariant a[..i] == v[..i]
      invariant forall k :: i <= k < j ==> a[k] == Shifted(v, i, k)
      invariant a[j] == if j == i then v[i] else MovedFrom(v[j])
      invariant a[j + 1..] == v[j + 1..]
    {
      assert a[j + 1] == v[j + 1];
      var (d, s) := MoveAssign(a[j], a[j + 1], false);
      a := a[..j] + [d, s] + a[j + 2..];
      j := j + 1;
    }
    var (_, rel) := Destroy(a[j]);
    released := if rel.Some? then [rel.value] else [];
    w := a[..j];
  }

  /** The same erase with the releasing assignment: survivors are exactly the other
      entries, in order, and exactly the erased entry's allocation is released. */
  method EraseReleasing(v: seq<VmaBuffer>, i: nat) returns (w: seq<VmaBuffer>, released: seq<Handle>)
    requires i < |v|
    ensures w == v[..i] + v[i + 1..]
    ensures released == (if Held(v[i]).Some? then [Held(v[i]).value] else [])
  {
    var a := v;
    var j := i;
    released := [];
    while j + 1 < |a|
      invariant i <= j < |a| == |v|
      invariant a[..j] == v[..i] + v[i + 1..j + 1]
      invariant a[j + 1..] == v[j + 1..]
      invariant j > i ==> Held(a[j]) == None
      invariant j == i ==> a[j] == v[i]
      invariant released == (if j > i && Held(v[i]).Some? then [Held(v[i]).value] else [])
    {
      var (d, s, back) := MoveAssignReleasing(a[j], a[j + 1], false);
      if back.Some? {
        released := released + [back.value];
      }
      a := a[..j] + [d, s] + a[j + 2..];
      j := j + 1;
    }
    var (_, rel) := Destroy(a[j]);
    if rel.Some? {
      released := released + [rel.value];
    }
    w := a[..j];
  }

  /** What CreateBuffer hands to vmaCreateBuffer besides the buffer create info. */
  datatype AllocationRequest = AllocationRequest(requiredFlags: bv32, flags: bv32)

  /** CreateBuffer: the new VMABuffer records the requested size and the manager; the
      allocation flags gain random host access for host-visible or host-coherent
      memory and persistent mapping for host-coherent memory; the device address is
      queried only for buffers with shader-device-address usage. The VMA results
      (buffer, allocation, info, address) are oracle inputs. */
  function CreateBuffer(manager: Handle, allocator: Handle, size: nat, usage: bv32, memProperties: bv32,
                        buffer: Handle, allocation: Handle, info: nat, queriedAddress: nat): (r: (VmaBuffer, AllocationRequest))
    requires allocator != Null
    ensures r.0.base.size == size && r.0.base.buffer == buffer && r.0.base.manager == manager
    ensures Held(r.0) == Some(allocation)
    ensures r.1.requiredFlags == memProperties
    ensures (r.1.flags & ALLOCATION_CREATE_HOST_ACCESS_RANDOM != 0)
      <==> (memProperties & (MEMORY_PROPERTY_HOST_VISIBLE | MEMORY_PROPERTY_HOST_COHERENT) != 0)
    ensures (r.1.flags & ALLOCATION_CREATE_MAPPED != 0) <==> (memProperties & MEMORY_PROPERTY_HOST_COHERENT != 0)
    ensures r.1.flags & !(ALLOCATION_CREATE_HOST_ACCESS_RANDOM | ALLOCATION_CREATE_MAPPED) == 0
    ensures usage & BUFFER_USAGE_SHADER_DEVICE_ADDRESS != 0 ==> r.0.base.deviceAddress == queriedAddress
    ensures usage & BUFFER_USAGE_SHADER_DEVICE_ADDRESS == 0 ==> r.0.base.deviceAddress == 0
  {
    var flags0: bv32 := 0;
    var flags1 := if memProperties & MEMORY_PROPERTY_HOST_VISIBLE != 0
      then flags0 | ALLOCATION_CREATE_HOST_ACCESS_RANDOM else flags0;
    var flags2 := if memProperties & MEMORY_PROPERTY_HOST_COHERENT != 0
      then flags1 | ALLOCATION_CREATE_HOST_ACCESS_RANDOM | ALLOCATION_CREATE_MAPPED else flags1;
    var address := if usage & BUFFER_USAGE_SHADER_DEVICE_ADDRESS != 0 then queriedAddress else 0;
    (VmaBuffer(VulkanBuffers.Buffer(buffer, size, address, manager, 0), allocation, info, allocator),
     AllocationRequest(memProperties, flags2))
  }

  /** CreateStagingBuffer: a transfer-source, host-visible buffer of the requested
      size, so host access is random but not persistently mapped, and it has no
      device address. */
  lemma StagingBufferFlags(manager: Handle, allocator: Handle, size: nat,
                           buffer: Handle, allocation: Handle, info: nat, queriedAddress: nat)
    requires allocator != Null
    ensures var (b, req) := CreateBuffer(manager, allocator, size, BUFFER_USAGE_TRANSFER_SRC,
                                         MEMORY_PROPERTY_HOST_VISIBLE, buffer, allocation, info, queriedAddress);
      && b.base.size == size && b.base.deviceAddress == 0
      && req.flags == ALLOCATION_CREATE_HOST_ACCESS_RANDOM
      && req.requiredFlags == MEMORY_PROPERTY_HOST_VISIBLE
  {
  }

  /** The manager's state: the frame count from initialisation, the deferred
      deletions, and the image allocations keyed by image. */
  datatype Manager = Manager(framesInFlight: nat, deferred: seq<Countdown.Pending<VmaBuffer>>, images: map<Handle, nat>)

  predicate Valid(m: Manager) {
    IsU32(m.framesInFlight) && Countdown.WellFormed(m.deferred)
  }

  datatype DiscardMode = Deferred | Immediate

  /** DiscardBuffer. Deferred: the buffer is moved into one new entry at the back
      with the full frame count, and the caller keeps a moved-from shell. Immediate:
      the buffer is destroyed at once and the deferred list is untouched.
      Result: (manager, caller's buffer, released). */
  function DiscardBuffer(m: Manager, b: VmaBuffer, mode: DiscardMode): (r: (Manager, VmaBuffer, Option<Handle>))
    requires Valid(m)
    ensures Valid(r.0)
    ensures Held(r.1) == None
    ensures r.0.images == m.images && r.0.framesInFlight == m.framesInFlight
    ensures mode == Immediate ==> r.0 == m && r.2 == Held(b)
    ensures mode == Deferred ==>
      && r.0.deferred == m.deferred + [Countdown.Pending(b, m.framesInFlight)]
      && r.2 == None
  {
    match mode
    case Deferred =>
      var (moved, shell) := MoveConstruct(b);
      var m' := m.(deferred := m.deferred + [Countdown.Pending(moved, m.framesInFlight)]);
      assert Valid(m') by {
        Countdown.WellFormedAppend(m.deferred, [Countdown.Pending(moved, m.framesInFlight)]);
      }
      (m', shell, None)
    case Immediate =>
      var (shell, released) := Destroy(b);
      (m, shell, released)
  }

  /** Update: every deferred entry counts down one frame; the entries reaching zero
      are erased and their allocations released (the released list is what erasing
      an entry is evidently meant to do; see EraseAsWritten for what the source's
      erase actually does). Result: (manager, released). */
  function Update(m: Manager): (r: (Manager, seq<Option<Handle>>))
    requires Valid(m)
    ensures Valid(r.0)
    ensures r.0.deferred == Countdown.Tick(m.deferred)
    ensures r.0.images == m.images && r.0.framesInFlight == m.framesInFlight
    ensures multiset(Countdown.Items(r.0.deferred)) + multiset(Countdown.Expired(m.deferred))
      == multiset(Countdown.Items(m.deferred))
    ensures |r.1| == |m.deferred| - |r.0.deferred|
    ensures |r.1| == |Countdown.Expired(m.deferred)| && forall k :: 0 <= k < |r.1| ==> r.1[k] == Held(Countdown.Expired(m.deferred)[k])
    ensures forall e :: e in Countdown.Expired(m.deferred) && Held(e).Some? ==> Held(e) in r.1
    ensures forall h :: h in r.1 && h.Some? ==> exists e :: e in Countdown.Expired(m.deferred) && h == Held(e)
  {
    Countdown.TickPartition(m.deferred);
    var expired := Countdown.Expired(m.deferred);
    (m.(deferred := Countdown.Tick(m.deferred)), seq(|expired|, k requires 0 <= k < |expired| => Held(expired[k])))
  }

  /** A deferred buffer outlives framesInFlight - 1 Update calls and is erased by
      the framesInFlight-th, whatever else is pending. */
  lemma {:induction false} DeferredLifetime(m: Manager, b: VmaBuffer, n: nat)
    requires Valid(m) && m.framesInFlight >= 1
    ensures var m1 := DiscardBuffer(m, b, Deferred).0;
      && Countdown.WellFormed(m1.deferred)
      && (n < m.framesInFlight ==>
           Countdown.TickN(m1.deferred, n) == Countdown.TickN(m.deferred, n) + [Countdown.Pending(b, m.framesInFlight - n)])
      && (n >= m.framesInFlight ==>
           Countdown.TickN(m1.deferred, n) == Countdown.TickN(m.deferred, n))
  {
    var m1 := DiscardBuffer(m, b, Deferred).0;
    var s := m1.deferred;
    var i := |m.deferred|;
    Countdown.Lifetime(s, i, n);
    assert s[..i] == m.deferred;
    assert s[i + 1..] == [];
    Countdown.TickNEmpty<VmaBuffer>(n);
  }

  /** The manager's destructor: every still-pending deferred buffer is destroyed,
      front to back. Result: the allocations released. */
  function Teardown(deferred: seq<Countdown.Pending<VmaBuffer>>): (r: seq<Handle>)
    ensures |r| <= |deferred|
  {
    if |deferred| == 0 then []
    else
      var last := deferred[|deferred| - 1].item;
      Teardown(deferred[..|deferred| - 1]) + (if Held(last).Some? then [Held(last).value] else [])
  }

  /** Teardown releases the allocation of every pending buffer that holds one, and
      nothing else. */
  lemma {:induction false} TeardownReleasesPending(deferred: seq<Countdown.Pending<VmaBuffer>>)
    ensures forall k :: 0 <= k < |deferred| && Held(deferred[k].item).Some? ==>
      Held(deferred[k].item).value in Teardown(deferred)
    ensures forall h :: h in Teardown(deferred) ==>
      exists k :: 0 <= k < |deferred| && Held(deferred[k].item) == Some(h)
  {
    if |deferred| > 0 {
      var p := deferred[..|deferred| - 1];
      TeardownReleasesPending(p);
      assert forall k :: 0 <= k < |p| ==> p[k] == deferred[k];
    }
  }

  /** CreateImage records the allocation under the new image; no other entry changes. */
  function CreateImage(m: Manager, image: Handle, allocation: nat): (r: (Manager, Handle))
    ensures r.1 == image && image in r.0.images && r.0.images[image] == allocation
    ensures forall other :: other in m.images && other != image ==> other in r.0.images && r.0.images[other] == m.images[other]
    ensures r.0.images.Keys == m.images.Keys + {image}
    ensures r.0.deferred == m.deferred && r.0.framesInFlight == m.framesInFlight
  {
    (m.(images := m.images[image := allocation]), image)
  }

  /** DiscardImage: a recorded image is destroyed at once whatever the mode and the
      caller's handle is nulled, but the map entry stays; an unrecorded image is left
      alone. Result: (manager, caller's handle, destroyed image and allocation). */
  function DiscardImage(m: Manager, image: Handle, mode: DiscardMode): (r: (Manager, Handle, Option<(Handle, nat)>))
    ensures r.0 == m
    ensures image in m.images ==> r.1 == Null && r.2 == Some((image, m.images[image]))
    ensures image !in m.images ==> r.1 == image && r.2 == None
  {
    if image in m.images then (m, Null, Some((image, m.images[image]))) else (m, image, None)
  }

  /** Creating then discarding an image destroys exactly that image with the
      allocation recorded for it, in either mode. */
  lemma CreateThenDiscardImage(m: Manager, image: Handle, allocation: nat, mode: DiscardMode)
    ensures var (m1, h) := CreateImage(m, image, allocation);
      DiscardImage(m1, h, mode) == (m1, Null, Some((image, allocation)))
  {
  }
}

=== FILE: vulkan_buffer.dfy ===
/** VulkanBuffer: a move-only wrapper over a native buffer handle. Its destructor
    hands the buffer back to the memory manager that created it. */
module VulkanBuffers {
  import opened Common

  /** The fields the source moves around. `manager` is the memory manager pointer
      (Null once moved from); `assetID` comes from the Buffer base. */
  datatype Buffer = Buffer(buffer: Handle, size: nat, deviceAddress: nat, manager: Handle, assetID: nat)

  /** The buffer the destructor would hand back to its manager, if any. */
  function Owned(b: Buffer): Option<Handle> {
    if b.buffer != Null && b.manager != Null then Some(b.buffer) else None
  }

  /** The default constructor (VulkanBuffer.cpp:16-20); the Buffer base is taken to
      start with assetID 0. */
  function Default(): (b: Buffer)
    ensures Owned(b) == None
    ensures b.size == 0 && b.deviceAddress == 0
  {
    Buffer(Null, 0, 0, Null, 0)
  }

  /** Move construction: the new buffer takes over handle, address, size, manager
      and asset; the source keeps only its device address and asset. */
  function MoveConstruct(src: Buffer): (r: (Buffer, Buffer))
    ensures Owned(r.0) == Owned(src) && Owned(r.1) == None
    ensures r.0 == src
    ensures r.1.buffer == Null && r.1.manager == Null && r.1.size == 0
    ensures r.1.deviceAddress == src.deviceAddress
  {
    (src, src.(buffer := Null, manager := Null, size := 0))
  }

  /** Move assignment as written (VulkanBuffer.cpp:32-45): `aliased` is the
      `this == &obj` case. The target's previous buffer is overwritten without being
      handed back to its manager. Result: (target, source). */
  function MoveAssign(dst: Buffer, src: Buffer, aliased: bool): (r: (Buffer, Buffer))
    requires aliased ==> dst == src
    ensures aliased ==> r.0 == dst && r.1 == dst
    ensures !aliased ==> r.0 == src && Owned(r.1) == None
    ensures !aliased ==> r.1.deviceAddress == src.deviceAddress && r.1.size == 0
  {
    if aliased then (dst, dst)
    else (src, src.(buffer := Null, manager := Null, size := 0))
  }

  /** Move assignment that first hands the target's own buffer back, as the
      destructor would. Result: (target, source, buffer handed back). */
  function MoveAssignReleasing(dst: Buffer, src: Buffer, aliased: bool): (r: (Buffer, Buffer, Option<Handle>))
    requires aliased ==> dst == src
    ensures aliased ==> r.0 == dst && r.1 == dst && r.2 == None
    ensures !aliased ==> r.0 == src && Owned(r.1) == None && r.2 == Owned(dst)
  {
    if aliased then (dst, dst, None)
    else (src, src.(buffer := Null, manager := Null, size := 0), Owned(dst))
  }

  /** Moving never duplicates ownership: exactly the buffers owned before the move
      are owned, or handed back, after it. */
  lemma MoveConservesOwnership(dst: Buffer, src: Buffer)
    requires dst != src
    ensures var (d, s) := MoveConstruct(src); [Owned(d), Owned(s)] == [Owned(src), None]
    ensures var (d, s, back) := MoveAssignReleasing(dst, src, false);
      multiset{Owned(d), Owned(s), back} == multiset{Owned(src), Owned(dst), None}
  {
  }

  /** A moved-from or default-constructed buffer is never handed back by its
      destructor, so a buffer is handed back at most once. */
  lemma MovedFromNeverDiscards(src: Buffer)
    ensures Owned(MoveConstruct(src).1) == None
    ensures Owned(Default()) == None
  {
  }

  /** The as-written move assignment loses the target's buffer: it is owned before
      the assignment and neither object owns it afterwards. */
  lemma MoveAssignLosesTarget()
    ensures var dst := Buffer(Live(1), 64, 0, Live(0), 0);
      var src := Buffer(Live(2), 64, 0, Live(0), 0);
      var (d, s) := MoveAssign(dst, src, false);
      Owned(dst) == Some(Live(1)) && Owned(d) != Some(Live(1)) && Owned(s) != Some(Live(1))
  {
  }

  /** `std::vector::erase` at position i, as the standard library performs it with
      the as-written move assignment: every later element is move-assigned one slot
      down, then the moved-from last element is destroyed. Returns the remaining
      elements and the buffers their destructors hand back. */
  method EraseAsWritten(v: seq<Buffer>, i: nat) returns (w: seq<Buffer>, discarded: seq<Handle>)
    requires i < |v|
    ensures w == v[..i] + v[i + 1..]
    ensures i + 1 < |v| ==> discarded == []
    ensures i + 1 == |v| ==> discarded == (if Owned(v[i]).Some? then [Owned(v[i]).value] else [])
  {
    var a := v;
    var j := i;
    while j + 1 < |a|
      invariant i <= j < |a| == |v|
      invariant a[..j] == v[..i] + v[i + 1..j + 1]
      invariant a[j + 1..] == v[j + 1..]
      invariant j > i ==> Owned(a[j]) == None
      invariant j == i ==> a[j] == v[i]
    {
      var (d, s) := MoveAssign(a[j], a[j + 1], false);
      a := a[..j] + [d, s] + a[j + 2..];
      j := j + 1;
    }
    assert j + 1 == |a| && v[i + 1..j + 1] == v[i + 1..];
    var last := a[j];
    assert j > i ==> Owned(last) == None;
    discarded := if Owned(last).Some? then [Owned(last).value] else [];
    w := a[..j];
  }

  /** Erase with the releasing assignment: exactly the erased element's buffer is
      handed back, wherever it stood. */
  method EraseReleasing(v: seq<Buffer>, i: nat) returns (w: seq<Buffer>, discarded: seq<Handle>)
    requires i < |v|
    ensures w == v[..i] + v[i + 1..]
    ensures discarded == (if Owned(v[i]).Some? then [Owned(v[i]).value] else [])
  {
    var a := v;
    var j := i;
    discarded := [];
    while j + 1 < |a|
      invariant i <= j < |a| == |v|
      invariant a[..j] == v[..i] + v[i + 1..j + 1]
      invariant a[j + 1..] == v[j + 1..]
      invariant j > i ==> Owned(a[j]) == None
      invariant discarded == (if j > i && Owned(v[i]).Some? then [Owned(v[i]).value] else [])
      invariant j == i ==> a[j] == v[i]
    {
      var (d, s, back) := MoveAssignReleasing(a[j], a[j + 1], false);
      if back.Some? {
        discarded := discarded + [back.value];
      }
      a := a[..j] + [d, s] + a[j + 2..];
      j := j + 1;
    }
    var last := a[|a| - 1];
    if Owned(last).Some? {
      discarded := discarded + [Owned(last).value];
    }
    assert j == |a| - 1;
    w := a[..j];
  }
}
